=== FILE: README.md ===
# compressor-ui in Dafny

compressor-ui is a media-conversion toolkit. A browser front end queues image and video files,
lets the user pick output formats and per-file options, and posts batches to a Node.js back end. The
back end sanitises names and options, checks file contents, and converts images with three engines:

- sharp, for raster formats and for rasterising SVG;
- SVGO, to optimise SVG;
- ImageMagick, for formats sharp handles poorly.

It reports one result per file, with each output's size and savings. A scheduler deletes expired
uploads. A build script packs PNG renderings into Windows ICO and macOS ICNS icon files.

This project models that core and proves properties of it:

| file | module | models |
|---|---|---|
| `js.dfy` | `Js` | the JavaScript values and library calls the core relies on: `parseInt`, `toLowerCase`, `split().pop()`, `path.extname`, `path.basename`, truthiness |
| `media.dfy` | `Media` | the upload store, `fs.stat` / `fs.unlink`, savings, and the per-file and per-format loop shapes the processors share |
| `security_filename.dfy` | `FilenameSafety` | `sanitizeFilename`, `generateSecureFilename`, `isPathTraversalSafe`, `isWithinDirectory`, `validateExtension` |
| `security_content.dfy` | `ContentValidation` | `validateFileType`, including the SVG content screen |
| `security_options.dfy` | `OptionValidation` | `validateOptions` |
| `svg_processor.dfy` | `SvgProcessor` | `optimizeSVGs` |
| `imagemagick_processor.dfy` | `ImageMagick` | `processWithImageMagick` and `shouldUseImageMagick` |
| `image_processor.dfy` | `ImageProcessor` | `processImages`: the SVG, ImageMagick and raster lanes |
| `file_cleanup.dfy` | `FileCleanup` | `cleanupExpiredFiles` |
| `icons.dfy` | `Icons` | `createICO` and `createICNS`, as in-place writes into a byte array |
| `app.dfy` | `App` | the queue and request planning of `App.jsx` |
| `results.dfy` | `Results` | the totals and archive list of `Results.jsx` |
| `format_selector.dfy` | `FormatSelector` | file-kind detection and the format toggle |
| `file_conversion_options.dfy` | `FileConversionOptions` | the per-file options dialog |
| `processing_options.dfy` | `ProcessingOptions` | which option panels show |
| `numeric_input.dfy` | `NumericInput` | the digits-only numeric fields with clamp-on-blur |

Code that changes state step by step is modelled as methods. This covers the processor loops, the
cleanup sweep, the SVG screen, the option checks and the icon writers. Each method is proved equal to
a specification function, and the lemmas state what that function promises. Foreign code is passed in
as parameters of the `Codecs` datatype: sharp's `metadata` and `toFile`, SVGO's `optimize`, and
the `convert` binary. The file system is a map from path to size.

Where the code and its design description disagree, the model follows the code. In particular, the
design says savings are floored at zero. In the code only the SVG-to-raster path clamps them
(`imageProcessor.js:123-125`). The raster, ImageMagick and SVGO paths report negative savings when
the output is larger. The model keeps that difference: `Media.Clamped` versus `Media.Unclamped`.

## Model

| member | source | states |
|---|---|---|
| Js.ParseIntNaN | backend/app/utils/security.js:259 | `parseInt(s, 10)` is NaN (`None`) exactly when no digit follows the leading white space and one optional sign |
| Js.ParseIntOfIntToString | backend/app/utils/security.js:259 | `parseInt` of `String(n)` gives `n` back when its magnitude is below 10^21; from 10^21 on, `String(n)` takes the exponent form and `parseInt` reads only its leading digit, a value from 1 to 9 with the sign of `n` |
| Js.DecimalParses | backend/app/utils/security.js:259 | the plain decimal text of a magnitude below 10^21 parses back to it |
| Js.ExponentParses | backend/app/utils/security.js:259 | the exponent-form text of a magnitude of 10^21 or more parses to its leading digit |
| Js.ExponentFormParses | backend/app/utils/security.js:259 | any exponent-form text (`d`, an optional `.` fraction, `e+` and the exponent) parses to its first digit |
| Js.ParseLeading | backend/app/utils/security.js:259 | `parseInt` stops at the first character that is not a digit |
| Js.LeadingDigitRange | backend/app/utils/security.js:259 | the leading digit of a positive magnitude is between 1 and 9 |
| Js.DigitsAreNumber | backend/app/services/imageProcessor.js:224-225 | the numeric coercion of `resize / 100` reads a run of decimal digits as its value |
| Js.NumberOfDigits | backend/app/services/imageProcessor.js:224-225 | the coercion and `parseInt` agree on a run of digits; a trailing non-digit makes the coercion NaN while `parseInt` still reads the digits |
| Js.TextToNumberExamples | backend/app/services/imageProcessor.js:224-225 | the coercion reads `"50"` as 50, `""` as 0, and `"50%"` as NaN |
| Js.ToNumberOfArray | backend/app/services/imageProcessor.js:224-225 | an array coerces through its text, so `[50]` reads as 50 |
| Js.ToNumberOfObject | backend/app/services/imageProcessor.js:224-225 | a plain object coerces to NaN |
| Js.Lower | backend/app/utils/security.js:223 | `toLowerCase` on ASCII: the length is kept and each character is mapped on its own, A-Z to a-z (code point up by 32), all others unchanged (non-ASCII cases are under Left out) |
| Js.Extname | backend/app/utils/security.js:64 | `path.extname` is empty, or a dot followed by no other dot and no `/`, and is a suffix of the last path component |
| Js.Basename | backend/app/utils/security.js:65 | `path.basename` never contains `/` |
| Js.SplitPopIff | frontend/src/components/FormatSelector.jsx:18 | `split(c).pop()` is `t` exactly when `t` has no `c` and is the whole string or follows its last `c` |
| Js.LowerSplitPop | frontend/src/components/FormatSelector.jsx:18 | lower-casing and taking the last `.` segment commute |
| Media.Stat | backend/app/services/imageProcessor.js:184 | `fs.stat` succeeds exactly when the path exists, and reads its size |
| Media.Unlink | backend/app/services/imageProcessor.js:265 | `fs.unlink` succeeds exactly when the path exists, and removes that path and nothing else |
| Media.Unclamped | backend/app/services/imageProcessor.js:254 | savings are `(orig - out) / orig`, negative when the output is larger; a zero original gives NaN or -Infinity |
| Media.Clamped | backend/app/services/imageProcessor.js:123-125 | savings on the SVG-to-raster path are never negative: the exact fraction when the output is smaller, 0 otherwise |
| Media.OrDefault | backend/app/services/imageProcessor.js:13-22 | a destructuring default applies only to `undefined`; `null`, 0 and `''` are kept |
| Media.LaneResults | backend/app/services/imageProcessor.js:182-282 | a per-file loop whose body pushes one result per file reports once per file, in upload order |
| Media.FormatsResults | backend/app/services/imageProcessor.js:197-250 | a successful format loop yields one entry per requested format, in request order |
| Media.FormatsFailureSticks | backend/app/services/imageProcessor.js:274-281 | once a format throws, the remaining formats are not run: the loop's outcome and store are fixed |
| Media.FilterMembers | backend/app/services/imageProcessor.js:40-41 | `filter` keeps exactly the elements that pass the predicate |
| Media.FilterPartition | backend/app/services/imageProcessor.js:40-41 | three filters whose predicates split every element partition the sequence as a multiset |
| Media.LaneKeepsFiles | backend/app/services/svgProcessor.js:39-83 | a loop whose body never deletes a file keeps every file of the store |
| FilenameSafety.SanitizeFilename | backend/app/utils/security.js:58-89 | a missing, empty or non-string name gives `unnamed`; otherwise the result is the cleaned base name followed by the lower-cased extension, and the base is non-empty, at most 200 characters and allow-listed |
| FilenameSafety.StripDangerous | backend/app/utils/security.js:68-70 | the loop applies the eight dangerous patterns in order |
| FilenameSafety.CleanBaseIsValid | backend/app/utils/security.js:66-86 | after cleaning, a base name is never empty, is at most 200 characters, and holds only letters, digits, `_` and `-` |
| FilenameSafety.SanitizedNameSplits | backend/app/utils/security.js:64-88 | `path.extname` of the sanitised name is its (lower-case) extension, and `path.basename` without it gives back the base |
| FilenameSafety.GenerateSecureFilename | backend/app/utils/security.js:399-409 | the name is `base-timestamp-random36` followed by the sanitised extension, and `path.extname` of it is that extension whenever the timestamp is below 10^21 ms |
| FilenameSafety.RadixDigitsSafe | backend/app/utils/security.js:406 | `toString(36)` yields only allow-listed characters |
| FilenameSafety.IsPathTraversalSafe | backend/app/utils/security.js:96-122 | a name passes exactly when it is a non-empty string with no NUL, no `..`, no `/` and no `\` |
| FilenameSafety.TraversalGateRejects | backend/app/utils/security.js:102-109 | a name with a NUL, `/` or `\` at any position fails |
| FilenameSafety.WithinDirectoryIsSegmentPrefix | backend/app/utils/security.js:130-136 | the string test holds exactly when the directory's resolved path segments are a prefix of the file's, so `/up/uploads2/x` is not inside `/up/uploads` |
| FilenameSafety.Resolve | backend/app/utils/security.js:131-132 | `path.resolve` yields only non-empty segments without `/` |
| FilenameSafety.ValidateExtension | backend/app/utils/security.js:222-240 | valid exactly when the lower-cased extension is in the allow-list of the claimed kind, with an error exactly when invalid; an unknown kind is always rejected |
| FilenameSafety.SanitizePreservesExtensionVerdict | backend/app/utils/security.js:58-89 | sanitising a non-empty name never changes `validateExtension`'s verdict on it |
| FilenameSafety.UpperCaseExtensionGluedAsWritten | backend/app/utils/security.js:64-65 | as written, a clean name whose extension has an upper-case letter gets the extension's letters glued onto its base |
| FilenameSafety.PhotoJpgAsWritten | backend/app/utils/security.js:64-88 | as written, `photo.JPG` becomes `photoJPG.jpg` |
| FilenameSafety.UnfilteredExtensionFailsGateAsWritten | backend/app/utils/security.js:64-88 | as written, an extension holding `\` or NUL survives sanitising, so the sanitised name fails `isPathTraversalSafe` |
| FilenameSafety.SanitizeFilenameFixed | backend/app/utils/security.js:58-89 | corrected: every sanitised name passes `isPathTraversalSafe` |
| FilenameSafety.CleanNameKeptFixed | backend/app/utils/security.js:58-89 | corrected: a clean name comes back unchanged, apart from lower-casing its extension |
| ContentValidation.ScreenSvg | backend/app/utils/security.js:167-179 | the pattern loop reports danger exactly when one of the five patterns (script tag, `javascript:`, event handler, `foreignObject`, external `xlink:href`) matches somewhere |
| ContentValidation.ValidateFileType | backend/app/utils/security.js:144-214 | the verdict is that of the access check, then the SVG branch (kind check, read, screen) or the sniffed MIME type; a throwing `fs.access`, `fs.readFile` or `fileTypeFromFile` is reported as `Validation error: <message>` |
| ContentValidation.ValidateSvg | backend/app/utils/security.js:153-184 | the SVG branch's verdict |
| ContentValidation.FileTypeVerdictValid | backend/app/utils/security.js:144-214 | a call on the file that throws rejects it with `Validation error: ` and that call's message and no detected type; otherwise valid exactly when either it is an SVG claimed as an image, with a root marker and no dangerous pattern, or its sniffed MIME type is in the allow-list of the claimed kind; a valid verdict carries no error and an invalid one always does |
| ContentValidation.SvgVerdictValid | backend/app/utils/security.js:153-184 | an SVG is valid exactly when it is claimed as an image, has a root marker and matches no dangerous pattern |
| ContentValidation.SniffedVerdictValid | backend/app/utils/security.js:187-209 | a binary is valid exactly when its sniffed MIME type is allow-listed for the claimed kind; the detected type is the sniffed one |
| ContentValidation.MissingFileRejected | backend/app/utils/security.js:144-214 | a file `fs.access` cannot find is rejected with `Validation error: ENOENT: no such file or directory, access '<path>'` and no detected type, whatever kind is claimed |
| ContentValidation.SvgOnlyForImages | backend/app/utils/security.js:154-156 | an SVG claimed as a video is rejected, with detected type `svg` |
| ContentValidation.ScriptTagRejected | backend/app/utils/security.js:168 | any `<script` (any case) followed by white space or `>` rejects the SVG |
| ContentValidation.ExternalReferenceRejected | backend/app/utils/security.js:172 | `xlink:href="` not followed by `#` rejects the SVG |
| ContentValidation.FragmentReferenceAllowed | backend/app/utils/security.js:172 | a text in which every `xlink:href` is followed by `=` and a quoted value starting with `#` (spaces allowed around `=`) never matches the external-reference pattern |
| ContentValidation.FragmentOnly | backend/app/utils/security.js:172 | the positions of `=` and of the quote after `xlink:href` are forced, so a fragment reference has no reading as an external one |
| OptionValidation.ValidateOptions | backend/app/utils/security.js:248-370 | the result is the checks' verdict; valid exactly when there are no errors; a non-object gives the single error and no sanitised fields |
| OptionValidation.CommonBlocks | backend/app/utils/security.js:258-308 | the six common checks run in source order |
| OptionValidation.ImageBlocks | backend/app/utils/security.js:311-329 | for images, `formats` and `useImageMagick` follow the common checks |
| OptionValidation.VideoBlocks | backend/app/utils/security.js:332-363 | for videos, `format`, `bitrate`, `preset` and `audio` follow the common checks |
| OptionValidation.OptionsVerdictSpec | backend/app/utils/security.js:248-370 | a field is sanitised exactly when it is checked for this kind, present and accepted; valid exactly when no checked field is rejected; at most one error per field |
| OptionValidation.RunWithSanitized | backend/app/utils/security.js:258-362 | the sanitised object holds exactly the accepted fields, with the value each check produced |
| OptionValidation.RunWithErrors | backend/app/utils/security.js:258-362 | every rejected field adds its message; no errors exactly when nothing is rejected |
| OptionValidation.RangeCheckSpec | backend/app/utils/security.js:258-300 | a numeric field is skipped when undefined (width and height: also null), accepted as the integer `parseInt` reads from its text (for a number, from `String(n)`, exponent form included) when in range, and rejected with its message otherwise |
| OptionValidation.InRangeNumberKept | backend/app/utils/security.js:258-300 | a number, or its text, is checked as the value `parseInt` reads back from its text: kept when that value is in range and rejected otherwise; for a magnitude below 10^21 that value is the number itself |
| OptionValidation.HugeQualityKept | backend/app/utils/security.js:258-300 | a quality of 10^21 or more is accepted, as its leading digit |
| OptionValidation.QualityBounds | backend/app/utils/security.js:258-265 | quality 0 and 101 are rejected, 1 and 100 accepted |
| OptionValidation.MemberCheckSpec | backend/app/utils/security.js:276-282 | an enumerated field is accepted exactly when it is one of the allowed strings, rejected when present and not allowed |
| OptionValidation.FormatsCheckSpec | backend/app/utils/security.js:312-324 | an array of formats is accepted exactly when every element is allowed; otherwise the message lists the offending elements |
| OptionValidation.InvalidFormats | backend/app/utils/security.js:317 | the filtered list holds only disallowed formats, and is empty exactly when every format is allowed |
| OptionValidation.BitrateExamples | backend/app/utils/security.js:344 | `2M`, `500k` and `800` are bitrates; `2MB`, `M` and the empty string are not |
| OptionValidation.BitrateShape | backend/app/utils/security.js:344 | a bitrate starts with a digit, and all of it but the unit is digits |
| SvgProcessor.ConfigOf | backend/app/services/svgProcessor.js:15-19 | precision 2, `removeViewBox` false and `cleanupIDs` true, unless the options say otherwise |
| SvgProcessor.OptimizeSvgs | backend/app/services/svgProcessor.js:11-86 | the loop's results and store are those of the optimisation lane, deleting inputs |
| SvgProcessor.OptimizeFileResult | backend/app/services/svgProcessor.js:39-83 | each file reports under its client name; a success has one `svg` entry named after the client name, with unclamped savings |
| SvgProcessor.OptimizeLaneResults | backend/app/services/svgProcessor.js:39-83 | one result per file, in order, each success as above |
| SvgProcessor.OptimizeFileStore | backend/app/services/svgProcessor.js:50-61 | on success the output is added and the input removed exactly when its path differs from the output; a failure leaves the store as it was |
| SvgProcessor.OptimizeLaneKeepsInputs | backend/app/services/svgProcessor.js:59-61 | with input deletion off, no file of the store is removed |
| ImageMagick.SpecialtyByExtension | backend/app/services/imageMagickProcessor.js:114-131 | a name is routed to ImageMagick exactly when its lower-cased extension is a preferred one; a name without an extension never is |
| ImageMagick.SpecialtyIsNotSvg | backend/app/services/imageMagickProcessor.js:114-131 | no name routed to ImageMagick is an SVG |
| ImageMagick.BuildCommand | backend/app/services/imageMagickProcessor.js:60-71 | the command is the quoted input, ` -resize N%` unless resize is 100, ` -quality Q`, then the quoted output |
| ImageMagick.SettingsOf | backend/app/services/imageMagickProcessor.js:35-39 | quality 80, resize 100 and formats `['webp']` unless the options say otherwise |
| ImageMagick.ConvertFormats | backend/app/services/imageMagickProcessor.js:48-85 | the format loop is the specification's loop, stopping at the first failure |
| ImageMagick.ProcessWithImageMagick | backend/app/services/imageMagickProcessor.js:29-109 | the method's results and store are those of the specification |
| ImageMagick.ConvertFileResult | backend/app/services/imageMagickProcessor.js:43-106 | each file reports under its client name; a success names processor `ImageMagick` and has one entry per format, named after the staged file name, with unclamped savings |
| ImageMagick.MagickResults | backend/app/services/imageMagickProcessor.js:29-109 | when ImageMagick is missing, the call throws and the store is untouched; otherwise one result per file, in order |
| ImageProcessor.SettingsOf | backend/app/services/imageProcessor.js:13-22 | the defaults are quality 80, resize 100, `['webp']`, ImageMagick unless disabled, percent mode, no dimensions and no crop; `formats` must be absent or an array, otherwise `formats.some` throws |
| ImageProcessor.SettingsDefaults | backend/app/services/imageProcessor.js:13-41 | empty options give the defaults; a `formats` that is neither absent nor an array throws the TypeError before any file is touched |
| ImageProcessor.ScaledRounds | backend/app/services/imageProcessor.js:224-225 | `resize` is first coerced to a number as `/` does; a scaled dimension is the nearest integer to `n * resize / 100`, with halves rounded up, and NaN exactly when the coercion gives NaN |
| ImageProcessor.ResizeRule | backend/app/services/imageProcessor.js:208-227 | a box resize only in absolute mode with a truthy dimension (`cover` exactly when crop is `cover`); otherwise no resize for resize 100, a metadata failure passed on, the rounded percentage of the source dimensions after coercing `resize` to a number (text and arrays included), and no box when the coercion gives NaN |
| ImageProcessor.TextResize | backend/app/services/imageProcessor.js:208-227 | a percentage sent as the text `"50"` halves the dimensions, rounding halves up |
| ImageProcessor.TextHundredResizes | backend/app/services/imageProcessor.js:208-227 | the text `"100"` is not the number 100, so it still produces a box, of the source dimensions |
| ImageProcessor.ChooseResize | backend/app/services/imageProcessor.js:208-227 | the resize branch as the loop runs it |
| ImageProcessor.ChooseEncoder | backend/app/services/imageProcessor.js:230-249 | the format switch: PNG at level 9, AVIF, JPEG for `jpg` and `jpeg`, WebP for anything else |
| ImageProcessor.Encode | backend/app/services/imageProcessor.js:230-254 | a written output is an entry for the requested format, named after the client name, with savings clamped exactly for an SVG source |
| ImageProcessor.RenderOne | backend/app/services/imageProcessor.js:197-262 | one iteration of a sharp format loop |
| ImageProcessor.RenderFormats | backend/app/services/imageProcessor.js:197-262 | a sharp format loop, stopping at the first failure |
| ImageProcessor.RenderLoopResult | backend/app/services/imageProcessor.js:197-262 | a successful sharp loop has one entry per format, in order |
| ImageProcessor.RasterizeSvgs | backend/app/services/imageProcessor.js:52-158 | the SVG rasterising loop as written |
| ImageProcessor.RasterizeImages | backend/app/services/imageProcessor.js:182-282 | the raster loop |
| ImageProcessor.RasterFileResult | backend/app/services/imageProcessor.js:182-282 | a raster file reports under its client name; a success has one entry per requested format other than `svg`, in request order |
| ImageProcessor.RasterLaneResults | backend/app/services/imageProcessor.js:182-282 | one result per raster file, in order, each success as above |
| ImageProcessor.RasterizeSvgFileResult | backend/app/services/imageProcessor.js:52-158 | with a raster format requested, an SVG yields exactly one result; a success lists the raster formats in order, and its savings are never negative |
| ImageProcessor.RasterizeSvgLaneResults | backend/app/services/imageProcessor.js:52-158 | one result per SVG, in order, each success as above |
| ImageProcessor.RunSvgPhase | backend/app/services/imageProcessor.js:44-160 | the SVG block: optimise if `svg` is requested, then rasterise if a raster format is |
| ImageProcessor.RunMagickPhase | backend/app/services/imageProcessor.js:163-179 | the ImageMagick block's results, store and fallback files |
| ImageProcessor.MagickFallback | backend/app/services/imageProcessor.js:163-179 | when either probe says ImageMagick is missing, the specialty files fall back untouched to the raster lane; otherwise ImageMagick reports once per file and nothing falls back |
| ImageProcessor.ProcessImages | backend/app/services/imageProcessor.js:12-285 | results come in the order SVG optimisation, SVG rasterisation, ImageMagick, raster; or the TypeError is thrown before any file is touched |
| ImageProcessor.ExactlyOneLane | backend/app/services/imageProcessor.js:40-41 | every upload belongs to exactly one of the SVG, ImageMagick and raster lanes |
| ImageProcessor.LanesPartition | backend/app/services/imageProcessor.js:40-41 | the three lanes hold exactly the uploads, each once, as a multiset |
| ImageProcessor.ResultCount | backend/app/services/imageProcessor.js:12-285 | a batch yields one result per non-SVG upload, plus one per SVG when `svg` is requested and one more per SVG when a raster format is |
| ImageProcessor.SvgPhaseCount | backend/app/services/imageProcessor.js:44-160 | the SVG phase yields one result per SVG for each of optimisation and rasterisation that is requested |
| ImageProcessor.MagickPhaseCount | backend/app/services/imageProcessor.js:163-179 | every specialty file is reported or falls back, and never both |
| ImageProcessor.RasterLaneCount | backend/app/services/imageProcessor.js:182-282 | one result per raster file |
| ImageProcessor.SvgPhaseBoth | backend/app/services/imageProcessor.js:44-158 | with both `svg` and a raster format requested, the rasterising pass runs on the store the optimiser leaves |
| ImageProcessor.SvgOnlyBatch | backend/app/services/imageProcessor.js:12-285 | a batch with no specialty or raster file reports what its SVG phase reports |
| ImageProcessor.StagedSvgLostAsWritten | backend/app/services/svgProcessor.js:59-61 | as written, with formats `['svg', 'png']`, the optimiser deletes the staged SVG, and the rasterising pass fails on it with ENOENT |
| ImageProcessor.LoneSvgPhaseAsWritten | backend/app/services/imageProcessor.js:44-55 | as written, the SVG phase on one staged SVG yields the optimised result, then a stat error |
| ImageProcessor.StagedSvgKeptCorrected | backend/app/services/imageProcessor.js:44-160 | corrected: the staged SVG is kept through optimisation, rasterised to PNG, then removed |
| ImageProcessor.LoneSvgPhaseCorrected | backend/app/services/imageProcessor.js:44-160 | corrected: the SVG phase on one staged SVG yields the optimised result and a PNG result, and removes the staged SVG |
| FileCleanup.CleanupExpiredFiles | backend/app/utils/fileCleanup.js:20-67 | the counters and the directory after the sweep are those of the specification |
| FileCleanup.FaultsStep | backend/app/utils/fileCleanup.js:35-56 | one more listed name adds one to the number of faulty positions exactly when that position is faulty |
| FileCleanup.SweepEntryFault | backend/app/utils/fileCleanup.js:38-56 | one iteration adds one to `errors` exactly when its position is faulty |
| FileCleanup.SweepFacts | backend/app/utils/fileCleanup.js:35-56 | after the sweep, an entry is gone exactly when it was listed, was not a directory, was older than ten minutes, and both `stat` and `unlink` worked; no other entry changes; `cleaned` counts the removals; `errors` is exactly the number of listed positions whose name is missing, whose `stat` throws, whose expired file's `unlink` throws, or whose removable file was already removed by an earlier listing of the same name; each listed name adds at most one to `cleaned + errors` |
| FileCleanup.CleanupFacts | backend/app/utils/fileCleanup.js:20-67 | a missing directory gives `{0, 0}` and a failed listing `{0, 1}`, both touching nothing; directories and files aged ten minutes or less always survive; after a listing, `errors` is the number of faulty positions |
| Icons.LERoundTrip | scripts/generate-icons.cjs:131-145 | a value written little-endian in `w` bytes reads back, when it fits |
| Icons.BERoundTrip | scripts/generate-icons.cjs:212-218 | a value written big-endian in `w` bytes reads back, when it fits |
| Icons.Put | scripts/generate-icons.cjs:131-152 | a write sets exactly the target bytes and leaves every other byte alone |
| Icons.DimByte | scripts/generate-icons.cjs:117-124 | a dimension of 256 or more is stored as 0, a smaller one as itself |
| Icons.SortBySizeSorted | scripts/generate-icons.cjs:114 | the sort orders images largest first and is a permutation |
| Icons.SortImages | scripts/generate-icons.cjs:114 | the in-place sort leaves the array equal to the stable largest-first order of its old contents |
| Icons.LayoutEntries | scripts/generate-icons.cjs:110-124 | the layout loop gives each image its entry and ends at the start plus the total data length |
| Icons.CreateIco | scripts/generate-icons.cjs:90-155 | the images are sorted in place, and a fresh buffer holds exactly the ICO file for that order |
| Icons.WriteIco | scripts/generate-icons.cjs:127-152 | a fresh buffer holds exactly the ICO file |
| Icons.IcoLength | scripts/generate-icons.cjs:127-128 | the file is 6 bytes, plus 16 per image, plus the data |
| Icons.IcoHeaderReadBack | scripts/generate-icons.cjs:131-133 | the header reads back as reserved 0, type 1, and the image count |
| Icons.IcoDirectoryReadBack | scripts/generate-icons.cjs:136-147 | entry k reads back as its dimension bytes, palette 0, reserved 0, one plane, 32 bits, its data length, and the offset 6 + 16n plus the lengths before it |
| Icons.IcoDataAt | scripts/generate-icons.cjs:150-152 | image k's data sits at the offset its directory entry records |
| Icons.SortKeepsFit | scripts/generate-icons.cjs:114 | sorting does not change whether the file fits the format's 16- and 32-bit fields |
| Icons.CreateIcns | scripts/generate-icons.cjs:193-224 | a fresh buffer holds exactly the ICNS file |
| Icons.IcnsLength | scripts/generate-icons.cjs:203-206 | the declared total is 8 plus each chunk's 8 bytes and data |
| Icons.IcnsReadBack | scripts/generate-icons.cjs:193-224 | the file starts with `icns` and its own length, and walking the chunks from byte 8 recovers every image's type and data, in order |
| Icons.WalkRoundTrip | scripts/generate-icons.cjs:215-221 | walking a sequence of written chunks gives back the chunks |
| App.FilesAdded | frontend/src/App.jsx:39-54 | the queue keeps its files in place and grows by at most the new files |
| App.FilesAddedMembers | frontend/src/App.jsx:43-50 | what is appended is exactly the new files whose key is not already queued |
| App.FilesAddedKeepsBatchDuplicates | frontend/src/App.jsx:47-50 | two copies of a new file in one batch are both queued |
| App.FilesAddedTwice | frontend/src/App.jsx:39-54 | adding the same batch twice changes nothing the second time |
| App.AddedIdQueued | frontend/src/App.jsx:39-54 | after adding, every new file's key is queued |
| App.RemoveAt | frontend/src/App.jsx:57 | the queue shrinks by one exactly when `index` is a position in it, and otherwise keeps its length |
| App.RemoveAtSlices | frontend/src/App.jsx:57 | removing position `index` drops that element and nothing else, and an index outside the queue changes nothing |
| App.ReindexedAt | frontend/src/App.jsx:59-73 | the removed file's options are dropped, options above it move down one, and options below it stay |
| App.RemoveFileOptions | frontend/src/App.jsx:59-73 | the re-indexing loop yields the re-indexed map whatever order it visits the keys in |
| App.OptionsFollowFiles | frontend/src/App.jsx:56-74 | after a removal, the options at position j belong to the file now at position j |
| App.FileOptionsChange | frontend/src/App.jsx:76-81 | the file's options are replaced and every other file's are kept |
| App.Clear | frontend/src/App.jsx:304-308 | the queue, results and per-file options are emptied; mode and defaults stay |
| App.ClearThenAdd | frontend/src/App.jsx:304-308 | after clearing, adding files queues exactly them |
| App.FileKinds | frontend/src/App.jsx:106-115 | image files are the raster and SVG kinds of the selector, videos its video kind, and no file is both |
| App.ResolveOptions | frontend/src/App.jsx:141-180 | an SVG without own options, or in `optimize` mode, gets the SVG defaults with its own overrides and SVG output only; another file with own options gets the image defaults overridden by them; otherwise the image defaults |
| App.SavedDialogStillOptimizes | frontend/src/App.jsx:141-180 | an SVG saved from the dialog without choosing a mode is still only optimised |
| App.OwnOptionsWin | frontend/src/App.jsx:141-180 | a file's own option (other than `formats`) always reaches its request |
| App.PlanFacts | frontend/src/App.jsx:130-202 | the plan has one request per file that is sent, in queue order, each with that file's options |
| App.PlanCustomRequests | frontend/src/App.jsx:130-202 | the custom-options loop sends each image file its resolved options, in queue order |
| App.PlanVideoRequests | frontend/src/App.jsx:252-295 | the video loop sends each video its own options when it has them, and the video defaults otherwise |
| App.BatchPlanSendsImages | frontend/src/App.jsx:203-251 | the batch path sends only queued image files |
| App.BatchPlanEmptyIff | frontend/src/App.jsx:203-251 | the batch path sends nothing exactly when no queued file is an image |
| App.BatchesOf | frontend/src/App.jsx:203-251 | at most two batches, none empty, each holding one of the two groups, and none exactly when both groups are empty |
| App.BatchesSplitImages | frontend/src/App.jsx:206-207 | the SVG and raster groups split the image files as a multiset |
| App.BatchMembers | frontend/src/App.jsx:203-251 | the two batches hold exactly the queued image files |
| App.ProcessPlanPath | frontend/src/App.jsx:98-130 | nothing happens exactly for an empty queue; the alert comes exactly when no queued file is of the mode's kind, with that kind's message; the per-file loop runs exactly when an image is queued and any file has own options, the batches exactly when none has; any mode other than `images` runs the video loop; each path sends that path's requests |
| App.KindQueued | frontend/src/App.jsx:119-121 | the filtered image and video lists are empty exactly when no queued file is of that kind |
| App.FilterEmpty | frontend/src/App.jsx:119-121 | a filter is empty exactly when no element passes |
| App.BatchPlanNonEmpty | frontend/src/App.jsx:203-251 | with an image queued, the batch path sends at least one batch |
| App.PlanReaches | frontend/src/App.jsx:130-202 | a loop over a queue holding a file it sends makes at least one request, and only for files it sends |
| App.BatchMatchesResolve | frontend/src/App.jsx:203-251 | the batch path sends each file the options the custom path would resolve for it without own options |
| Results.ForMode | frontend/src/components/Results.jsx:6-14 | `images` mode keeps exactly the rows with outputs; any other mode keeps exactly those without |
| Results.TotalSavings | frontend/src/components/Results.jsx:67-69 | 0 when nothing was measured before; otherwise the exact percentage, negative exactly when the total grew |
| Results.TotalsAppend | frontend/src/components/Results.jsx:60-66 | totals of two lists add up |
| Results.ModesSplitTotals | frontend/src/components/Results.jsx:6-14 | the image view and the video view split the totals of all rows |
| Results.CollectFilenames | frontend/src/components/Results.jsx:32-39 | the collection loop yields every output name of the image rows and each non-empty video filename, in order |
| Results.DownloadAllRequest | frontend/src/components/Results.jsx:29-58 | no request when there is nothing to archive; otherwise a request naming the collected files |
| Results.FilenamesMembers | frontend/src/components/Results.jsx:32-39 | a name is archived exactly when some row contributes it |
| Results.FilenamesLength | frontend/src/components/Results.jsx:32-39 | at most one name per output plus one per row |
| Results.HiddenMeansEmpty | frontend/src/components/Results.jsx:72-74 | when the view is hidden, its totals are zero and its archive list is empty |
| FormatSelector.DetectTypes | frontend/src/components/FormatSelector.jsx:14-30 | each flag is set exactly when some file in the queue is of that kind |
| FormatSelector.HasIff | frontend/src/components/FormatSelector.jsx:14-30 | a kind is detected exactly when some file has it |
| FormatSelector.SvgKindIff | frontend/src/components/FormatSelector.jsx:18-24 | a file is detected as SVG exactly when its lower-cased name is `svg` or ends in `.svg` |
| FormatSelector.Toggle | frontend/src/components/FormatSelector.jsx:42-50 | an unselected format is appended; the result is never empty |
| FormatSelector.ToggleFacts | frontend/src/components/FormatSelector.jsx:42-50 | toggling a selected format removes exactly that format, and is refused exactly when the selection holds nothing else |
| FormatSelector.ToggleTwice | frontend/src/components/FormatSelector.jsx:42-50 | toggling a format in and out again restores the selection, unless it was empty |
| FileConversionOptions.InitialOptions | frontend/src/components/FileConversionOptions.jsx:12-14 | an SVG without a truthy `svgMode` starts in `optimize`; every other field, and every other file, starts from the global options |
| FileConversionOptions.InitialOptionsSettled | frontend/src/components/FileConversionOptions.jsx:12-14 | an SVG always starts with a mode, and computing the initial options again changes nothing |
| FileConversionOptions.SvgFileVsKind | frontend/src/components/FileConversionOptions.jsx:9 | the dialog's SVG test and the selector's detection differ only on the bare name `svg` |
| FileConversionOptions.SwitchToAbsolute | frontend/src/components/FileConversionOptions.jsx:46-60 | the mode becomes `absolute`; when both original dimensions are known, an unset width or height takes the original; nothing else changes |
| FileConversionOptions.DimensionEffect | frontend/src/components/FileConversionOptions.jsx:63-76 | in absolute mode, unset dimensions take the originals; in other modes nothing changes |
| FileConversionOptions.EffectAfterSwitch | frontend/src/components/FileConversionOptions.jsx:46-76 | after the switch, the effect has nothing left to fill |
| FileConversionOptions.EffectAgreesWithSwitch | frontend/src/components/FileConversionOptions.jsx:46-76 | in absolute mode the effect and the switch agree on every field |
| FileConversionOptions.EffectIdempotent | frontend/src/components/FileConversionOptions.jsx:63-76 | running the effect twice is running it once |
| FileConversionOptions.FormatToggle | frontend/src/components/FileConversionOptions.jsx:434-441 | the toggle appends an unselected format; a selected one is removed (exactly that format, every occurrence), and the array is left as it was exactly when that format is the only one selected; no other field changes |
| FileConversionOptions.FormatToggleNonEmpty | frontend/src/components/FileConversionOptions.jsx:434-441 | after a toggle, `formats` is never empty |
| ProcessingOptions.DetectImageTypes | frontend/src/components/ProcessingOptions.jsx:8-22 | the flags are the queue's raster and SVG detections |
| ProcessingOptions.PanelsForQueue | frontend/src/components/ProcessingOptions.jsx:28-232 | the raster panel shows exactly for a raster file, or for an SVG with a raster format selected; the SVG panel exactly for an SVG; the prompt exactly when neither panel shows, that is, when every file is a video or of an unknown kind |
| NumericInput.OnChange | frontend/src/components/ProcessingOptions.jsx:57-62 | text that is empty or all digits is stored (empty as `''`, digits as their exact integer, which Left out compares with `parseInt`'s double); any other text changes nothing |
| NumericInput.OnBlur | frontend/src/components/ProcessingOptions.jsx:63-66 | empty text gives the field's default, unreadable text gives NaN, and any number is clamped into the field's range |
| NumericInput.ChangeField | frontend/src/components/FileConversionOptions.jsx:193-198 | accepted text updates that one field and no other; refused text makes no update |
| NumericInput.BlurField | frontend/src/components/FileConversionOptions.jsx:199-203 | the field becomes its clamped value, or its default when empty; no other field changes |
| NumericInput.BlurTwice | frontend/src/components/ProcessingOptions.jsx:63-66 | blurring the value a blur displays gives the same value, for a range whose bounds are below 10^21 in magnitude |
| NumericInput.BlurAfterTyping | frontend/src/components/ProcessingOptions.jsx:57-66 | blurring after typing accepted text gives what blurring the text directly would, for values below 10^21; from 10^21 on, the stored number's text is in exponent form and blurring it clamps only its leading digit, taken from the exact value as Left out states |
| NumericInput.ChangeThenBlur | frontend/src/components/FileConversionOptions.jsx:193-203 | typing then blurring a field gives the same options as blurring the typed text, whatever the field held before, for values below 10^21; from 10^21 on it clamps the leading digit of the exact value instead, as Left out states |

## Left out

- `safeJsonParse` (`backend/app/utils/security.js:378-392`) is not part of this model. It wraps `JSON.parse`, whose grammar the model does not include.
- The HTTP routes, multer's staging of uploads, the archiver and the video pipeline (ffmpeg) are left out. An upload appears as its staged directory, staged name and client name.
- sharp, SVGO, content sniffing and the `convert` binary are foreign code. They are parameters (`Codecs`, `StagedFile.sniffed`), so every property holds for any behaviour of them.
- `isImageMagickAvailable` runs a child process. Its two answers in one batch are the booleans `firstProbe` and `secondProbe`.
- `startCleanupScheduler` (`backend/app/utils/fileCleanup.js:72-86`) sets timers, and all logging is omitted. The clock reading is the `now` parameter.
- Floating point is not modelled:
  - savings are exact fractions, without `toFixed(2)`;
  - `formatFileSize` is left out;
  - the aspect-ratio handlers of `FileConversionOptions.jsx:79-96` divide floats and are left out.
- ImageProcessor.ScaledRounds: `Math.round` is modelled on exact products, so the rounding of a product that is not exactly representable as a double is not captured.
- `path.join` is modelled as plain concatenation with one `/` (Media.PathOf, Media.OutputPath). The normalisation `path.join` performs, which collapses `.`, `..` and repeated separators, is not modelled.
  - The requested formats come from the request body without validation (`backend/app/routes/process.js:39-45` does not call `validateOptions`). The image pipeline only drops `svg`, so a format may contain `/` or `..`.
  - For such a format the model does not capture which path is written. That covers a path outside the uploads directory, and an output path that normalises onto the staged input file.
- `path.resolve` is modelled on `/`-separated segments and `path.basename` on `/`. Windows separators and drive letters are not modelled.
- Js.ToNumber: text is read as a number only when it is an optionally signed run of decimal digits, possibly surrounded by white space. Fractions, exponents, hexadecimal and `Infinity` read as NaN, since numbers are modelled as integers.
- FilenameSafety.GenerateSecureFilename: the extension of the generated name is proved only for timestamps below 10^21 ms. From there `String(timestamp)` takes the exponent form, whose `.` is then read as the extension of a name that has none.
- NumericInput.OnChange: the typed digits are stored as their exact integer. `parseInt` returns the nearest double, so text beyond 2^53 is rounded in the source and not in the model. Below 10^21 the blurred results still agree, because every such value clamps to the field's upper bound, but the stored and displayed intermediate differs (`12345678901234567891` displays as `12345678901234567000`).
- NumericInput.BlurAfterTyping: the clause for values of 10^21 and over clamps the leading digit of the exact typed value. The source clamps the leading digit of the shortest text for the rounded double, which can differ: 22 nines round to 10^22, display as `1e+22` and blur to 1, where the model gives 9. Modelling that would need double rounding and the shortest round-trip decimal text of `Number.prototype.toString`.
- NumericInput.ChangeThenBlur: the same gap as BlurAfterTyping for values of 10^21 and over, since it is proved from it.
- NumericInput.BlurTwice: requires the range bounds below 10^21 in magnitude. A clamped value printed in the exponent form does not read back as itself.
- Js.Lower: `toLowerCase` is modelled for the ASCII letters A-Z only, and every other character is left as it is. Two cases where JavaScript differs matter to the core. U+212A KELVIN SIGN lower-cases to ASCII `k`, so `clip.m\u212Av` is a video to `FormatSelector.jsx:18-24` and `ProcessingOptions.jsx:12` but `Other` in the model. U+0130 lower-cases to two characters, so in JavaScript lower-casing does not always keep the length.
- NumericInput.OnBlur: NaN from unreadable text is carried as a value. How the input later displays NaN is not modelled.
- FileConversionOptions.FormatToggle requires `formats` to be an array, as the dialog always initialises it. A non-array `formats` would make `includes` throw, which is not modelled.
- `fileOptions` keys are modelled as natural numbers, where the source uses object keys, that is, strings of digits.
- Results rows distinguish a missing `processedFiles` from an empty one. Whether it is `null` or `undefined` is not modelled.
- The network side of `handleProcess` is left out: `fetch`, `response.success`, toasts and the progress state. What is modelled (App.ProcessPlan) is what a click on the process button sets off: nothing with an empty queue, an alert when the mode has no file of its kind, or which requests it makes, with which options, in which order.
- Two different files with the same name, size and modification time share a queue key. The model keeps the source's key and does not treat such collisions.
- Icons.CreateIco requires the images to fit the format: fewer than 65536, and a file shorter than 4 GiB. Larger values make Node's `writeUInt16LE` / `writeUInt32LE` throw a RangeError, which the model does not include.
- Icons.CreateIcns likewise requires a total length below 4 GiB.
- The PNG rendering step of the icon script (sharp) and its file writes are left out.
- The video-mode selects of the options panels, the toast, the header and the processing-queue views only display state and are left out.

## Findings

| source | as written | input that shows it | evidently intended | confidence | as-written member | corrected member |
|---|---|---|---|---|---|---|
| backend/app/utils/security.js:64-65 | the extension is lower-cased before `path.basename` strips it, so an upper-case extension is not stripped and its letters are glued onto the base | `photo.JPG` becomes `photoJPG.jpg` | `photo.jpg`: strip the extension as written, then lower-case it | not executed | FilenameSafety.UpperCaseExtensionGluedAsWritten | FilenameSafety.CleanNameKeptFixed |
| backend/app/utils/security.js:64-88 | the extension is appended unfiltered, so a `\` or NUL in it survives sanitising | `a.b\c` stays `a.b\c`, which `isPathTraversalSafe` rejects | a sanitised name always passes the traversal gate | not executed | FilenameSafety.UnfilteredExtensionFailsGateAsWritten | FilenameSafety.SanitizeFilenameFixed |
| backend/app/services/svgProcessor.js:59-61 | with formats `['svg', 'png']`, the optimiser deletes the staged SVG before `imageProcessor.js:55` rasterises it, so `fs.stat` fails with ENOENT | one SVG uploaded with formats `['svg', 'png']` | the staged SVG is kept until the PNG is rendered, then removed | not executed | ImageProcessor.StagedSvgLostAsWritten | ImageProcessor.StagedSvgKeptCorrected |

=== FILE: app.dfy ===
/** `frontend/src/App.jsx`: the page's state and handlers. The queue adds
    files without repeating one already queued, removes a file by position
    and moves the per-file options of later files down with it, and, when
    processing, resolves each file's options from the defaults and its own
    overrides. Of `handleProcess`, what is modelled is what it sets off:
    nothing, an alert, or which requests, with which options, in which order;
    the network calls themselves, the responses and the `processing` flag
    are left out. */
module App {
  import opened Js
  import opened Media
  import opened FormatSelector
  import opened NumericInput
  import opened FileConversionOptions
  import opened Results

  /** A `File` of the queue, as far as the key that de-duplicates it. */
  datatype QueuedFile = QueuedFile(name: string, size: nat, lastModified: int)

  /** `${name}-${size}-${lastModified}`. */
  function FileId(f: QueuedFile): string {
    f.name + "-" + IntToString(f.size) + "-" + IntToString(f.lastModified)
  }

  /** `existingFiles`: the keys of the queued files. */
  function Ids(files: seq<QueuedFile>): set<string> {
    set f | f in files :: FileId(f)
  }

  /** The filter of `handleFilesAdded`: a file whose key is not yet queued. */
  function Fresh(existing: set<string>): QueuedFile -> bool {
    f => FileId(f) !in existing
  }

  /** `handleFilesAdded`: the queue followed by the new files whose key was
      not already queued, in the order given. */
  function FilesAdded(prev: seq<QueuedFile>, newFiles: seq<QueuedFile>): (r: seq<QueuedFile>)
    ensures |prev| <= |r| <= |prev| + |newFiles|
    ensures r[..|prev|] == prev
  {
    prev + Filter(newFiles, Fresh(Ids(prev)))
  }

  /** What is appended is exactly the new files with an unqueued key. */
  lemma FilesAddedMembers(prev: seq<QueuedFile>, newFiles: seq<QueuedFile>, x: QueuedFile)
    ensures var r := FilesAdded(prev, newFiles);
      x in r[|prev|..] <==> x in newFiles && FileId(x) !in Ids(prev)
  {
    var r := FilesAdded(prev, newFiles);
    assert r[|prev|..] == Filter(newFiles, Fresh(Ids(prev)));
    FilterMembers(newFiles, Fresh(Ids(prev)), x);
  }

  /** Only keys already queued are filtered: two copies of a new file in
      one batch are both queued. */
  lemma FilesAddedKeepsBatchDuplicates(prev: seq<QueuedFile>, f: QueuedFile)
    requires FileId(f) !in Ids(prev)
    ensures FilesAdded(prev, [f, f]) == prev + [f, f]
  {
    FilterAll([f, f], Fresh(Ids(prev)));
  }

  /** Adding the same batch a second time changes nothing. */
  lemma FilesAddedTwice(prev: seq<QueuedFile>, newFiles: seq<QueuedFile>)
    ensures FilesAdded(FilesAdded(prev, newFiles), newFiles) == FilesAdded(prev, newFiles)
  {
    var once := FilesAdded(prev, newFiles);
    var keep := Fresh(Ids(once));
    forall f | f in newFiles ensures !keep(f) {
      AddedIdQueued(prev, newFiles, f);
    }
    FilterNone(newFiles, keep);
  }

  /** After adding a batch, every file of the batch has its key queued. */
  lemma AddedIdQueued(prev: seq<QueuedFile>, newFiles: seq<QueuedFile>, f: QueuedFile)
    requires f in newFiles
    ensures FileId(f) in Ids(FilesAdded(prev, newFiles))
  {
    var once := FilesAdded(prev, newFiles);
    if FileId(f) !in Ids(prev) {
      FilesAddedMembers(prev, newFiles, f);
      var i :| 0 <= i < |once[|prev|..]| && once[|prev|..][i] == f;
      assert once[|prev| + i] == f;
    } else {
      var g :| g in prev && FileId(g) == FileId(f);
      var i :| 0 <= i < |prev| && prev[i] == g;
      assert once[i] == g;
    }
  }

  /** A filter that no element passes is empty. */
  lemma FilterNone<T>(s: seq<T>, keep: T -> bool)
    requires forall x :: x in s ==> !keep(x)
    ensures Filter(s, keep) == []
  {
    var r := Filter(s, keep);
    if r != [] {
      FilterMembers(s, keep, r[0]);
      assert false;
    }
  }

  // ---------------------------------------------------------------------
  // handleRemoveFile

  /** `prev.filter((_, i) => i !== index)`. */
  function RemoveAt<T>(s: seq<T>, index: int): (r: seq<T>)
    ensures |r| == if 0 <= index < |s| then |s| - 1 else |s|
  {
    if s == [] then []
    else RemoveAt(s[..|s| - 1], index) + (if |s| - 1 == index then [] else [s[|s| - 1]])
  }

  /** The filter removes position `index` and nothing else: it is the
      sequence without that one element, or the whole sequence when there
      is no such position. */
  lemma {:induction false} RemoveAtSlices<T>(s: seq<T>, index: int)
    ensures RemoveAt(s, index) == if 0 <= index < |s| then s[..index] + s[index + 1..] else s
  {
    if s != [] {
      var init := s[..|s| - 1];
      RemoveAtSlices(init, index);
      if 0 <= index < |s| - 1 {
        assert init[..index] + init[index + 1..] + [s[|s| - 1]] == s[..index] + s[index + 1..];
      } else if index == |s| - 1 {
        assert s[..index] + s[index + 1..] == init;
      } else {
        assert init + [s[|s| - 1]] == s;
      }
    }
  }

  /** Where the re-indexing puts the options of file `k`. */
  function Shift(k: nat, index: nat): nat {
    if k > index then k - 1 else k
  }

  /** No two remaining keys are shifted onto the same key. */
  lemma ShiftInjective(a: nat, b: nat, index: nat)
    requires a != index && b != index && a != b
    ensures Shift(a, index) != Shift(b, index)
  {
  }

  /** Where the re-indexing finds the options it stores under `j`. */
  function Unshift(j: nat, index: nat): nat {
    if j < index then j else j + 1
  }

  /** The keys of the re-indexed options. */
  function Slots<V>(prev: map<nat, V>, index: nat): set<nat> {
    set k | k in prev && k != index :: Shift(k, index)
  }

  /** The per-file options after file `index` is removed. */
  function Reindexed<V>(prev: map<nat, V>, index: nat): map<nat, V> {
    map j | j in Slots(prev, index) :: prev[Unshift(j, index)]
  }

  /** The entry of file `index` is dropped, entries above it move down one
      and entries below it stay. */
  lemma ReindexedAt<V>(prev: map<nat, V>, index: nat, j: nat)
    ensures j in Reindexed(prev, index) <==> (j < index && j in prev) || (j >= index && j + 1 in prev)
    ensures j in Reindexed(prev, index) ==> Reindexed(prev, index)[j] == prev[Unshift(j, index)]
  {
    if j >= index && j + 1 in prev {
      assert Shift(j + 1, index) == j;
    }
  }

  /** A map with the keys and values `ReindexedAt` describes is the
      re-indexed map. */
  lemma ReindexedUnique<V>(prev: map<nat, V>, index: nat, r: map<nat, V>)
    requires forall k :: k in prev && k != index ==> Shift(k, index) in r && r[Shift(k, index)] == prev[k]
    requires forall j :: j in r ==> Unshift(j, index) in prev && Unshift(j, index) != index
    ensures r == Reindexed(prev, index)
  {
    var q := Reindexed(prev, index);
    forall j ensures (j in r <==> j in q) && (j in r ==> r[j] == q[j]) {
      AgreesAt(prev, index, r, j);
    }
    SameMap(r, q);
  }

  /** Two maps with the same entries are equal. */
  lemma SameMap<K, V>(a: map<K, V>, b: map<K, V>)
    requires forall k :: (k in a <==> k in b) && (k in a ==> a[k] == b[k])
    ensures a == b
  {
  }

  lemma AgreesAt<V>(prev: map<nat, V>, index: nat, r: map<nat, V>, j: nat)
    requires forall k :: k in prev && k != index ==> Shift(k, index) in r && r[Shift(k, index)] == prev[k]
    requires forall j :: j in r ==> Unshift(j, index) in prev && Unshift(j, index) != index
    ensures j in r <==> j in Reindexed(prev, index)
    ensures j in r ==> r[j] == Reindexed(prev, index)[j]
  {
    ReindexedAt(prev, index, j);
    var k := Unshift(j, index);
    assert Shift(k, index) == j;
    if k in prev && k != index {
      assert Shift(k, index) in r;
    }
  }

  /** The loop state of `handleRemoveFile` once the keys outside `keys`
      have been visited: each visited key's entry sits under its shifted
      key, and every stored key comes from a visited key. */
  predicate Visited(newOptions: map<nat, Props>, index: nat, keys: set<nat>, r: map<nat, Props>) {
    Placed(newOptions, index, keys, r) && Sourced(newOptions, index, keys, r)
  }

  predicate Placed(newOptions: map<nat, Props>, index: nat, keys: set<nat>, r: map<nat, Props>) {
    forall k :: k in newOptions && k !in keys ==> Shift(k, index) in r && r[Shift(k, index)] == newOptions[k]
  }

  predicate Sourced(newOptions: map<nat, Props>, index: nat, keys: set<nat>, r: map<nat, Props>) {
    forall j :: j in r ==> Unshift(j, index) in newOptions && Unshift(j, index) !in keys
  }

  /** Visiting one more key keeps the loop state. */
  lemma VisitStep(newOptions: map<nat, Props>, index: nat, keys: set<nat>, r: map<nat, Props>, key: nat)
    requires index !in newOptions && keys <= newOptions.Keys && key in keys
    requires Visited(newOptions, index, keys, r)
    ensures Visited(newOptions, index, keys - {key}, r[Shift(key, index) := newOptions[key]])
  {
    PlacedStep(newOptions, index, keys, r, key);
    SourcedStep(newOptions, index, keys, r, key);
  }

  lemma PlacedStep(newOptions: map<nat, Props>, index: nat, keys: set<nat>, r: map<nat, Props>, key: nat)
    requires index !in newOptions && key in newOptions
    requires Placed(newOptions, index, keys, r)
    ensures Placed(newOptions, index, keys - {key}, r[Shift(key, index) := newOptions[key]])
  {
    var r1 := r[Shift(key, index) := newOptions[key]];
    forall k | k in newOptions && k !in keys - {key}
      ensures Shift(k, index) in r1 && r1[Shift(k, index)] == newOptions[k]
    {
      if k != key {
        ShiftInjective(k, key, index);
      }
    }
  }

  lemma SourcedStep(newOptions: map<nat, Props>, index: nat, keys: set<nat>, r: map<nat, Props>, key: nat)
    requires index !in newOptions && key in newOptions
    requires Sourced(newOptions, index, keys, r)
    ensures Sourced(newOptions, index, keys - {key}, r[Shift(key, index) := newOptions[key]])
  {
    assert Unshift(Shift(key, index), index) == key;
  }

  lemma VisitedAll(prev: map<nat, Props>, index: nat, r: map<nat, Props>)
    requires Visited(prev - {index}, index, {}, r)
    ensures r == Reindexed(prev, index)
  {
    ReindexedUnique(prev, index, r);
  }

  /** The re-indexing of `handleRemoveFile`: the entry `index` is deleted
      from a copy, then every remaining key is visited and stored under its
      shifted key. No two keys land on the same key, so the order of the
      visit does not matter. */
  method RemoveFileOptions(prev: map<nat, Props>, index: nat) returns (reindexed: map<nat, Props>)
    ensures reindexed == Reindexed(prev, index)
  {
    var newOptions := prev - {index};
    reindexed := map[];
    var keys := newOptions.Keys;
    while keys != {}
      invariant keys <= newOptions.Keys
      invariant Visited(newOptions, index, keys, reindexed)
      decreases keys
    {
      var key :| key in keys;
      VisitStep(newOptions, index, keys, reindexed, key);
      var oldIndex := key;
      if oldIndex > index {
        assert Shift(key, index) == oldIndex - 1;
        reindexed := reindexed[oldIndex - 1 := newOptions[key]];
      } else {
        assert Shift(key, index) == key;
        reindexed := reindexed[key := newOptions[key]];
      }
      keys := keys - {key};
    }
    VisitedAll(prev, index, reindexed);
  }

  /** Options stay with their file: after removing file `index`, the file
      at position `j` of the new queue is the one whose options are now
      stored under `j`. */
  lemma OptionsFollowFiles<V>(files: seq<QueuedFile>, prev: map<nat, V>, index: nat, j: nat)
    requires index < |files|
    requires forall k :: k in prev ==> k < |files|
    requires j in Reindexed(prev, index)
    ensures j < |RemoveAt(files, index)|
    ensures var k := Unshift(j, index);
      && k in prev && k != index
      && Reindexed(prev, index)[j] == prev[k]
      && RemoveAt(files, index)[j] == files[k]
  {
    ReindexedAt(prev, index, j);
    RemoveAtSlices(files, index);
  }

  /** `handleFileOptionsChange`: only the given file's entry changes. */
  function FileOptionsChange(fileOptions: map<nat, Props>, fileIndex: nat, newOptions: Props): (r: map<nat, Props>)
    ensures r.Keys == fileOptions.Keys + {fileIndex}
    ensures r[fileIndex] == newOptions
    ensures forall k :: k in fileOptions && k != fileIndex ==> r[k] == fileOptions[k]
  {
    fileOptions[fileIndex := newOptions]
  }

  // ---------------------------------------------------------------------
  // Page state

  /** The default option sets. */
  datatype GlobalOptions = GlobalOptions(images: Props, svg: Props, video: Props)

  const DefaultOptions: GlobalOptions := GlobalOptions(
    map["quality" := Num(80), "resize" := Num(100), "formats" := Arr([Str("webp")])],
    map["precision" := Num(2), "removeViewBox" := Bool(false), "cleanupIDs" := Bool(true)],
    map["format" := Str("mp4"), "resize" := Num(100), "bitrate" := Str("2M"), "preset" := Str("web"), "audio" := Bool(true)])

  datatype AppState = AppState(mode: string, files: seq<QueuedFile>, processing: bool,
                               results: seq<Row>, options: GlobalOptions, fileOptions: map<nat, Props>)

  /** `handleClear`: the queue, the results and the per-file options are
      emptied; the mode and the defaults stay. */
  function Clear(s: AppState): (r: AppState)
    ensures r.files == [] && r.results == [] && r.fileOptions == map[]
    ensures r.mode == s.mode && r.options == s.options && r.processing == s.processing
  {
    s.(files := [], results := [], fileOptions := map[])
  }

  /** After a clear, adding a batch queues all of it. */
  lemma ClearThenAdd(s: AppState, newFiles: seq<QueuedFile>)
    ensures FilesAdded(Clear(s).files, newFiles) == newFiles
  {
    FilterAll(newFiles, Fresh(Ids([])));
  }

  // ---------------------------------------------------------------------
  // File kinds

  /** `isImageFile`: the last extension segment is a raster extension or `svg`. */
  predicate IsImageFile(name: string) {
    Ext(name) in ["jpg", "jpeg", "png", "webp", "avif", "gif", "bmp", "tiff", "svg"]
  }

  /** `isVideoFile`. */
  predicate IsVideoFile(name: string) {
    Ext(name) in ["mp4", "webm", "mov", "mkv", "avi", "flv", "wmv", "m4v"]
  }

  /** The processing filter agrees with the selector's detection: images
      are the raster and SVG kinds, videos the video kind, and no file is
      both. */
  lemma FileKinds(name: string)
    ensures IsImageFile(name) <==> KindOf(name) in {Raster, Svg}
    ensures IsVideoFile(name) <==> KindOf(name) == Video
    ensures !(IsImageFile(name) && IsVideoFile(name))
  {
    var ext := Ext(name);
    assert IsImageFile(name) <==> ext in RasterExts || ext == "svg";
    if ext in VideoExts {
      VideoNotImage(ext);
    }
  }

  /** No video extension is a raster extension or `svg`. */
  lemma VideoNotImage(ext: string)
    requires ext in VideoExts
    ensures ext !in RasterExts && ext != "svg"
  {
  }

  // ---------------------------------------------------------------------
  // Option resolution

  /** `formats: ['svg']`. */
  const SvgOnly: Value := Arr([Str("svg")])

  /** `fileOptions[i]` when it is truthy: any stored entry is an object. */
  function FileOptionsAt(fileOptions: map<nat, Props>, i: nat): (r: Option<Props>)
    ensures r.Some? <==> i in fileOptions
  {
    if i in fileOptions then Some(fileOptions[i]) else None
  }

  /** The per-file options of the custom-options path. An SVG whose own
      options choose `optimize` gets the SVG defaults overridden by them
      and SVG output only; any other file with own options gets the image
      defaults overridden by them; without own options an SVG gets the SVG
      defaults with SVG output only and any other file the image defaults.
      Spreading `{...a, ...b}` is the map union `a + b`, in which `b` wins. */
  function ResolveOptions(name: string, own: Option<Props>, images: Props, svg: Props): (r: Props)
    ensures IsSvgFile(name) && (own.None? || Get(own.value, "svgMode") == Str("optimize")) ==>
      && Get(r, "formats") == SvgOnly
      && forall k :: k != "formats" ==> Get(r, k) == if own.Some? && k in own.value then own.value[k] else Get(svg, k)
    ensures own.Some? && !(IsSvgFile(name) && Get(own.value, "svgMode") == Str("optimize")) ==>
      forall k :: Get(r, k) == if k in own.value then own.value[k] else Get(images, k)
    ensures own.None? && !IsSvgFile(name) ==> r == images
  {
    var isSvg := IsSvgFile(name);
    match own
    case Some(o) =>
      if isSvg && Get(o, "svgMode") == Str("optimize") then (svg + o)["formats" := SvgOnly]
      else if isSvg && Get(o, "svgMode") == Str("convert") then images + o
      else images + o
    case None =>
      if isSvg then svg["formats" := SvgOnly] else images
  }

  /** An SVG whose dialog was saved without changes (the dialog starts it
      in `optimize` mode) is still only optimized, whatever the image
      defaults say. */
  lemma SavedDialogStillOptimizes(name: string, images: Props, svg: Props)
    requires IsSvgFile(name) && !Truthy(Get(images, "svgMode"))
    ensures Get(ResolveOptions(name, Some(InitialOptions(name, images)), images, svg), "formats") == SvgOnly
  {
    assert Get(InitialOptions(name, images), "svgMode") == Str("optimize");
  }

  /** Own options that set every key make the defaults irrelevant, except
      that an optimized SVG's formats are always `['svg']`. */
  lemma OwnOptionsWin(name: string, own: Props, images: Props, svg: Props, k: string)
    requires k in own && k != "formats"
    ensures Get(ResolveOptions(name, Some(own), images, svg), k) == own[k]
  {
  }

  // ---------------------------------------------------------------------
  // handleProcess: the requests

  /** One `processImages([file], options)` or `processVideo(file, options)`
      call: the queue position of the file and the options sent. */
  datatype Request = Request(index: nat, options: Props)

  /** The requests a one-file-at-a-time loop makes over the first `n`
      files: one for each file it `sends`, with `optionsFor` that file. */
  function Plan(files: seq<QueuedFile>, sends: QueuedFile -> bool, optionsFor: (nat, QueuedFile) -> Props, n: nat): (r: seq<Request>)
    requires n <= |files|
  {
    if n == 0 then []
    else
      var i := n - 1;
      Plan(files, sends, optionsFor, i) +
        (if sends(files[i]) then [Request(i, optionsFor(i, files[i]))] else [])
  }

  /** One step of such a loop. */
  lemma PlanStep(files: seq<QueuedFile>, sends: QueuedFile -> bool, optionsFor: (nat, QueuedFile) -> Props, i: nat)
    requires i < |files|
    ensures Plan(files, sends, optionsFor, i + 1) ==
      Plan(files, sends, optionsFor, i) + (if sends(files[i]) then [Request(i, optionsFor(i, files[i]))] else [])
  {
  }

  /** Such a loop sends exactly the files it selects, each once, in queue
      order, each with its own options. */
  lemma {:induction false} PlanFacts(files: seq<QueuedFile>, sends: QueuedFile -> bool, optionsFor: (nat, QueuedFile) -> Props, n: nat)
    requires n <= |files|
    ensures var plan := Plan(files, sends, optionsFor, n);
      && (forall p :: p in plan ==> p.index < n)
      && (forall a, b :: 0 <= a < b < |plan| ==> plan[a].index < plan[b].index)
      && (forall p :: p in plan ==> sends(files[p.index]) && p.options == optionsFor(p.index, files[p.index]))
      && (forall i :: 0 <= i < n && sends(files[i]) ==> Request(i, optionsFor(i, files[i])) in plan)
  {
    if n > 0 {
      PlanFacts(files, sends, optionsFor, n - 1);
      var prev := Plan(files, sends, optionsFor, n - 1);
      var plan := Plan(files, sends, optionsFor, n);
      var i := n - 1;
      if sends(files[i]) {
        var p := Request(i, optionsFor(i, files[i]));
        assert plan == prev + [p];
        forall a, b | 0 <= a < b < |plan| ensures plan[a].index < plan[b].index {
          if b == |prev| {
            assert plan[a] in prev;
          }
        }
      } else {
        assert plan == prev;
      }
    }
  }

  /** The options the custom-options path resolves for file `i`. */
  function CustomOptions(fileOptions: map<nat, Props>, g: GlobalOptions): (nat, QueuedFile) -> Props {
    (i: nat, f: QueuedFile) => ResolveOptions(f.name, FileOptionsAt(fileOptions, i), g.images, g.svg)
  }

  /** The loop of the custom-options path: image files only, one request
      each, in queue order, with that file's resolved options. */
  method PlanCustomRequests(files: seq<QueuedFile>, fileOptions: map<nat, Props>, g: GlobalOptions)
    returns (plan: seq<Request>)
    ensures plan == Plan(files, IsImageQueued, CustomOptions(fileOptions, g), |files|)
  {
    plan := [];
    for i := 0 to |files|
      invariant plan == Plan(files, IsImageQueued, CustomOptions(fileOptions, g), i)
    {
      var file := files[i];
      PlanStep(files, IsImageQueued, CustomOptions(fileOptions, g), i);
      if !IsImageQueued(file) {
        continue;
      }
      var options := ResolveOptions(file.name, FileOptionsAt(fileOptions, i), g.images, g.svg);
      assert options == CustomOptions(fileOptions, g)(i, file);
      plan := plan + [Request(i, options)];
    }
  }

  /** `fileOptions[i] || options.video`. */
  function OwnOrVideo(fileOptions: map<nat, Props>, i: nat, video: Props): Props
  {
    match FileOptionsAt(fileOptions, i)
    case Some(own) => own
    case None => video
  }

  /** The options video mode sends for file `i`. */
  function VideoOptions(fileOptions: map<nat, Props>, video: Props): (nat, QueuedFile) -> Props {
    (i: nat, f: QueuedFile) => OwnOrVideo(fileOptions, i, video)
  }

  predicate IsVideoQueued(f: QueuedFile) { IsVideoFile(f.name) }

  /** The loop of video mode: video files only, each with its own options
      when it has them and the video defaults otherwise. */
  method PlanVideoRequests(files: seq<QueuedFile>, fileOptions: map<nat, Props>, video: Props)
    returns (plan: seq<Request>)
    ensures plan == Plan(files, IsVideoQueued, VideoOptions(fileOptions, video), |files|)
  {
    plan := [];
    for i := 0 to |files|
      invariant plan == Plan(files, IsVideoQueued, VideoOptions(fileOptions, video), i)
    {
      var file := files[i];
      PlanStep(files, IsVideoQueued, VideoOptions(fileOptions, video), i);
      if IsVideoQueued(file) {
        var options := OwnOrVideo(fileOptions, i, video);
        plan := plan + [Request(i, options)];
      }
    }
  }

  // ---------------------------------------------------------------------
  // handleProcess: the batch path (no file has own options)

  predicate IsImageQueued(f: QueuedFile) { IsImageFile(f.name) }
  predicate IsSvgQueued(f: QueuedFile) { IsSvgFile(f.name) }
  predicate IsRasterQueued(f: QueuedFile) { !IsSvgFile(f.name) }

  /** `imageFiles`, `svgFiles` and `rasterFiles`. */
  function ImageFiles(files: seq<QueuedFile>): seq<QueuedFile> { Filter(files, IsImageQueued) }
  function SvgFiles(files: seq<QueuedFile>): seq<QueuedFile> { Filter(ImageFiles(files), IsSvgQueued) }
  function RasterFiles(files: seq<QueuedFile>): seq<QueuedFile> { Filter(ImageFiles(files), IsRasterQueued) }

  /** One batch request: the files sent together and their options. */
  datatype Batch = Batch(files: seq<QueuedFile>, options: Props)

  /** The batch path: the raster files with the image defaults, then the
      SVG files with the SVG defaults and SVG output only; an empty group
      sends no request. */
  function BatchPlan(files: seq<QueuedFile>, g: GlobalOptions): seq<Batch> {
    BatchesOf(RasterFiles(files), SvgFiles(files), g)
  }

  /** The batches for given raster and SVG groups. */
  function BatchesOf(raster: seq<QueuedFile>, svgs: seq<QueuedFile>, g: GlobalOptions): (r: seq<Batch>)
    ensures forall b :: b in r ==> |b.files| > 0
    ensures forall b :: b in r ==> b.files == raster || b.files == svgs
    ensures forall b, x :: b in r && x in b.files ==> x in raster || x in svgs
    ensures |r| <= 2
    ensures r == [] <==> raster == [] && svgs == []
  {
    var rasterBatch := Batch(raster, g.images);
    var svgBatch := Batch(svgs, g.svg["formats" := SvgOnly]);
    if |raster| > 0 && |svgs| > 0 then [rasterBatch, svgBatch]
    else if |raster| > 0 then [rasterBatch]
    else if |svgs| > 0 then [svgBatch]
    else []
  }

  /** The two batches split the image files: every image file is sent in
      exactly one of them. */
  lemma {:induction false} BatchesSplitImages(s: seq<QueuedFile>)
    ensures multiset(Filter(s, IsSvgQueued)) + multiset(Filter(s, IsRasterQueued)) == multiset(s)
  {
    if s != [] {
      var init := s[..|s| - 1];
      BatchesSplitImages(init);
      assert s == init + [s[|s| - 1]];
    }
  }

  /** The batches hold exactly the image files of the queue. */
  lemma BatchMembers(files: seq<QueuedFile>, f: QueuedFile)
    ensures f in RasterFiles(files) || f in SvgFiles(files) <==> f in files && IsImageFile(f.name)
  {
    FilterMembers(ImageFiles(files), IsRasterQueued, f);
    FilterMembers(ImageFiles(files), IsSvgQueued, f);
    FilterMembers(files, IsImageQueued, f);
  }

  /** The batch path sends nothing exactly when no queued file is an image. */
  lemma BatchPlanEmptyIff(files: seq<QueuedFile>, g: GlobalOptions)
    ensures BatchPlan(files, g) == [] <==> forall f :: f in files ==> !IsImageFile(f.name)
  {
    NoImageBatches(files);
    assert BatchPlan(files, g) == BatchesOf(RasterFiles(files), SvgFiles(files), g);
  }

  /** Every file of every batch is a queued image file. */
  lemma BatchPlanSendsImages(files: seq<QueuedFile>, g: GlobalOptions)
    ensures forall b, f :: b in BatchPlan(files, g) && f in b.files ==> f in files && IsImageFile(f.name)
  {
    GroupsAreImages(files);
    assert BatchPlan(files, g) == BatchesOf(RasterFiles(files), SvgFiles(files), g);
  }

  /** Both groups hold only queued image files. */
  lemma GroupsAreImages(files: seq<QueuedFile>)
    ensures forall f :: f in RasterFiles(files) || f in SvgFiles(files) ==> f in files && IsImageFile(f.name)
  {
    forall f | f in RasterFiles(files) || f in SvgFiles(files) ensures f in files && IsImageFile(f.name) {
      BatchMembers(files, f);
    }
  }

  /** Both groups are empty exactly when no queued file is an image. */
  lemma NoImageBatches(files: seq<QueuedFile>)
    ensures RasterFiles(files) == [] && SvgFiles(files) == [] <==> forall f :: f in files ==> !IsImageFile(f.name)
  {
    var raster := RasterFiles(files);
    var svgs := SvgFiles(files);
    if raster != [] {
      BatchMembers(files, raster[0]);
    } else if svgs != [] {
      BatchMembers(files, svgs[0]);
    } else {
      forall f | f in files ensures !IsImageFile(f.name) {
        BatchMembers(files, f);
      }
    }
  }

  /** The batch path sends each file the options the custom-options path
      would resolve for it without own options. */
  lemma BatchMatchesResolve(files: seq<QueuedFile>, g: GlobalOptions, f: QueuedFile)
    ensures f in RasterFiles(files) ==> ResolveOptions(f.name, None, g.images, g.svg) == g.images
    ensures f in SvgFiles(files) ==> ResolveOptions(f.name, None, g.images, g.svg) == g.svg["formats" := SvgOnly]
  {
    FilterMembers(ImageFiles(files), IsRasterQueued, f);
    FilterMembers(ImageFiles(files), IsSvgQueued, f);
  }

  // ---------------------------------------------------------------------
  // handleProcess: which path it takes

  /** What `handleProcess` sets off, before any response arrives. */
  datatype Dispatch =
    | Idle                              // the queue is empty: nothing happens
    | Alert(message: string)            // no queued file of the mode's kind
    | PerFile(requests: seq<Request>)   // `processImages([file], options)`, one file at a time
    | Batches(batches: seq<Batch>)      // `processImages(group, options)`, one call per group
    | Videos(requests: seq<Request>)    // `processVideo(file, options)`, one file at a time

  const NoImagesAlert: string := "No image files in the queue. Please add image files or switch to video mode."
  const NoVideosAlert: string := "No video files in the queue. Please add video files or switch to images mode."

  /** `handleProcess`: nothing for an empty queue; in `images` mode an
      alert when no queued file is an image, the one-file-at-a-time loop
      when any file has own options (`Object.keys(fileOptions).length > 0`),
      and the batches otherwise; in any other mode an alert when no queued
      file is a video, and the video loop otherwise. */
  function ProcessPlan(s: AppState): Dispatch {
    if s.files == [] then Idle
    else if s.mode == "images" then
      if ImageFiles(s.files) == [] then Alert(NoImagesAlert)
      else if |s.fileOptions| > 0 then
        PerFile(Plan(s.files, IsImageQueued, CustomOptions(s.fileOptions, s.options), |s.files|))
      else Batches(BatchPlan(s.files, s.options))
    else if Filter(s.files, IsVideoQueued) == [] then Alert(NoVideosAlert)
    else Videos(Plan(s.files, IsVideoQueued, VideoOptions(s.fileOptions, s.options.video), |s.files|))
  }

  predicate HasImage(files: seq<QueuedFile>) { exists f :: f in files && IsImageFile(f.name) }
  predicate HasVideo(files: seq<QueuedFile>) { exists f :: f in files && IsVideoFile(f.name) }

  /** Which path is taken, and what it sends: the alert names the mode's
      kind; the one-file-at-a-time image loop runs exactly when some file
      has own options, whatever file they belong to, and sends the custom
      loop's requests; the batch path sends the batches; any mode other
      than `images` runs the video loop. */
  lemma ProcessPlanPath(s: AppState)
    ensures var d := ProcessPlan(s);
      && (d.Idle? <==> s.files == [])
      && (d.Alert? <==> s.files != [] && if s.mode == "images" then !HasImage(s.files) else !HasVideo(s.files))
      && (d.Alert? ==> d.message == if s.mode == "images" then NoImagesAlert else NoVideosAlert)
      && (d.PerFile? <==> s.mode == "images" && HasImage(s.files) && |s.fileOptions| > 0)
      && (d.Batches? <==> s.mode == "images" && HasImage(s.files) && |s.fileOptions| == 0)
      && (d.Videos? <==> s.mode != "images" && HasVideo(s.files))
    ensures var d := ProcessPlan(s);
      && (d.PerFile? ==> d.requests == Plan(s.files, IsImageQueued, CustomOptions(s.fileOptions, s.options), |s.files|))
      && (d.Batches? ==> d.batches == BatchPlan(s.files, s.options))
      && (d.Videos? ==> d.requests == Plan(s.files, IsVideoQueued, VideoOptions(s.fileOptions, s.options.video), |s.files|))
  {
    KindQueued(s.files);
    var d := ProcessPlan(s);
    if s.files == [] {
      assert d == Idle;
    } else if s.mode == "images" {
      if !HasImage(s.files) {
        assert d == Alert(NoImagesAlert);
      } else if |s.fileOptions| > 0 {
        assert d.PerFile?;
      } else {
        assert d.Batches?;
      }
    } else if !HasVideo(s.files) {
      assert d == Alert(NoVideosAlert);
    } else {
      assert d.Videos?;
    }
  }

  /** The batch path sends at least one batch when an image is queued. */
  lemma BatchPlanNonEmpty(files: seq<QueuedFile>, g: GlobalOptions)
    requires HasImage(files)
    ensures BatchPlan(files, g) != []
  {
    KindQueued(files);
    BatchPlanEmptyIff(files, g);
  }

  /** The filtered lists are empty exactly when no file of their kind is queued. */
  lemma KindQueued(files: seq<QueuedFile>)
    ensures ImageFiles(files) == [] <==> !HasImage(files)
    ensures Filter(files, IsVideoQueued) == [] <==> !HasVideo(files)
  {
    FilterEmpty(files, IsImageQueued);
    FilterEmpty(files, IsVideoQueued);
  }

  /** A filter is empty exactly when no element passes. */
  lemma FilterEmpty<T>(s: seq<T>, keep: T -> bool)
    ensures Filter(s, keep) == [] <==> forall x :: x in s ==> !keep(x)
  {
    var r := Filter(s, keep);
    if r != [] {
      FilterMembers(s, keep, r[0]);
    } else {
      forall x | x in s ensures !keep(x) {
        FilterMembers(s, keep, x);
      }
    }
  }

  /** A loop over a queue holding a file it sends makes a request, and
      only for files it sends. */
  lemma PlanReaches(files: seq<QueuedFile>, sends: QueuedFile -> bool, optionsFor: (nat, QueuedFile) -> Props)
    requires exists f :: f in files && sends(f)
    ensures var plan := Plan(files, sends, optionsFor, |files|);
      plan != [] && forall p :: p in plan ==> p.index < |files| && sends(files[p.index])
  {
    PlanFacts(files, sends, optionsFor, |files|);
    var f :| f in files && sends(f);
    var i :| 0 <= i < |files| && files[i] == f;
    assert Request(i, optionsFor(i, files[i])) in Plan(files, sends, optionsFor, |files|);
  }
}

=== FILE: file_cleanup.dfy ===
/** `backend/app/utils/fileCleanup.js` (`cleanupExpiredFiles`): one sweep of
    the uploads directory. Every listed entry that is a file last modified
    more than ten minutes before `now` is deleted; directories are skipped;
    a fault on one entry is counted and the sweep goes on. The directory is
    a map from entry name to what `fs.stat` would report, with a flag for
    each call that would throw; the clock is the parameter `now`. */
module FileCleanup {
  import opened Js

  /** FILE_EXPIRY_MS: ten minutes. */
  const FileExpiryMs: int := 10 * 60 * 1000

  /** One directory entry: whether it is a directory, its modification time
      in milliseconds, and whether `fs.stat` or `fs.unlink` throws on it. */
  datatype Entry = Entry(isDirectory: bool, mtimeMs: int, statFails: bool, unlinkFails: bool)

  type Dir = map<string, Entry>

  /** The sweep's counters and the directory as the sweep has left it. */
  datatype Tally = Tally(cleaned: nat, errors: nat, dir: Dir)

  /** A file strictly older than the expiry: one aged exactly ten minutes
      survives. */
  predicate IsExpired(e: Entry, now: int) {
    !e.isDirectory && now - e.mtimeMs > FileExpiryMs
  }

  /** An entry the sweep removes: stat succeeds, it is an expired file, and
      unlink succeeds. */
  predicate IsRemovable(e: Entry, now: int) {
    !e.statFails && IsExpired(e, now) && !e.unlinkFails
  }

  /** One iteration of the loop. A name no longer present (listed twice, or
      removed meanwhile) fails its stat like a faulty entry. */
  function SweepEntry(name: string, t: Tally, now: int): Tally {
    if name !in t.dir || t.dir[name].statFails then Tally(t.cleaned, t.errors + 1, t.dir)
    else
      var e := t.dir[name];
      if e.isDirectory then t
      else if now - e.mtimeMs > FileExpiryMs then
        if e.unlinkFails then Tally(t.cleaned, t.errors + 1, t.dir)
        else Tally(t.cleaned + 1, t.errors, t.dir - {name})
      else t
  }

  /** The loop over the `readdir` listing, in order, from zero counters. */
  function Sweep(names: seq<string>, dir: Dir, now: int): Tally {
    if names == [] then Tally(0, 0, dir)
    else SweepEntry(names[|names| - 1], Sweep(names[..|names| - 1], dir, now), now)
  }

  /** cleanupExpiredFiles: `{cleaned: 0, errors: 0}` when the directory is
      missing (`fs.access` throws); `{cleaned: 0, errors: 1}` when listing it
      throws (`listing` is `None`); otherwise the sweep's counters. */
  function CleanupSpec(present: bool, listing: Option<seq<string>>, dir: Dir, now: int): Tally {
    if !present then Tally(0, 0, dir)
    else match listing
      case None => Tally(0, 1, dir)
      case Some(names) => Sweep(names, dir, now)
  }

  /** cleanupExpiredFiles, as the source runs it: counters incremented and
      files unlinked one entry at a time. */
  method CleanupExpiredFiles(present: bool, listing: Option<seq<string>>, dir: Dir, now: int)
    returns (cleaned: nat, errors: nat, after: Dir)
    ensures Tally(cleaned, errors, after) == CleanupSpec(present, listing, dir, now)
  {
    if !present {
      return 0, 0, dir;
    }
    if listing.None? {
      return 0, 1, dir;
    }
    var names := listing.value;
    cleaned, errors, after := 0, 0, dir;
    for i := 0 to |names|
      invariant Sweep(names[..i], dir, now) == Tally(cleaned, errors, after)
    {
      var name := names[i];
      assert names[..i + 1][..i] == names[..i];
      if name !in after || after[name].statFails {
        errors := errors + 1;
        continue;
      }
      var stats := after[name];
      if stats.isDirectory {
        continue;
      }
      var fileAge := now - stats.mtimeMs;
      if fileAge > FileExpiryMs {
        if stats.unlinkFails {
          errors := errors + 1;
        } else {
          after := after - {name};
          cleaned := cleaned + 1;
        }
      }
    }
    assert names[..|names|] == names;
  }

  // ---------------------------------------------------------------------
  // Properties

  /** Position `i` of the listing is counted as an error: the name is not in
      the directory, its stat throws, it is an expired file whose unlink
      throws, or it is a removable file listed earlier and so already gone. */
  predicate FaultAt(names: seq<string>, i: nat, dir: Dir, now: int)
    requires i < |names|
  {
    var n := names[i];
    || n !in dir
    || dir[n].statFails
    || (IsExpired(dir[n], now) && dir[n].unlinkFails)
    || (IsRemovable(dir[n], now) && n in names[..i])
  }

  /** The positions of the listing that count as errors. */
  function Faults(names: seq<string>, dir: Dir, now: int): set<nat> {
    set i: nat | i < |names| && FaultAt(names, i, dir, now)
  }

  /** What a sweep over `names` guarantees of the directory: nothing is
      added or altered; an entry is gone exactly when it was listed and
      removable; `cleaned` is the number of entries removed; and each listed
      name adds at most one to `cleaned + errors`. */
  predicate SweptDir(t: Tally, names: seq<string>, dir: Dir, now: int) {
    && t.dir.Keys <= dir.Keys
    && (forall n :: n in t.dir ==> t.dir[n] == dir[n])
    && (forall n :: n in dir ==> (n !in t.dir <==> n in names && IsRemovable(dir[n], now)))
    && t.cleaned == |dir.Keys - t.dir.Keys|
    && t.cleaned + t.errors <= |names|
  }

  /** All a sweep guarantees: the directory facts, and `errors` is the
      number of faulty positions of the listing. */
  predicate Swept(t: Tally, names: seq<string>, dir: Dir, now: int) {
    SweptDir(t, names, dir, now) && t.errors == |Faults(names, dir, now)|
  }

  lemma {:induction false} SweepFacts(names: seq<string>, dir: Dir, now: int)
    ensures Swept(Sweep(names, dir, now), names, dir, now)
  {
    if names != [] {
      var init := names[..|names| - 1];
      SweepFacts(init, dir, now);
      SweepEntryFacts(init, names[|names| - 1], Sweep(init, dir, now), dir, now);
      assert names == init + [names[|names| - 1]];
    }
  }

  /** One more entry keeps the guarantees. */
  lemma SweepEntryFacts(init: seq<string>, name: string, prev: Tally, dir: Dir, now: int)
    requires Swept(prev, init, dir, now)
    ensures Swept(SweepEntry(name, prev, now), init + [name], dir, now)
  {
    FaultsStep(init, name, dir, now);
    SweepEntryFault(init, name, prev, dir, now);
    if name in prev.dir && IsRemovable(prev.dir[name], now) {
      SweepRemoves(init, name, prev, dir, now);
    } else {
      SweepKeeps(init, name, prev, dir, now);
    }
  }

  /** A listing one name longer has one more faulty position exactly when
      the new last position is faulty. */
  lemma FaultsStep(init: seq<string>, name: string, dir: Dir, now: int)
    ensures var names := init + [name];
      |Faults(names, dir, now)| == |Faults(init, dir, now)| + (if FaultAt(names, |init|, dir, now) then 1 else 0)
  {
    var names := init + [name];
    var k := |init|;
    forall i: nat | i < k ensures FaultAt(names, i, dir, now) == FaultAt(init, i, dir, now) {
      assert names[i] == init[i];
      assert names[..i] == init[..i];
    }
    var extra: set<nat> := if FaultAt(names, k, dir, now) then {k} else {};
    assert Faults(names, dir, now) == Faults(init, dir, now) + extra;
    assert k !in Faults(init, dir, now);
  }

  /** The sweep counts an error on the new name exactly when its position is
      faulty. */
  lemma SweepEntryFault(init: seq<string>, name: string, prev: Tally, dir: Dir, now: int)
    requires Swept(prev, init, dir, now)
    ensures var names := init + [name];
      SweepEntry(name, prev, now).errors == prev.errors + (if FaultAt(names, |init|, dir, now) then 1 else 0)
  {
    var names := init + [name];
    assert names[|init|] == name;
    assert names[..|init|] == init;
  }

  lemma SweepRemoves(init: seq<string>, name: string, prev: Tally, dir: Dir, now: int)
    requires SweptDir(prev, init, dir, now)
    requires name in prev.dir && IsRemovable(prev.dir[name], now)
    ensures SweptDir(SweepEntry(name, prev, now), init + [name], dir, now)
  {
    var t := SweepEntry(name, prev, now);
    assert t == Tally(prev.cleaned + 1, prev.errors, prev.dir - {name});
    var names := init + [name];
    forall n | n in dir ensures (n !in t.dir <==> n in names && IsRemovable(dir[n], now)) {
      assert n in names <==> n in init || n == name;
    }
    RemovalCounted(dir, prev.dir, name);
  }

  lemma SweepKeeps(init: seq<string>, name: string, prev: Tally, dir: Dir, now: int)
    requires SweptDir(prev, init, dir, now)
    requires !(name in prev.dir && IsRemovable(prev.dir[name], now))
    ensures SweptDir(SweepEntry(name, prev, now), init + [name], dir, now)
  {
    var t := SweepEntry(name, prev, now);
    assert t.dir == prev.dir && t.cleaned == prev.cleaned && t.errors <= prev.errors + 1;
    assert forall n :: n in init + [name] <==> n in init || n == name;
  }

  /** Removing one more present key adds one to the count of removed keys. */
  lemma RemovalCounted(dir: Dir, cur: Dir, name: string)
    requires cur.Keys <= dir.Keys && name in cur
    ensures |dir.Keys - (cur - {name}).Keys| == |dir.Keys - cur.Keys| + 1
  {
    assert (cur - {name}).Keys == cur.Keys - {name};
    assert dir.Keys - (cur - {name}).Keys == (dir.Keys - cur.Keys) + {name};
  }

  /** The whole of cleanupExpiredFiles: a missing directory and a failed
      listing touch nothing; a sweep deletes exactly the removable listed
      entries, so directories, young files and files aged exactly ten
      minutes survive. */
  lemma CleanupFacts(present: bool, listing: Option<seq<string>>, dir: Dir, now: int)
    ensures var t := CleanupSpec(present, listing, dir, now);
      && (!present ==> t == Tally(0, 0, dir))
      && (present && listing.None? ==> t == Tally(0, 1, dir))
      && (forall n :: n in t.dir ==> n in dir && t.dir[n] == dir[n])
      && (forall n :: n in dir && (dir[n].isDirectory || now - dir[n].mtimeMs <= FileExpiryMs) ==> n in t.dir)
      && t.cleaned == |dir.Keys - t.dir.Keys|
      && (present && listing.Some? ==> t.errors == |Faults(listing.value, dir, now)|)
      && (present && listing.Some? ==> t.cleaned + t.errors <= |listing.value|)
  {
    if present && listing.Some? {
      SweepFacts(listing.value, dir, now);
      var t := Sweep(listing.value, dir, now);
      forall n | n in dir && (dir[n].isDirectory || now - dir[n].mtimeMs <= FileExpiryMs) ensures n in t.dir {
        assert !IsRemovable(dir[n], now);
      }
    }
  }
}

=== FILE: file_conversion_options.dfy ===
/** `frontend/src/components/FileConversionOptions.jsx`: the per-file
    options dialog. Its state is an options object; every handler computes a
    new object from the old one. Modelled here: the initial options (an SVG
    starts in `optimize` mode), the switch to absolute resizing and the effect
    that fills in the original dimensions, and the format toggle. The numeric
    fields use `NumericInput.ChangeField` and `NumericInput.BlurField`. */
module FileConversionOptions {
  import opened Js
  import opened FormatSelector
  import opened NumericInput

  /** `file.name.toLowerCase().endsWith('.svg')`. */
  predicate IsSvgFile(name: string) {
    EndsWith(Lower(name), ".svg")
  }

  /** `initialOptions`: an SVG file whose global options carry no truthy
      `svgMode` starts in `optimize` mode; any other file starts from the
      global options as they are. */
  function InitialOptions(name: string, global: Props): (r: Props)
    ensures forall k :: k != "svgMode" ==> Get(r, k) == Get(global, k)
    ensures Truthy(Get(global, "svgMode")) ==> r == global
    ensures !IsSvgFile(name) ==> r == global
    ensures IsSvgFile(name) && !Truthy(Get(global, "svgMode")) ==> Get(r, "svgMode") == Str("optimize")
  {
    if IsSvgFile(name) && !Truthy(Get(global, "svgMode")) then global["svgMode" := Str("optimize")]
    else global
  }

  /** An SVG file always starts with a truthy `svgMode`, and starting the
      dialog on its own initial options changes nothing more. */
  lemma InitialOptionsSettled(name: string, global: Props)
    ensures IsSvgFile(name) ==> Truthy(Get(InitialOptions(name, global), "svgMode"))
    ensures InitialOptions(name, InitialOptions(name, global)) == InitialOptions(name, global)
  {
  }

  /** The dialog's SVG test and the selector's detection differ on exactly
      one name: the bare name `svg` (any letter case), which has extension
      `svg` but does not end in `.svg`. */
  lemma SvgFileVsKind(name: string)
    ensures IsSvgFile(name) ==> KindOf(name) == Svg
    ensures KindOf(name) == Svg && !IsSvgFile(name) ==> Lower(name) == "svg"
  {
    SvgKindIff(name);
  }

  // ---------------------------------------------------------------------
  // Absolute resizing

  /** `originalDimensions`: `{width: null, height: null}` until the image or
      video metadata has loaded. */
  datatype Dims = Dims(width: Value, height: Value)

  /** Both original dimensions are known (truthy). */
  predicate Known(dims: Dims) {
    Truthy(dims.width) && Truthy(dims.height)
  }

  /** A dimension field that has not been set: `undefined`, `null`, `''` or
      `0`, compared with `===`. */
  predicate NeedsFill(v: Value) {
    v == Undefined || v == Null || v == Str("") || v == Num(0)
  }

  /** What a dimension field becomes under the fill rule. */
  function Filled(current: Value, original: Value, dims: Dims): (v: Value)
    ensures Known(dims) && NeedsFill(current) ==> v == original
    ensures !(Known(dims) && NeedsFill(current)) ==> v == current
  {
    if Known(dims) && NeedsFill(current) then original else current
  }

  /** `handleSwitchToAbsolute`: `resizeMode` becomes `absolute`; when both
      original dimensions are known, a width or height that is not set
      takes the original one; every other field is unchanged. */
  function SwitchToAbsolute(local: Props, dims: Dims): (r: Props)
    ensures Get(r, "resizeMode") == Str("absolute")
    ensures Get(r, "width") == Filled(Get(local, "width"), dims.width, dims)
    ensures Get(r, "height") == Filled(Get(local, "height"), dims.height, dims)
    ensures forall k :: k !in {"resizeMode", "width", "height"} ==> Get(r, k) == Get(local, k)
    ensures r.Keys <= local.Keys + {"resizeMode", "width", "height"}
  {
    var next := local["resizeMode" := Str("absolute")];
    if Known(dims) then
      var needsWidth := NeedsFill(Get(local, "width"));
      var needsHeight := NeedsFill(Get(local, "height"));
      var withWidth := if needsWidth then next["width" := dims.width] else next;
      if needsHeight then withWidth["height" := dims.height] else withWidth
    else next
  }

  /** The effect run when the original dimensions load or the resize mode
      changes: in absolute mode with both dimensions known, fields that are
      not set take the original dimensions; otherwise nothing changes. */
  function DimensionEffect(local: Props, dims: Dims): (r: Props)
    ensures Get(local, "resizeMode") == Str("absolute") ==>
      && Get(r, "width") == Filled(Get(local, "width"), dims.width, dims)
      && Get(r, "height") == Filled(Get(local, "height"), dims.height, dims)
    ensures Get(local, "resizeMode") != Str("absolute") ==> r == local
    ensures forall k :: k !in {"width", "height"} ==> Get(r, k) == Get(local, k)
  {
    if Get(local, "resizeMode") == Str("absolute") && Known(dims) then
      var needsWidth := NeedsFill(Get(local, "width"));
      var needsHeight := NeedsFill(Get(local, "height"));
      if needsWidth || needsHeight then
        local["width" := if needsWidth then dims.width else Get(local, "width")]
             ["height" := if needsHeight then dims.height else Get(local, "height")]
      else local
    else local
  }

  /** Once switched to absolute mode, the effect has nothing left to fill. */
  lemma EffectAfterSwitch(local: Props, dims: Dims)
    ensures var s := SwitchToAbsolute(local, dims); DimensionEffect(s, dims) == s
  {
    var s := SwitchToAbsolute(local, dims);
    if Known(dims) {
      assert !NeedsFill(Get(s, "width")) && !NeedsFill(Get(s, "height"));
    }
  }

  /** In absolute mode the effect fills exactly what the switch would have
      filled: the two agree on every field. */
  lemma EffectAgreesWithSwitch(local: Props, dims: Dims, k: string)
    requires Get(local, "resizeMode") == Str("absolute")
    ensures Get(DimensionEffect(local, dims), k) == Get(SwitchToAbsolute(local, dims), k)
  {
  }

  /** Running the effect twice is running it once. */
  lemma EffectIdempotent(local: Props, dims: Dims)
    ensures DimensionEffect(DimensionEffect(local, dims), dims) == DimensionEffect(local, dims)
  {
    var e := DimensionEffect(local, dims);
    if Get(local, "resizeMode") == Str("absolute") && Known(dims) {
      assert !NeedsFill(Get(e, "width")) && !NeedsFill(Get(e, "height"));
    }
  }

  // ---------------------------------------------------------------------
  // Raster section and format toggle

  /** The raster section (resize mode, quality, resize and formats) shows
      for a file that is not an SVG, or for an SVG being converted. */
  predicate ShowsRasterSection(name: string, local: Props) {
    !IsSvgFile(name) || Get(local, "svgMode") == Str("convert")
  }

  /** The format buttons' `onClick`: `FormatSelector.Toggle` on the
      `formats` array, and no update when the result would be empty. */
  function FormatToggle(local: Props, id: string): (r: Props)
    requires Get(local, "formats").Arr?
    ensures Get(r, "formats").Arr?
    ensures forall k :: k != "formats" ==> Get(r, k) == Get(local, k)
    ensures var before := Get(local, "formats").items;
      var after := Get(r, "formats").items;
      && (Str(id) !in before ==> after == before + [Str(id)])
      && (Str(id) in before ==> (after == before <==> forall x :: x in before ==> x == Str(id)))
      && (Str(id) in before && after != before ==> forall x :: x in after <==> x in before && x != Str(id))
  {
    var formats := Get(local, "formats").items;
    ToggleFacts(formats, Str(id));
    match Toggle(formats, Str(id))
    case Some(next) => local["formats" := Arr(next)]
    case None => local
  }

  /** After a toggle the `formats` array is never empty. */
  lemma FormatToggleNonEmpty(local: Props, id: string)
    requires Get(local, "formats").Arr?
    ensures |Get(FormatToggle(local, id), "formats").items| > 0
  {
    var formats := Get(local, "formats").items;
    ToggleFacts(formats, Str(id));
  }
}

=== FILE: format_selector.dfy ===
/** `frontend/src/components/FormatSelector.jsx`: the output-format picker.
    It detects the kinds of file in the queue by their last extension
    segment, offers the four raster formats, and toggles a format in or out
    of the selection without ever reporting an empty selection. */
module FormatSelector {
  import opened Js
  import opened Media

  /** `file.name.split('.').pop().toLowerCase()`. */
  function Ext(name: string): string {
    Lower(SplitPop(name, '.'))
  }

  const RasterExts: seq<string> := ["jpg", "jpeg", "png", "webp", "avif", "gif", "bmp", "tiff"]
  const VideoExts: seq<string> := ["mp4", "webm", "mov", "mkv", "avi", "flv", "wmv", "m4v"]

  /** The formats the selector offers, in display order. */
  const RasterFormats: seq<string> := ["webp", "avif", "jpg", "png"]

  datatype Kind = Raster | Svg | Video | Other

  /** The `if / else if` chain of the detection loop: the one flag a file
      can set. */
  function KindOf(name: string): Kind {
    var ext := Ext(name);
    if ext in RasterExts then Raster
    else if ext == "svg" then Svg
    else if ext in VideoExts then Video
    else Other
  }

  /** Some file in the queue is of kind `k`. */
  predicate Has(names: seq<string>, k: Kind) {
    k in Map(names, KindOf)
  }

  /** `Has` reads as "some file's kind is `k`". */
  lemma HasIff(names: seq<string>, k: Kind)
    ensures Has(names, k) <==> exists i :: 0 <= i < |names| && KindOf(names[i]) == k
  {
    var ks := Map(names, KindOf);
    if k in ks {
      var i :| 0 <= i < |ks| && ks[i] == k;
      MapAt(names, KindOf, i);
    }
    if exists i :: 0 <= i < |names| && KindOf(names[i]) == k {
      var i :| 0 <= i < |names| && KindOf(names[i]) == k;
      MapAt(names, KindOf, i);
      assert ks[i] == k;
    }
  }

  datatype Detected = Detected(raster: bool, svg: bool, video: bool)

  /** The detection effect: every flag starts false and a file sets the
      flag of its kind. */
  method DetectTypes(names: seq<string>) returns (types: Detected)
    ensures types.raster == Has(names, Raster)
    ensures types.svg == Has(names, Svg)
    ensures types.video == Has(names, Video)
  {
    types := Detected(false, false, false);
    for i := 0 to |names|
      invariant types.raster == Has(names[..i], Raster)
      invariant types.svg == Has(names[..i], Svg)
      invariant types.video == Has(names[..i], Video)
    {
      var kind := KindOf(names[i]);
      assert names[..i + 1][..i] == names[..i];
      assert Map(names[..i + 1], KindOf) == Map(names[..i], KindOf) + [kind];
      match kind
      case Raster => types := types.(raster := true);
      case Svg => types := types.(svg := true);
      case Video => types := types.(video := true);
      case Other =>
    }
    assert names[..|names|] == names;
  }

  /** A file is detected as SVG exactly when its lower-cased name is `svg`
      or ends in `.svg`. */
  lemma SvgKindIff(name: string)
    ensures KindOf(name) == Svg <==> Lower(name) == "svg" || EndsWith(Lower(name), ".svg")
  {
    SvgKindIffExt(name);
    LowerSplitPop(name);
    SplitPopSvg(Lower(name));
  }

  /** The last segment is `svg` exactly for `svg` itself and for names
      ending in `.svg`. */
  lemma SplitPopSvg(s: string)
    ensures SplitPop(s, '.') == "svg" <==> s == "svg" || EndsWith(s, ".svg")
  {
    SvgLiterals();
    SplitPopIff(s, '.', "svg");
  }

  lemma SvgLiterals()
    ensures '.' !in "svg" && ['.'] + "svg" == ".svg"
  {
  }

  /** Only the `svg` extension selects the SVG branch: it is not one of the
      raster extensions checked first. */
  lemma SvgKindIffExt(name: string)
    ensures KindOf(name) == Svg <==> Ext(name) == "svg"
  {
    var ext := Ext(name);
    if ext == "svg" {
      assert ext !in RasterExts by {
        forall i | 0 <= i < |RasterExts| ensures RasterExts[i] != "svg" {
          assert RasterExts[i][0] != 's' || |RasterExts[i]| != 3;
        }
      }
    }
  }

  // ---------------------------------------------------------------------
  // handleFormatToggle

  /** The test of `selected.filter(f => f !== id)`. */
  function Unequal<T(==)>(id: T): T -> bool {
    x => x != id
  }

  /** `handleFormatToggle`: a selected format is removed (every occurrence),
      another is appended; the result is `None` when the new list would be
      empty, in which case `onChange` is not called. */
  function Toggle<T(==)>(selected: seq<T>, id: T): (r: Option<seq<T>>)
    ensures r.Some? ==> |r.value| > 0
    ensures id !in selected ==> r == Some(selected + [id])
  {
    var next := if id in selected then Filter(selected, Unequal(id)) else selected + [id];
    if |next| > 0 then Some(next) else None
  }

  /** Toggling a selected format removes exactly that format, and is refused
      only when the selection holds nothing else. */
  lemma ToggleFacts<T>(selected: seq<T>, id: T)
    ensures var r := Toggle(selected, id);
      && (id in selected && r.Some? ==> forall x :: x in r.value <==> x in selected && x != id)
      && (r.None? <==> id in selected && forall x :: x in selected ==> x == id)
  {
    if id in selected {
      var next := Filter(selected, Unequal(id));
      forall x ensures x in next <==> x in selected && x != id {
        FilterMembers(selected, Unequal(id), x);
      }
      if next != [] {
        var y := next[0];
        FilterMembers(selected, Unequal(id), y);
        assert y in selected;
      }
    }
  }

  /** Toggling a format in and out again restores the selection, unless the
      selection was empty to begin with. */
  lemma ToggleTwice<T>(selected: seq<T>, id: T)
    requires id !in selected
    ensures Toggle(selected + [id], id) == if selected == [] then None else Some(selected)
  {
    var s := selected + [id];
    assert s[..|s| - 1] == selected;
    assert !Unequal(id)(id);
    FilterAll(selected, Unequal(id));
    assert Filter(s, Unequal(id)) == Filter(selected, Unequal(id));
  }
}

=== FILE: icons.dfy ===
/** The two container writers of `scripts/generate-icons.cjs`: `createICO`
    (the Windows icon container: a 6-byte header, one 16-byte little-endian
    directory entry per image, then the image data) and `createICNS` (the
    Apple icon container: the `icns` magic, a big-endian total length, then
    one typed chunk per image). Both fill a freshly allocated, zeroed buffer
    in place; the images are whatever bytes sharp produced. */
module Icons {
  import Js

  newtype byte = b: int | 0 <= b < 256

  // ---------------------------------------------------------------------
  // Integer encodings, as `writeUInt16LE`, `writeUInt32LE` and
  // `writeUInt32BE` lay them out (those calls throw on values that do not
  // fit; the writers below require that every value fits)

  const Two16: nat := 0x1_0000
  const Two32: nat := 0x1_0000_0000

  /** `width` bytes of `v`, least significant first. */
  function LE(v: nat, width: nat): (r: seq<byte>)
    ensures |r| == width
  {
    if width == 0 then [] else [(v % 256) as byte] + LE(v / 256, width - 1)
  }

  /** `width` bytes of `v`, most significant first. */
  function BE(v: nat, width: nat): (r: seq<byte>)
    ensures |r| == width
  {
    if width == 0 then [] else BE(v / 256, width - 1) + [(v % 256) as byte]
  }

  function U16LE(v: nat): (r: seq<byte>)
    ensures |r| == 2
  {
    LE(v, 2)
  }

  function U32LE(v: nat): (r: seq<byte>)
    ensures |r| == 4
  {
    LE(v, 4)
  }

  function U32BE(v: nat): (r: seq<byte>)
    ensures |r| == 4
  {
    BE(v, 4)
  }

  /** The value of little-endian bytes. */
  function ReadLE(s: seq<byte>): nat {
    if s == [] then 0 else s[0] as nat + 256 * ReadLE(s[1..])
  }

  /** The value of big-endian bytes. */
  function ReadBE(s: seq<byte>): nat {
    if s == [] then 0 else 256 * ReadBE(s[..|s| - 1]) + s[|s| - 1] as nat
  }

  function ReadU16LE(s: seq<byte>, at: nat): nat
    requires at + 2 <= |s|
  {
    ReadLE(s[at..at + 2])
  }

  function ReadU32LE(s: seq<byte>, at: nat): nat
    requires at + 4 <= |s|
  {
    ReadLE(s[at..at + 4])
  }

  function ReadU32BE(s: seq<byte>, at: nat): nat
    requires at + 4 <= |s|
  {
    ReadBE(s[at..at + 4])
  }

  function Pow256(width: nat): nat {
    if width == 0 then 1 else 256 * Pow256(width - 1)
  }

  /** Little-endian bytes read back as the value written, when it fits. */
  lemma {:induction false} LERoundTrip(v: nat, width: nat)
    requires v < Pow256(width)
    ensures ReadLE(LE(v, width)) == v
  {
    if width > 0 {
      LERoundTrip(v / 256, width - 1);
      assert LE(v, width)[1..] == LE(v / 256, width - 1);
    }
  }

  /** Big-endian bytes read back as the value written, when it fits. */
  lemma {:induction false} BERoundTrip(v: nat, width: nat)
    requires v < Pow256(width)
    ensures ReadBE(BE(v, width)) == v
  {
    if width > 0 {
      BERoundTrip(v / 256, width - 1);
      var r := BE(v, width);
      assert r[..|r| - 1] == BE(v / 256, width - 1);
    }
  }

  /** Bytes written by `writeUInt16LE(v, at)` read back as `v`. */
  lemma ReadsU16LE(s: seq<byte>, at: nat, v: nat)
    requires at + 2 <= |s| && s[at..at + 2] == U16LE(v) && v < Two16
    ensures ReadU16LE(s, at) == v
  {
    assert Pow256(2) == Two16;
    LERoundTrip(v, 2);
  }

  /** Bytes written by `writeUInt32LE(v, at)` read back as `v`. */
  lemma ReadsU32LE(s: seq<byte>, at: nat, v: nat)
    requires at + 4 <= |s| && s[at..at + 4] == U32LE(v) && v < Two32
    ensures ReadU32LE(s, at) == v
  {
    assert Pow256(4) == Two32;
    LERoundTrip(v, 4);
  }

  /** Bytes written by `writeUInt32BE(v, at)` read back as `v`. */
  lemma ReadsU32BE(s: seq<byte>, at: nat, v: nat)
    requires at + 4 <= |s| && s[at..at + 4] == U32BE(v) && v < Two32
    ensures ReadU32BE(s, at) == v
  {
    assert Pow256(4) == Two32;
    BERoundTrip(v, 4);
  }

  // ---------------------------------------------------------------------
  // Filling a buffer

  /** `buf.write`, `writeUInt*` and `copy`: the bytes land at `at`, every
      other byte is untouched. */
  method Put(buf: array<byte>, at: nat, bytes: seq<byte>)
    requires at + |bytes| <= buf.Length
    modifies buf
    ensures buf[..at] == old(buf[..at])
    ensures buf[at..at + |bytes|] == bytes
    ensures buf[at + |bytes|..] == old(buf[at + |bytes|..])
  {
    for j := 0 to |bytes|
      invariant forall q :: 0 <= q < buf.Length ==> buf[q] == if at <= q < at + j then bytes[q - at] else old(buf[q])
    {
      buf[at + j] := bytes[j];
    }
  }

  /** Writing the bytes that follow a prefix already in place extends it. */
  method Extend(buf: array<byte>, at: nat, ghost prefix: seq<byte>, bytes: seq<byte>)
    requires at == |prefix| && at + |bytes| <= buf.Length && buf[..at] == prefix
    modifies buf
    ensures buf[..at + |bytes|] == prefix + bytes
  {
    Put(buf, at, bytes);
    assert buf[..|prefix| + |bytes|] == buf[..|prefix|] + buf[|prefix|..|prefix| + |bytes|];
  }

  // ---------------------------------------------------------------------
  // Concatenating blocks

  /** The blocks laid end to end, first to last. */
  function Concat(blocks: seq<seq<byte>>): seq<byte> {
    if blocks == [] then [] else Concat(blocks[..|blocks| - 1]) + blocks[|blocks| - 1]
  }

  /** Block `i` sits right after the blocks before it. */
  lemma {:induction false} ConcatAt(blocks: seq<seq<byte>>, i: nat)
    requires i < |blocks|
    ensures var at := |Concat(blocks[..i])|;
      at + |blocks[i]| <= |Concat(blocks)| && Concat(blocks)[at..at + |blocks[i]|] == blocks[i]
  {
    var init := blocks[..|blocks| - 1];
    if i < |blocks| - 1 {
      ConcatAt(init, i);
      TakeOfTake(blocks, i, |blocks| - 1);
      var at := |Concat(blocks[..i])|;
      assert Concat(blocks)[at..at + |blocks[i]|] == Concat(init)[at..at + |blocks[i]|];
    } else {
      assert blocks[..i] == init;
    }
  }

  /** The blocks read from the front: the first, then the rest. */
  lemma {:induction false} ConcatHead(blocks: seq<seq<byte>>)
    requires blocks != []
    ensures Concat(blocks) == blocks[0] + Concat(blocks[1..])
  {
    if |blocks| > 1 {
      var init := blocks[..|blocks| - 1];
      ConcatHead(init);
      assert init[1..] == blocks[1..][..|blocks[1..]| - 1];
      assert init[0] == blocks[0];
    } else {
      assert blocks[1..] == [];
      assert blocks[..0] == [];
    }
  }

  lemma ConcatPrefix(blocks: seq<seq<byte>>, k: nat)
    requires k < |blocks|
    ensures Concat(blocks[..k + 1]) == Concat(blocks[..k]) + blocks[k]
  {
    TakeOfTake(blocks, k, k + 1);
  }

  lemma {:induction false} ConcatPrefixShorter(blocks: seq<seq<byte>>, k: nat)
    requires k <= |blocks|
    ensures |Concat(blocks[..k])| <= |Concat(blocks)|
    decreases |blocks| - k
  {
    if k < |blocks| {
      ConcatPrefixShorter(blocks, k + 1);
      ConcatPrefix(blocks, k);
    } else {
      TakeAll(blocks);
    }
  }

  lemma TakeAll<T>(s: seq<T>)
    ensures s[..|s|] == s
  {
  }

  lemma TakeOfTake<T>(s: seq<T>, i: nat, j: nat)
    requires i <= j <= |s|
    ensures s[..j][..i] == s[..i]
  {
  }

  /** A slice of the middle part of `a + b + c`. */
  lemma SliceMiddle(a: seq<byte>, b: seq<byte>, c: seq<byte>, i: nat, j: nat)
    requires i <= j <= |b|
    ensures (a + b + c)[|a| + i..|a| + j] == b[i..j]
  {
    assert forall q :: |a| + i <= q < |a| + j ==> (a + b + c)[q] == b[q - |a|];
  }

  /** A slice of the first part of `a + c`. */
  lemma SliceFirst(a: seq<byte>, c: seq<byte>, i: nat, j: nat)
    requires i <= j <= |a|
    ensures (a + c)[i..j] == a[i..j]
  {
    assert forall q :: i <= q < j ==> (a + c)[q] == a[q];
  }

  /** A slice of the last part of `a + c`. */
  lemma SliceLast(a: seq<byte>, c: seq<byte>, i: nat, j: nat)
    requires i <= j <= |c|
    ensures (a + c)[|a| + i..|a| + j] == c[i..j]
  {
    assert forall q :: |a| + i <= q < |a| + j ==> (a + c)[q] == c[q - |a|];
  }

  // ---------------------------------------------------------------------
  // createICO

  /** One image handed to createICO: its edge length in pixels and its PNG bytes. */
  datatype IcoImage = IcoImage(size: nat, data: seq<byte>)

  /** One element of `entries`: the two dimension bytes, the image and its offset. */
  datatype DirEntry = DirEntry(width: byte, height: byte, data: seq<byte>, offset: nat)

  const IcoHeaderSize: nat := 6
  const DirEntrySize: nat := 16

  /** The width or height byte: 0 stands for 256 and more. */
  function DimByte(size: nat): (b: byte)
    ensures size >= 256 ==> b == 0
    ensures size < 256 ==> b as nat == size
  {
    if size >= 256 then 0 else size as byte
  }

  /** The total length of the images' data. */
  function DataLength(images: seq<IcoImage>): nat {
    if images == [] then 0 else DataLength(images[..|images| - 1]) + |images[|images| - 1].data|
  }

  /** The first loop of createICO: one entry per image, the first at
      `start`, each later one right after the data of the one before. */
  function Layout(images: seq<IcoImage>, start: nat): (es: seq<DirEntry>)
    ensures |es| == |images|
  {
    if images == [] then []
    else
      var img := images[|images| - 1];
      var init := images[..|images| - 1];
      Layout(init, start) + [DirEntry(DimByte(img.size), DimByte(img.size), img.data, start + DataLength(init))]
  }

  /** One 16-byte directory entry: width, height, palette 0, reserved 0,
      one colour plane, 32 bits per pixel, data length, data offset. */
  function EntryBytes(e: DirEntry): (r: seq<byte>)
    ensures |r| == DirEntrySize
  {
    [e.width, e.height, 0, 0] + U16LE(1) + U16LE(32) + U32LE(|e.data|) + U32LE(e.offset)
  }

  function EntryBlocks(es: seq<DirEntry>): (r: seq<seq<byte>>)
    ensures |r| == |es|
  {
    seq(|es|, i requires 0 <= i < |es| => EntryBytes(es[i]))
  }

  function DataBlocks(es: seq<DirEntry>): (r: seq<seq<byte>>)
    ensures |r| == |es|
  {
    seq(|es|, i requires 0 <= i < |es| => es[i].data)
  }

  function IcoHeader(n: nat): (r: seq<byte>)
    ensures |r| == IcoHeaderSize
  {
    U16LE(0) + U16LE(1) + U16LE(n)
  }

  /** The ICO file for images already in their final order. */
  function IcoFile(images: seq<IcoImage>): seq<byte> {
    var es := Layout(images, IcoHeaderSize + DirEntrySize * |images|);
    IcoHeader(|images|) + Concat(EntryBlocks(es)) + Concat(DataBlocks(es))
  }

  /** What createICO can write without a RangeError: fewer than 65536
      images, and a file shorter than 4 GiB. */
  predicate IcoFits(images: seq<IcoImage>) {
    |images| < Two16 && IcoHeaderSize + DirEntrySize * |images| + DataLength(images) < Two32
  }

  // The sort `(a, b) => b.size - a.size`, which is stable

  /** Insert `x` after every element at least as large. */
  function InsertBySize(x: IcoImage, t: seq<IcoImage>): (r: seq<IcoImage>)
    ensures |r| == |t| + 1
    ensures multiset(r) == multiset(t) + multiset{x}
  {
    if t == [] then [x]
    else if t[0].size < x.size then [x] + t
    else
      assert t == [t[0]] + t[1..];
      [t[0]] + InsertBySize(x, t[1..])
  }

  function SortBySize(s: seq<IcoImage>): (r: seq<IcoImage>)
    ensures |r| == |s|
    ensures multiset(r) == multiset(s)
  {
    if s == [] then []
    else
      assert s == s[..|s| - 1] + [s[|s| - 1]];
      InsertBySize(s[|s| - 1], SortBySize(s[..|s| - 1]))
  }

  predicate SortedBySize(s: seq<IcoImage>) {
    forall i, j :: 0 <= i < j < |s| ==> s[i].size >= s[j].size
  }

  /** Every element of the insertion is `x` or comes from `t`. */
  lemma InsertMember(x: IcoImage, t: seq<IcoImage>, k: nat)
    requires k < |InsertBySize(x, t)|
    ensures InsertBySize(x, t)[k] == x || InsertBySize(x, t)[k] in t
  {
    var r := InsertBySize(x, t);
    assert r[k] in multiset(r);
  }

  lemma {:induction false} InsertKeepsSorted(x: IcoImage, t: seq<IcoImage>)
    requires SortedBySize(t)
    ensures SortedBySize(InsertBySize(x, t))
  {
    if t != [] && t[0].size >= x.size {
      SortedTail(t);
      InsertKeepsSorted(x, t[1..]);
      InsertBehind(x, t);
    } else if t != [] {
      InsertInFront(x, t);
    }
  }

  lemma SortedTail(t: seq<IcoImage>)
    requires t != [] && SortedBySize(t)
    ensures SortedBySize(t[1..])
  {
    var rest := t[1..];
    forall i, j | 0 <= i < j < |rest| ensures rest[i].size >= rest[j].size {
      assert rest[i] == t[i + 1] && rest[j] == t[j + 1];
    }
  }

  /** A head at least as large as every element of a sorted rest keeps it sorted. */
  lemma ConsSorted(h: IcoImage, rest: seq<IcoImage>)
    requires SortedBySize(rest)
    requires forall k :: 0 <= k < |rest| ==> h.size >= rest[k].size
    ensures SortedBySize([h] + rest)
  {
    var r := [h] + rest;
    forall i, j | 0 <= i < j < |r| ensures r[i].size >= r[j].size {
      assert r[j] == rest[j - 1];
      if i > 0 {
        assert r[i] == rest[i - 1];
      }
    }
  }

  /** `x` goes before a head smaller than it. */
  lemma InsertInFront(x: IcoImage, t: seq<IcoImage>)
    requires t != [] && t[0].size < x.size && SortedBySize(t)
    ensures SortedBySize(InsertBySize(x, t))
  {
    ConsSorted(x, t);
  }

  /** `x` goes after a head at least as large, into the sorted rest. */
  lemma InsertBehind(x: IcoImage, t: seq<IcoImage>)
    requires t != [] && t[0].size >= x.size && SortedBySize(t)
    requires SortedBySize(InsertBySize(x, t[1..]))
    ensures SortedBySize(InsertBySize(x, t))
  {
    var rest := t[1..];
    var r' := InsertBySize(x, rest);
    forall k | 0 <= k < |r'| ensures t[0].size >= r'[k].size {
      InsertMember(x, rest, k);
      if r'[k] != x {
        var j :| 0 <= j < |rest| && rest[j] == r'[k];
        assert rest[j] == t[j + 1];
      }
    }
    ConsSorted(t[0], r');
  }

  /** The sort orders the images largest first and keeps every image. */
  lemma {:induction false} SortBySizeSorted(s: seq<IcoImage>)
    ensures SortedBySize(SortBySize(s)) && multiset(SortBySize(s)) == multiset(s)
  {
    if s != [] {
      SortBySizeSorted(s[..|s| - 1]);
      InsertKeepsSorted(s[|s| - 1], SortBySize(s[..|s| - 1]));
    }
  }

  /** `images.sort(...)`: the caller's array is reordered in place. */
  method SortImages(images: array<IcoImage>)
    modifies images
    ensures images[..] == SortBySize(old(images[..]))
  {
    var sorted := SortBySize(images[..]);
    for i := 0 to images.Length
      invariant forall q :: 0 <= q < i ==> images[q] == sorted[q]
    {
      images[i] := sorted[i];
    }
  }

  /** The first loop of createICO. */
  method LayoutEntries(images: seq<IcoImage>, start: nat) returns (entries: seq<DirEntry>, offset: nat)
    ensures entries == Layout(images, start) && offset == start + DataLength(images)
  {
    entries := [];
    offset := start;
    for k := 0 to |images|
      invariant entries == Layout(images[..k], start)
      invariant offset == start + DataLength(images[..k])
    {
      var img := images[k];
      TakeOfTake(images, k, k + 1);
      var side := if img.size >= 256 then 0 else img.size as byte;
      entries := entries + [DirEntry(side, side, img.data, offset)];
      offset := offset + |img.data|;
    }
    TakeAll(images);
  }

  /** The second loop of createICO: entry k at 6 + 16k. */
  method WriteDirectory(buffer: array<byte>, entries: seq<DirEntry>, ghost header: seq<byte>)
    requires IcoHeaderSize + DirEntrySize * |entries| <= buffer.Length
    requires |header| == IcoHeaderSize && buffer[..IcoHeaderSize] == header
    modifies buffer
    ensures buffer[..IcoHeaderSize + DirEntrySize * |entries|] == header + Concat(EntryBlocks(entries))
  {
    var dirOffset := IcoHeaderSize;
    for k := 0 to |entries|
      invariant dirOffset == IcoHeaderSize + DirEntrySize * k
      invariant buffer[..dirOffset] == header + Concat(EntryBlocks(entries)[..k])
    {
      var entry := entries[k];
      EntryBlocksLength(entries, k);
      assert EntryBlocks(entries)[k] == EntryBytes(entry);
      ConcatStep(header, EntryBlocks(entries), k);
      WriteEntry(buffer, dirOffset, header + Concat(EntryBlocks(entries)[..k]), entry);
      dirOffset := dirOffset + DirEntrySize;
    }
    TakeAll(EntryBlocks(entries));
  }

  /** The sixteen bytes of one directory entry, field by field. */
  method WriteEntry(buffer: array<byte>, at: nat, ghost prefix: seq<byte>, entry: DirEntry)
    requires at == |prefix| && at + DirEntrySize <= buffer.Length && buffer[..at] == prefix
    modifies buffer
    ensures buffer[..at + DirEntrySize] == prefix + EntryBytes(entry)
  {
    ghost var written := prefix;
    Extend(buffer, at, written, [entry.width]);
    written := written + [entry.width];
    Extend(buffer, at + 1, written, [entry.height]);
    written := written + [entry.height];
    Extend(buffer, at + 2, written, [0]);
    written := written + [0];
    Extend(buffer, at + 3, written, [0]);
    written := written + [0];
    Extend(buffer, at + 4, written, U16LE(1));
    written := written + U16LE(1);
    Extend(buffer, at + 6, written, U16LE(32));
    written := written + U16LE(32);
    Extend(buffer, at + 8, written, U32LE(|entry.data|));
    written := written + U32LE(|entry.data|);
    Extend(buffer, at + 12, written, U32LE(entry.offset));
    written := written + U32LE(entry.offset);
    EntryBytesFields(prefix, entry);
  }

  /** The entry's bytes, as the field writes append them. */
  lemma EntryBytesFields(prefix: seq<byte>, e: DirEntry)
    ensures prefix + EntryBytes(e)
         == prefix + [e.width] + [e.height] + [0] + [0] + U16LE(1) + U16LE(32) + U32LE(|e.data|) + U32LE(e.offset)
  {
    assert [e.width, e.height, 0, 0] == [e.width] + [e.height] + [0] + [0];
  }

  /** Each entry's offset is where its data follows the data before it. */
  predicate Consecutive(entries: seq<DirEntry>, start: nat) {
    forall k {:trigger entries[k].offset} :: 0 <= k < |entries| ==> entries[k].offset == start + |Concat(DataBlocks(entries)[..k])|
  }

  /** The third loop of createICO: each image's bytes copied to its offset. */
  method WriteData(buffer: array<byte>, entries: seq<DirEntry>, start: nat, ghost prefix: seq<byte>)
    requires start + |Concat(DataBlocks(entries))| <= buffer.Length
    requires start == |prefix| && buffer[..start] == prefix
    requires Consecutive(entries, start)
    modifies buffer
    ensures buffer[..start + |Concat(DataBlocks(entries))|] == prefix + Concat(DataBlocks(entries))
  {
    for k := 0 to |entries|
      invariant start + |Concat(DataBlocks(entries)[..k])| <= buffer.Length
      invariant buffer[..start + |Concat(DataBlocks(entries)[..k])|] == prefix + Concat(DataBlocks(entries)[..k])
    {
      var entry := entries[k];
      assert DataBlocks(entries)[k] == entry.data;
      ConcatStep(prefix, DataBlocks(entries), k);
      Extend(buffer, entry.offset, prefix + Concat(DataBlocks(entries)[..k]), entry.data);
    }
    TakeAll(DataBlocks(entries));
  }

  /** createICO: the caller's images end up sorted largest first, and the
      returned buffer is the ICO file for that order. */
  method CreateIco(images: array<IcoImage>) returns (buffer: array<byte>)
    requires IcoFits(images[..])
    modifies images
    ensures images[..] == SortBySize(old(images[..]))
    ensures fresh(buffer) && buffer[..] == IcoFile(images[..])
  {
    SortImages(images);
    buffer := WriteIco(images[..]);
  }

  /** The rest of createICO, once the images are sorted: the offsets, the
      allocation, then the header, the directory and the data. */
  method WriteIco(images: seq<IcoImage>) returns (buffer: array<byte>)
    ensures fresh(buffer) && buffer[..] == IcoFile(images)
  {
    var n := |images|;
    var dirSize := DirEntrySize * n;
    var start := IcoHeaderSize + dirSize;
    var entries, offset := LayoutEntries(images, start);
    IcoPlan(images, entries, start);
    LayoutConsecutive(images, start);
    buffer := new byte[offset](_ => 0);
    FillIco(buffer, n, entries, start);
  }

  /** The header, directory and data writes of createICO into a buffer
      sized for exactly those three parts. */
  method FillIco(buffer: array<byte>, n: nat, entries: seq<DirEntry>, start: nat)
    requires |entries| == n && start == IcoHeaderSize + DirEntrySize * n
    requires |Concat(EntryBlocks(entries))| == DirEntrySize * n
    requires buffer.Length == start + |Concat(DataBlocks(entries))|
    requires Consecutive(entries, start)
    modifies buffer
    ensures buffer[..] == IcoHeader(n) + Concat(EntryBlocks(entries)) + Concat(DataBlocks(entries))
  {
    WriteIcoHeader(buffer, n);
    WriteDirectory(buffer, entries, IcoHeader(n));
    WriteData(buffer, entries, start, IcoHeader(n) + Concat(EntryBlocks(entries)));
    assert buffer[..] == buffer[..buffer.Length];
  }

  /** What the writing loops of createICO rely on: the file is the header,
      the directory and the data; the directory takes 16 bytes per image and
      the data follows it. */
  lemma IcoPlan(images: seq<IcoImage>, entries: seq<DirEntry>, start: nat)
    requires start == IcoHeaderSize + DirEntrySize * |images| && entries == Layout(images, start)
    ensures IcoFile(images) == IcoHeader(|images|) + Concat(EntryBlocks(entries)) + Concat(DataBlocks(entries))
    ensures |Concat(EntryBlocks(entries))| == DirEntrySize * |entries|
    ensures |Concat(DataBlocks(entries))| == DataLength(images)
  {
    EntryBlocksTotal(entries);
    DataLengthBlocks(images, start);
  }

  /** The three header writes: reserved 0, type 1 (icon), image count. */
  method WriteIcoHeader(buffer: array<byte>, n: nat)
    requires IcoHeaderSize <= buffer.Length
    modifies buffer
    ensures buffer[..IcoHeaderSize] == IcoHeader(n)
  {
    Extend(buffer, 0, [], U16LE(0));
    Extend(buffer, 2, U16LE(0), U16LE(1));
    Extend(buffer, 4, U16LE(0) + U16LE(1), U16LE(n));
  }

  // Properties of the ICO layout

  /** Entry `k` holds image `k`, its dimension bytes, and the offset right
      after the data of the images before it. */
  lemma {:induction false} LayoutAt(images: seq<IcoImage>, start: nat, k: nat)
    requires k < |images|
    ensures Layout(images, start)[k]
         == DirEntry(DimByte(images[k].size), DimByte(images[k].size), images[k].data, start + DataLength(images[..k]))
  {
    var init := images[..|images| - 1];
    if k < |images| - 1 {
      LayoutAt(init, start, k);
      TakeOfTake(images, k, |images| - 1);
    } else {
      assert images[..k] == init;
    }
  }

  /** The data blocks of the first `k` entries are as long as the first `k` images' data. */
  lemma {:induction false} DataBlocksLength(images: seq<IcoImage>, start: nat, k: nat)
    requires k <= |images|
    ensures |Concat(DataBlocks(Layout(images, start))[..k])| == DataLength(images[..k])
  {
    if k > 0 {
      DataBlocksLength(images, start, k - 1);
      ConcatPrefix(DataBlocks(Layout(images, start)), k - 1);
      LayoutAt(images, start, k - 1);
      TakeOfTake(images, k - 1, k);
    } else {
      assert images[..0] == [];
    }
  }

  lemma DataLengthBlocks(images: seq<IcoImage>, start: nat)
    ensures |Concat(DataBlocks(Layout(images, start)))| == DataLength(images)
  {
    DataBlocksLength(images, start, |images|);
    TakeAll(DataBlocks(Layout(images, start)));
    TakeAll(images);
  }

  lemma LayoutConsecutive(images: seq<IcoImage>, start: nat)
    ensures Consecutive(Layout(images, start), start)
  {
    forall k | 0 <= k < |images|
      ensures Layout(images, start)[k].offset == start + |Concat(DataBlocks(Layout(images, start))[..k])|
    {
      LayoutAt(images, start, k);
      DataBlocksLength(images, start, k);
    }
  }

  lemma {:induction false} EntryBlocksLength(es: seq<DirEntry>, k: nat)
    requires k <= |es|
    ensures |Concat(EntryBlocks(es)[..k])| == DirEntrySize * k
  {
    if k > 0 {
      EntryBlocksLength(es, k - 1);
      ConcatPrefix(EntryBlocks(es), k - 1);
    }
  }

  /** The ICO file is 6 + 16n + (the images' total length) bytes long. */
  lemma IcoLength(images: seq<IcoImage>)
    ensures |IcoFile(images)| == IcoHeaderSize + DirEntrySize * |images| + DataLength(images)
  {
    var es := Layout(images, IcoHeaderSize + DirEntrySize * |images|);
    EntryBlocksTotal(es);
    DataLengthBlocks(images, IcoHeaderSize + DirEntrySize * |images|);
  }

  lemma EntryBlocksTotal(es: seq<DirEntry>)
    ensures |Concat(EntryBlocks(es))| == DirEntrySize * |es|
  {
    EntryBlocksLength(es, |es|);
    TakeAll(EntryBlocks(es));
  }

  /** The header reads back as reserved 0, type 1 and the image count. */
  lemma IcoHeaderReadBack(images: seq<IcoImage>)
    requires IcoFits(images)
    ensures var f := IcoFile(images);
      |f| >= IcoHeaderSize && ReadU16LE(f, 0) == 0 && ReadU16LE(f, 2) == 1 && ReadU16LE(f, 4) == |images|
  {
    var n := |images|;
    var es := Layout(images, IcoHeaderSize + DirEntrySize * n);
    var h := IcoHeader(n);
    var rest := Concat(EntryBlocks(es)) + Concat(DataBlocks(es));
    var f := IcoFile(images);
    assert f == h + rest;
    assert h[0..2] == U16LE(0) && h[2..4] == U16LE(1) && h[4..6] == U16LE(n);
    SliceFirst(h, rest, 0, 2);
    SliceFirst(h, rest, 2, 4);
    SliceFirst(h, rest, 4, 6);
    ReadsU16LE(f, 0, 0);
    ReadsU16LE(f, 2, 1);
    ReadsU16LE(f, 4, n);
  }

  /** Directory entry `k` sits at 6 + 16k and is the `k`-th entry of the
      layout (which `LayoutAt` spells out). */
  lemma IcoEntryAt(images: seq<IcoImage>, k: nat)
    requires k < |images|
    ensures var f := IcoFile(images);
      var at := IcoHeaderSize + DirEntrySize * k;
      && at + DirEntrySize <= |f|
      && f[at..at + DirEntrySize] == EntryBytes(Layout(images, IcoHeaderSize + DirEntrySize * |images|)[k])
  {
    var start := IcoHeaderSize + DirEntrySize * |images|;
    IcoPlan(images, Layout(images, start), start);
    PartsEntryAt(images, k);
  }

  /** `IcoEntryAt`, on the three parts of the file. */
  lemma PartsEntryAt(images: seq<IcoImage>, k: nat)
    requires k < |images|
    ensures var es := Layout(images, IcoHeaderSize + DirEntrySize * |images|);
      var f := IcoHeader(|images|) + Concat(EntryBlocks(es)) + Concat(DataBlocks(es));
      var at := IcoHeaderSize + DirEntrySize * k;
      && at + DirEntrySize <= |f|
      && f[at..at + DirEntrySize] == EntryBytes(es[k])
  {
    var es := Layout(images, IcoHeaderSize + DirEntrySize * |images|);
    var dir := Concat(EntryBlocks(es));
    DirectoryAt(es, k);
    SliceMiddle(IcoHeader(|images|), dir, Concat(DataBlocks(es)), DirEntrySize * k, DirEntrySize * k + DirEntrySize);
  }

  /** Reading directory entry `k` back from the file gives image `k`'s
      dimension bytes, palette 0, reserved 0, one plane, 32 bits per pixel,
      its length, and its offset: 6 + 16n plus the lengths before it. */
  lemma IcoDirectoryReadBack(images: seq<IcoImage>, k: nat)
    requires IcoFits(images) && k < |images|
    ensures var f := IcoFile(images);
      var at := IcoHeaderSize + DirEntrySize * k;
      && at + DirEntrySize <= |f|
      && f[at] == DimByte(images[k].size) && f[at + 1] == DimByte(images[k].size)
      && f[at + 2] == 0 && f[at + 3] == 0
      && ReadU16LE(f, at + 4) == 1 && ReadU16LE(f, at + 6) == 32
      && ReadU32LE(f, at + 8) == |images[k].data|
      && ReadU32LE(f, at + 12) == IcoHeaderSize + DirEntrySize * |images| + DataLength(images[..k])
  {
    var start := IcoHeaderSize + DirEntrySize * |images|;
    var e := Layout(images, start)[k];
    var f := IcoFile(images);
    var at := IcoHeaderSize + DirEntrySize * k;
    var r := EntryBytes(e);
    IcoEntryAt(images, k);
    LayoutAt(images, start, k);
    assert |e.data| < Two32 && e.offset < Two32 by {
      DataLengthPrefix(images, k);
    }
    EntryReadBack(f, at, e);
  }

  lemma SubSlice(f: seq<byte>, at: nat, len: nat, i: nat, j: nat)
    requires at + len <= |f| && i <= j <= len
    ensures f[at..at + len][i..j] == f[at + i..at + j]
  {
    var g := f[at..at + len][i..j];
    assert forall q :: 0 <= q < |g| ==> g[q] == f[at + i + q];
  }

  /** The images before `k`, and `k` itself, fit within all of them. */
  lemma {:induction false} DataLengthPrefix(images: seq<IcoImage>, k: nat)
    requires k < |images|
    ensures DataLength(images[..k]) + |images[k].data| <= DataLength(images)
  {
    var init := images[..|images| - 1];
    if k < |images| - 1 {
      DataLengthPrefix(init, k);
      TakeOfTake(images, k, |images| - 1);
    } else {
      assert images[..k] == init;
    }
  }

  /** Image `k`'s bytes sit verbatim at the offset its entry records. */
  lemma IcoDataAt(images: seq<IcoImage>, k: nat)
    requires k < |images|
    ensures var f := IcoFile(images);
      var off := IcoHeaderSize + DirEntrySize * |images| + DataLength(images[..k]);
      && off + |images[k].data| <= |f|
      && f[off..off + |images[k].data|] == images[k].data
  {
    var start := IcoHeaderSize + DirEntrySize * |images|;
    IcoPlan(images, Layout(images, start), start);
    PartsDataAt(images, k);
  }

  /** `IcoDataAt`, on the three parts of the file. */
  lemma PartsDataAt(images: seq<IcoImage>, k: nat)
    requires k < |images|
    ensures var es := Layout(images, IcoHeaderSize + DirEntrySize * |images|);
      var f := IcoHeader(|images|) + Concat(EntryBlocks(es)) + Concat(DataBlocks(es));
      var off := IcoHeaderSize + DirEntrySize * |images| + DataLength(images[..k]);
      && off + |images[k].data| <= |f|
      && f[off..off + |images[k].data|] == images[k].data
  {
    var start := IcoHeaderSize + DirEntrySize * |images|;
    var es := Layout(images, start);
    var data := Concat(DataBlocks(es));
    var head := IcoHeader(|images|) + Concat(EntryBlocks(es));
    EntryBlocksTotal(es);
    var dk := DataLength(images[..k]);
    DataAt(images, start, k);
    PartAt(head + data, head, data, dk, |images[k].data|, start + dk);
  }

  /** The `len` bytes at `at` of `f == a + c` are those at `i` in `c`. */
  lemma PartAt(f: seq<byte>, a: seq<byte>, c: seq<byte>, i: nat, len: nat, at: nat)
    requires f == a + c && i + len <= |c| && at == |a| + i
    ensures at + len <= |f| && f[at..at + len] == c[i..i + len]
  {
    SliceLast(a, c, i, i + len);
  }

  /** Entry `k` of the directory is at 16k. */
  lemma DirectoryAt(es: seq<DirEntry>, k: nat)
    requires k < |es|
    ensures DirEntrySize * k + DirEntrySize <= |Concat(EntryBlocks(es))|
    ensures Concat(EntryBlocks(es))[DirEntrySize * k..DirEntrySize * k + DirEntrySize] == EntryBytes(es[k])
  {
    ConcatAt(EntryBlocks(es), k);
    EntryBlocksLength(es, k);
  }

  /** Image `k`'s data follows the data of the images before it. */
  lemma DataAt(images: seq<IcoImage>, start: nat, k: nat)
    requires k < |images|
    ensures var data := Concat(DataBlocks(Layout(images, start)));
      var dk := DataLength(images[..k]);
      dk + |images[k].data| <= |data| && data[dk..dk + |images[k].data|] == images[k].data
  {
    LayoutAt(images, start, k);
    ConcatAt(DataBlocks(Layout(images, start)), k);
    DataBlocksLength(images, start, k);
  }

  /** The five parts of a directory entry, by position. */
  lemma EntryFields(e: DirEntry)
    ensures var r := EntryBytes(e);
      && r[4..6] == U16LE(1) && r[6..8] == U16LE(32)
      && r[8..12] == U32LE(|e.data|) && r[12..16] == U32LE(e.offset)
  {
    var w: seq<byte> := [e.width, e.height, 0, 0];
    var a := w + U16LE(1) + U16LE(32) + U32LE(|e.data|);
    SliceLast(a, U32LE(e.offset), 0, 4);
    SliceMiddle(w + U16LE(1) + U16LE(32), U32LE(|e.data|), U32LE(e.offset), 0, 4);
    assert EntryBytes(e)[..12] == a;
    assert a[4..6] == U16LE(1) && a[6..8] == U16LE(32) by {
      SliceMiddle(w, U16LE(1), U16LE(32) + U32LE(|e.data|), 0, 2);
      SliceMiddle(w + U16LE(1), U16LE(32), U32LE(|e.data|), 0, 2);
      assert w + U16LE(1) + (U16LE(32) + U32LE(|e.data|)) == a;
    }
  }

  /** A directory entry written at `at` reads back field by field. */
  lemma EntryReadBack(f: seq<byte>, at: nat, e: DirEntry)
    requires at + DirEntrySize <= |f| && f[at..at + DirEntrySize] == EntryBytes(e)
    requires |e.data| < Two32 && e.offset < Two32
    ensures && f[at] == e.width && f[at + 1] == e.height && f[at + 2] == 0 && f[at + 3] == 0
            && ReadU16LE(f, at + 4) == 1 && ReadU16LE(f, at + 6) == 32
            && ReadU32LE(f, at + 8) == |e.data| && ReadU32LE(f, at + 12) == e.offset
  {
    EntryFields(e);
    assert f[at] == EntryBytes(e)[0] && f[at + 1] == EntryBytes(e)[1];
    assert f[at + 2] == EntryBytes(e)[2] && f[at + 3] == EntryBytes(e)[3];
    SubSlice(f, at, DirEntrySize, 4, 6);
    ReadsU16LE(f, at + 4, 1);
    SubSlice(f, at, DirEntrySize, 6, 8);
    ReadsU16LE(f, at + 6, 32);
    SubSlice(f, at, DirEntrySize, 8, 12);
    ReadsU32LE(f, at + 8, |e.data|);
    SubSlice(f, at, DirEntrySize, 12, 16);
    ReadsU32LE(f, at + 12, e.offset);
  }

  /** Sorting keeps the images, so it keeps the count and the total length. */
  lemma SortKeepsFit(s: seq<IcoImage>)
    ensures IcoFits(SortBySize(s)) <==> IcoFits(s)
  {
    DataLengthByMultiset(SortBySize(s), s);
  }

  /** The data length depends only on which images there are. */
  lemma {:induction false} DataLengthByMultiset(a: seq<IcoImage>, b: seq<IcoImage>)
    requires multiset(a) == multiset(b)
    ensures DataLength(a) == DataLength(b)
    decreases |a|
  {
    if a != [] {
      var x := a[|a| - 1];
      var a' := a[..|a| - 1];
      assert a == a' + [x];
      assert multiset(a) == multiset(a') + multiset{x};
      assert x in multiset(b);
      var j :| 0 <= j < |b| && b[j] == x;
      var b' := b[..j] + b[j + 1..];
      assert b == b[..j] + [x] + b[j + 1..];
      assert multiset(b) == multiset(b[..j]) + multiset{x} + multiset(b[j + 1..]);
      assert multiset(b') == multiset(b[..j]) + multiset(b[j + 1..]);
      assert multiset(a') == multiset(a) - multiset{x};
      assert multiset(b') == multiset(b) - multiset{x};
      DataLengthByMultiset(a', b');
      DataLengthRemove(b, j);
    } else {
      assert |multiset(b)| == 0;
    }
  }

  lemma {:induction false} DataLengthRemove(b: seq<IcoImage>, j: nat)
    requires j < |b|
    ensures DataLength(b) == DataLength(b[..j] + b[j + 1..]) + |b[j].data|
  {
    var init := b[..|b| - 1];
    if j < |b| - 1 {
      DataLengthRemove(init, j);
      var r := b[..j] + b[j + 1..];
      assert r[..|r| - 1] == init[..j] + init[j + 1..];
      assert r[|r| - 1] == b[|b| - 1];
    } else {
      assert b[..j] + b[j + 1..] == init;
    }
  }

  // ---------------------------------------------------------------------
  // createICNS

  /** One image handed to createICNS: its four-letter type and its PNG bytes. */
  datatype IcnsImage = IcnsImage(kind: string, data: seq<byte>)

  /** `buffer.write(type, offset, 4, 'ascii')` over a zeroed buffer: the
      low byte of each of the first four characters, zeros after a shorter
      type. */
  function TypeBytes(t: string): (r: seq<byte>)
    ensures |r| == 4
  {
    seq(4, i requires 0 <= i < 4 => if i < |t| then (t[i] as int % 256) as byte else 0)
  }

  /** `icns`. */
  const IcnsMagic: seq<byte> := [0x69, 0x63, 0x6E, 0x73]

  /** One chunk: type, big-endian length counting its own 8-byte header, data. */
  function Chunk(img: IcnsImage): (r: seq<byte>)
    ensures |r| == 8 + |img.data|
  {
    TypeBytes(img.kind) + U32BE(8 + |img.data|) + img.data
  }

  function ChunkBlocks(images: seq<IcnsImage>): (r: seq<seq<byte>>)
    ensures |r| == |images|
  {
    seq(|images|, i requires 0 <= i < |images| => Chunk(images[i]))
  }

  /** The `totalSize` loop: 8, plus 8 + length for each image. */
  function IcnsTotal(images: seq<IcnsImage>): nat {
    if images == [] then 8 else IcnsTotal(images[..|images| - 1]) + 8 + |images[|images| - 1].data|
  }

  function IcnsFile(images: seq<IcnsImage>): seq<byte> {
    IcnsMagic + U32BE(IcnsTotal(images)) + Concat(ChunkBlocks(images))
  }

  /** createICNS: the returned buffer is the ICNS file. */
  method CreateIcns(images: seq<IcnsImage>) returns (buffer: array<byte>)
    requires IcnsTotal(images) < Two32
    ensures fresh(buffer) && buffer[..] == IcnsFile(images)
  {
    var totalSize := 8;
    for k := 0 to |images|
      invariant totalSize == IcnsTotal(images[..k])
    {
      TakeOfTake(images, k, k + 1);
      totalSize := totalSize + 8 + |images[k].data|;
    }
    TakeAll(images);
    IcnsLength(images);
    buffer := new byte[totalSize](_ => 0);
    Extend(buffer, 0, [], IcnsMagic);
    Extend(buffer, 4, IcnsMagic, U32BE(totalSize));
    WriteChunks(buffer, images, IcnsMagic + U32BE(totalSize));
    assert buffer[..] == buffer[..totalSize];
  }

  /** The chunk loop of createICNS: type, length and data of each image in turn. */
  method WriteChunks(buffer: array<byte>, images: seq<IcnsImage>, ghost header: seq<byte>)
    requires 8 + |Concat(ChunkBlocks(images))| <= buffer.Length
    requires |header| == 8 && buffer[..8] == header
    modifies buffer
    ensures buffer[..8 + |Concat(ChunkBlocks(images))|] == header + Concat(ChunkBlocks(images))
  {
    ghost var blocks := ChunkBlocks(images);
    var offset := 8;
    for k := 0 to |images|
      invariant offset == 8 + |Concat(blocks[..k])| <= buffer.Length
      invariant buffer[..offset] == header + Concat(blocks[..k])
    {
      var img := images[k];
      assert blocks[k] == Chunk(img);
      ConcatStep(header, blocks, k);
      WriteChunk(buffer, offset, header + Concat(blocks[..k]), img);
      offset := offset + 8 + |img.data|;
    }
    TakeAll(blocks);
  }

  /** Appending block `k` after the first `k` extends the prefix, within the whole. */
  lemma ConcatStep(header: seq<byte>, blocks: seq<seq<byte>>, k: nat)
    requires k < |blocks|
    ensures header + Concat(blocks[..k]) + blocks[k] == header + Concat(blocks[..k + 1])
    ensures |Concat(blocks[..k + 1])| <= |Concat(blocks)|
  {
    ConcatPrefix(blocks, k);
    ConcatPrefixShorter(blocks, k + 1);
  }

  /** One chunk: its type, its length, its data. */
  method WriteChunk(buffer: array<byte>, at: nat, ghost prefix: seq<byte>, img: IcnsImage)
    requires at == |prefix| && at + 8 + |img.data| <= buffer.Length && buffer[..at] == prefix
    modifies buffer
    ensures buffer[..at + 8 + |img.data|] == prefix + Chunk(img)
  {
    Extend(buffer, at, prefix, TypeBytes(img.kind));
    Extend(buffer, at + 4, prefix + TypeBytes(img.kind), U32BE(8 + |img.data|));
    Extend(buffer, at + 8, prefix + TypeBytes(img.kind) + U32BE(8 + |img.data|), img.data);
    assert prefix + Chunk(img) == prefix + TypeBytes(img.kind) + U32BE(8 + |img.data|) + img.data;
  }

  /** The chunks take all of the file but its first 8 bytes. */
  lemma {:induction false} IcnsLength(images: seq<IcnsImage>)
    ensures 8 + |Concat(ChunkBlocks(images))| == IcnsTotal(images)
  {
    if images != [] {
      var init := images[..|images| - 1];
      IcnsLength(init);
      assert ChunkBlocks(images)[..|images| - 1] == ChunkBlocks(init);
    }
  }

  // Walking the chunks

  /** A chunk as a reader sees it: its type bytes and its data. */
  datatype ChunkView = ChunkView(kind: seq<byte>, data: seq<byte>)

  /** Walk the chunk list from its start: read a type and a length, take
      the data, skip `length` bytes; `None` for a truncated or malformed list. */
  function WalkChunks(s: seq<byte>): Js.Option<seq<ChunkView>>
    decreases |s|
  {
    if s == [] then Js.Some([])
    else if |s| < 8 then Js.None
    else
      var len := ReadU32BE(s, 4);
      if len < 8 || len > |s| then Js.None
      else match WalkChunks(s[len..])
        case None => Js.None
        case Some(rest) => Js.Some([ChunkView(s[..4], s[8..len])] + rest)
  }

  /** Each image's type bytes and data, in order. */
  function Views(images: seq<IcnsImage>): (r: seq<ChunkView>)
    ensures |r| == |images|
  {
    if images == [] then [] else [ChunkView(TypeBytes(images[0].kind), images[0].data)] + Views(images[1..])
  }

  /** The header reads back as the magic and the file's own length, and
      walking the chunks from byte 8 recovers every image's type and data,
      in order. */
  lemma IcnsReadBack(images: seq<IcnsImage>)
    requires IcnsTotal(images) < Two32
    ensures var f := IcnsFile(images);
      && |f| == IcnsTotal(images)
      && f[..4] == IcnsMagic
      && ReadU32BE(f, 4) == |f|
      && WalkChunks(f[8..]) == Js.Some(Views(images))
  {
    var f := IcnsFile(images);
    IcnsLength(images);
    assert f[4..8] == U32BE(IcnsTotal(images));
    ReadsU32BE(f, 4, IcnsTotal(images));
    assert f[8..] == Concat(ChunkBlocks(images));
    forall i | 0 <= i < |images| ensures 8 + |images[i].data| < Two32 {
      ChunkFits(images, i);
    }
    WalkRoundTrip(images);
  }

  lemma ChunkFits(images: seq<IcnsImage>, i: nat)
    requires i < |images|
    ensures 8 + |images[i].data| < IcnsTotal(images)
  {
    IcnsLength(images);
    ConcatAt(ChunkBlocks(images), i);
  }

  /** The walk inverts the concatenation of the chunks, as long as every
      length fits in 32 bits. */
  lemma {:induction false} WalkRoundTrip(images: seq<IcnsImage>)
    requires forall i :: 0 <= i < |images| ==> 8 + |images[i].data| < Two32
    ensures WalkChunks(Concat(ChunkBlocks(images))) == Js.Some(Views(images))
  {
    if images == [] {
      assert ChunkBlocks(images) == [];
    } else {
      var blocks := ChunkBlocks(images);
      ConcatHead(blocks);
      assert blocks[1..] == ChunkBlocks(images[1..]);
      WalkRoundTrip(images[1..]);
      var c := Chunk(images[0]);
      var s := c + Concat(blocks[1..]);
      assert s[4..8] == U32BE(8 + |images[0].data|);
      ReadsU32BE(s, 4, 8 + |images[0].data|);
      assert s[..4] == TypeBytes(images[0].kind);
      assert s[8..|c|] == images[0].data;
      assert s[|c|..] == Concat(blocks[1..]);
    }
  }
}

=== FILE: image_processor.dfy ===
/** `backend/app/services/imageProcessor.js` (`processImages`): a batch of
    uploads is split into a vector lane (`.svg`), a specialty lane (formats
    ImageMagick prefers) and a raster lane; SVGs are optimised and/or
    rasterised, specialty files go to ImageMagick and fall back to the raster
    lane, and raster files are encoded by sharp once per requested format.
    sharp, SVGO and the `convert` binary are the parameters in `Codecs`. */
module ImageProcessor {
  import opened Js
  import opened Media
  import SvgProcessor
  import ImageMagick

  datatype Dims = Dims(width: nat, height: nat)

  datatype Fit = Cover | Inside

  /** What `.resize(...)` receives: nothing; a box of the truthy dimensions
      with a fit (`cover` at the centre, or `inside` allowing enlargement);
      or explicit pixel dimensions, `None` standing for `NaN`. */
  datatype ResizeOp =
    | NoResize
    | Box(width: Option<Value>, height: Option<Value>, fit: Fit)
    | Scale(newWidth: Option<int>, newHeight: Option<int>)

  /** The encoder chosen by the format switch; PNG always at compression level 9. */
  datatype Encoder = Webp(quality: Value) | Png(compressionLevel: nat, quality: Value) | Avif(quality: Value) | Jpeg(quality: Value)

  /** One sharp pipeline: input (and density for vector input), resize,
      encoder and output path. */
  datatype SharpJob = SharpJob(input: string, density: Option<nat>, resize: ResizeOp, encoder: Encoder, output: string)

  /** The foreign code: sharp's `metadata()` and `toFile()` (the size of the
      file written), SVGO's `optimize`, and the `convert` binary. */
  datatype Codecs = Codecs(
    metadata: (string, Option<nat>) -> Attempt<Dims>,
    render: SharpJob -> Attempt<nat>,
    optimize: SvgProcessor.Optimizer,
    convert: ImageMagick.Converter)

  /** `DISABLE_IMAGEMAGICK === 'true'`, and the answers of the two
      availability probes: the batch's own, then processWithImageMagick's. */
  datatype Environment = Environment(imageMagickDisabled: bool, firstProbe: bool, secondProbe: bool)

  /** The options processImages destructures, defaults applied. */
  datatype Settings = Settings(
    quality: Value, resize: Value, formats: seq<Value>, useImageMagick: Value,
    resizeMode: Value, width: Value, height: Value, crop: Value)

  const RasterFormats: seq<Value> := [Str("webp"), Str("avif"), Str("jpg"), Str("jpeg"), Str("png")]

  predicate IsRasterFormat(v: Value) { v in RasterFormats }

  /** The TypeError `formats.some(...)` throws when `formats` is not an array. */
  function FormatsError(v: Value): string {
    if v.Null? then "Cannot read properties of null (reading 'some')" else "formats.some is not a function"
  }

  /** The destructuring at the top of processImages, and the `formats.some`
      call that throws unless `formats` is an array. */
  function SettingsOf(options: map<string, Value>, imageMagickDisabled: bool): (r: Attempt<Settings>)
    ensures r.Done? <==> Get(options, "formats").Undefined? || Get(options, "formats").Arr?
    ensures r.Done? ==>
      && r.value.quality == OrDefault(Get(options, "quality"), Num(80))
      && r.value.resize == OrDefault(Get(options, "resize"), Num(100))
      && (Get(options, "formats").Undefined? ==> r.value.formats == [Str("webp")])
      && (Get(options, "formats").Arr? ==> r.value.formats == Get(options, "formats").items)
      && r.value.useImageMagick == OrDefault(Get(options, "useImageMagick"), Bool(!imageMagickDisabled))
      && r.value.resizeMode == OrDefault(Get(options, "resizeMode"), Str("percent"))
      && r.value.width == OrDefault(Get(options, "width"), Null)
      && r.value.height == OrDefault(Get(options, "height"), Null)
      && r.value.crop == OrDefault(Get(options, "crop"), Str("none"))
  {
    var formats := OrDefault(Get(options, "formats"), Arr([Str("webp")]));
    if !formats.Arr? then Failed(FormatsError(formats))
    else Done(Settings(
      OrDefault(Get(options, "quality"), Num(80)),
      OrDefault(Get(options, "resize"), Num(100)),
      formats.items,
      OrDefault(Get(options, "useImageMagick"), Bool(!imageMagickDisabled)),
      OrDefault(Get(options, "resizeMode"), Str("percent")),
      OrDefault(Get(options, "width"), Null),
      OrDefault(Get(options, "height"), Null),
      OrDefault(Get(options, "crop"), Str("none"))))
  }

  // ---------------------------------------------------------------------
  // Lanes

  predicate IsSvgName(name: string) { Lower(Extname(name)) == ".svg" }

  predicate InSvgLane(f: UploadedFile) { IsSvgName(f.originalname) }

  predicate InMagickLane(f: UploadedFile, useImageMagick: bool) {
    useImageMagick && ImageMagick.ShouldUseImageMagick(f.originalname)
  }

  predicate InRasterLane(f: UploadedFile, useImageMagick: bool) {
    !IsSvgName(f.originalname) && (useImageMagick ==> !ImageMagick.ShouldUseImageMagick(f.originalname))
  }

  function SvgFiles(files: seq<UploadedFile>): seq<UploadedFile> {
    Filter(files, InSvgLane)
  }

  function MagickFiles(files: seq<UploadedFile>, useImageMagick: bool): seq<UploadedFile> {
    if useImageMagick then Filter(files, f => InMagickLane(f, true)) else []
  }

  function RasterFiles(files: seq<UploadedFile>, useImageMagick: bool): seq<UploadedFile> {
    Filter(files, f => InRasterLane(f, useImageMagick))
  }

  // ---------------------------------------------------------------------
  // The per-format step shared by the SVG-rasterise and raster loops

  /** `Math.round(x / 100)`. */
  function RoundedPercent(x: int): int {
    (x + 50) / 100
  }

  /** `Math.round(n * (resize / 100))`: the division coerces `resize` with
      `Number`, and a `NaN` percentage gives a `NaN` dimension. */
  function Scaled(n: nat, resize: Value): Option<int> {
    match ToNumber(resize)
    case Some(p) => Some(RoundedPercent(n * p))
    case None => None
  }

  /** A scaled dimension is the nearest integer to `n * p / 100`, halves
      rounded up, where `p` is the number `resize` converts to; it is missing
      exactly when `resize` converts to `NaN`. */
  lemma ScaledRounds(n: nat, resize: Value)
    ensures Scaled(n, resize).Some? <==> ToNumber(resize).Some?
    ensures ToNumber(resize).Some? ==>
      var p := ToNumber(resize).value;
      var r := Scaled(n, resize).value;
      100 * r - 50 <= n * p < 100 * r + 50
  {
    if ToNumber(resize).Some? {
      var x := n * ToNumber(resize).value;
      var r := (x + 50) / 100;
      assert 100 * r <= x + 50 < 100 * r + 100;
    }
  }

  /** The resize branch of the per-format loop. */
  function ResizeOf(s: Settings, input: string, density: Option<nat>, metadata: (string, Option<nat>) -> Attempt<Dims>)
    : Attempt<ResizeOp>
  {
    if s.resizeMode == Str("absolute") && (Truthy(s.width) || Truthy(s.height)) then
      Done(Box(
        if Truthy(s.width) then Some(s.width) else None,
        if Truthy(s.height) then Some(s.height) else None,
        if s.crop == Str("cover") then Cover else Inside))
    else if s.resize != Num(100) then
      match metadata(input, density)
      case Failed(m) => Failed(m)
      case Done(d) => Done(Scale(Scaled(d.width, s.resize), Scaled(d.height, s.resize)))
    else Done(NoResize)
  }

  /** The format switch: `jpg` and `jpeg` share the JPEG encoder, and any
      other format falls to WebP (the SVG loop only sees raster formats, so
      its switch without a default picks the same encoders). */
  function EncoderOf(format: Value, quality: Value): Encoder {
    if format == Str("png") then Png(9, quality)
    else if format == Str("avif") then Avif(quality)
    else if format == Str("jpeg") || format == Str("jpg") then Jpeg(quality)
    else Webp(quality)
  }

  /** One iteration of a sharp format loop. An SVG source is read at 300 DPI
      and its savings are clamped at zero. */
  function RenderFormat(f: UploadedFile, format: Value, s: Settings, svgSource: bool, codecs: Codecs, orig: nat, store: Store)
    : Step<ProcessedFile>
  {
    var density := if svgSource then Some(300) else None;
    Encode(f, format, s.quality, svgSource, codecs.render, orig, store, density,
           ResizeOf(s, PathOf(f), density, codecs.metadata))
  }

  /** The rest of the iteration once the resize branch has run: a failed
      branch is passed on; otherwise the output is encoded and written, and
      its size is what `fs.stat` reads back. */
  function Encode(f: UploadedFile, format: Value, quality: Value, svgSource: bool, render: SharpJob -> Attempt<nat>,
                  orig: nat, store: Store, density: Option<nat>, op: Attempt<ResizeOp>): (r: Step<ProcessedFile>)
    ensures r.outcome.Done? ==> SharpEntry(r.outcome.value, format, f, orig, svgSource)
  {
    match op
    case Failed(m) => Step(Failed(m), store)
    case Done(resize) => Write(f, format, quality, svgSource, render, orig, store, density, resize)
  }

  /** `toFile` on the output path, then the entry for the file written. */
  function Write(f: UploadedFile, format: Value, quality: Value, svgSource: bool, render: SharpJob -> Attempt<nat>,
                 orig: nat, store: Store, density: Option<nat>, resize: ResizeOp): (r: Step<ProcessedFile>)
    ensures r.outcome.Done? ==> SharpEntry(r.outcome.value, format, f, orig, svgSource)
  {
    var name := OutputName(Stem(f.originalname), format);
    var out := OutputPath(f, name);
    match render(SharpJob(PathOf(f), density, resize, EncoderOf(format, quality), out))
    case Failed(m) => Step(Failed(m), store)
    case Done(size) =>
      var savings := if svgSource then Clamped(orig, size) else Unclamped(orig, size);
      Step(Done(ProcessedFile(format, name, size, savings)), store[out := size])
  }

  function RenderLoop(f: UploadedFile, formats: seq<Value>, s: Settings, svgSource: bool, codecs: Codecs, orig: nat, store: Store)
    : Step<seq<ProcessedFile>>
  {
    Formats(formats, (v, st) => RenderFormat(f, v, s, svgSource, codecs, orig, st), store)
  }

  // ---------------------------------------------------------------------
  // Per-file steps

  /** Whether the SVG loop deletes the staged SVG after rasterising it: as
      written, only when `svg` was not requested; corrected, also when the
      optimiser has written its output elsewhere. */
  predicate DeletesStagedSvg(f: UploadedFile, formats: seq<Value>, corrected: bool) {
    !(Str("svg") in formats)
    || (corrected && PathOf(f) != OutputPath(f, SvgProcessor.SvgOutputName(f)))
  }

  /** One iteration of the SVG-rasterise loop; a success is pushed only when
      some output was produced. */
  function RasterizeSvgFile(f: UploadedFile, s: Settings, corrected: bool, codecs: Codecs, store: Store)
    : (seq<FileResult>, Store)
  {
    match Stat(store, PathOf(f))
    case Failed(m) => ([Error(f.originalname, m)], store)
    case Done(orig) =>
      var outputs := RenderLoop(f, Filter(s.formats, IsRasterFormat), s, true, codecs, orig, store);
      AfterRasterize(f, orig, DeletesStagedSvg(f, s.formats, corrected), outputs)
  }

  /** What follows the format loop of one SVG: the error, or the pushed
      success (if any output was made) and the optional removal of the
      staged SVG. */
  function AfterRasterize(f: UploadedFile, orig: nat, deletes: bool, outputs: Step<seq<ProcessedFile>>)
    : (seq<FileResult>, Store)
  {
    match outputs.outcome
    case Failed(m) => ([Error(f.originalname, m)], outputs.store)
    case Done(entries) =>
      var pushed := if |entries| > 0 then [Success(f.originalname, orig, entries, None)] else [];
      if deletes then
        match Unlink(outputs.store, PathOf(f))
        case Failed(m) => ([Error(f.originalname, m)], outputs.store)
        case Done(st) => (pushed, st)
      else (pushed, outputs.store)
  }

  /** One iteration of the raster loop: every requested format but `svg`. */
  function RasterFile(f: UploadedFile, s: Settings, codecs: Codecs, store: Store): (FileResult, Store) {
    match Stat(store, PathOf(f))
    case Failed(m) => (Error(f.originalname, m), store)
    case Done(orig) =>
      var outputs := RenderLoop(f, Filter(s.formats, v => v != Str("svg")), s, false, codecs, orig, store);
      match outputs.outcome
      case Failed(m) => (Error(f.originalname, m), outputs.store)
      case Done(entries) =>
        match Unlink(outputs.store, PathOf(f))
        case Failed(m) => (Error(f.originalname, m), outputs.store)
        case Done(st) => (Success(f.originalname, orig, entries, None), st)
  }

  function RasterizeSvgLane(files: seq<UploadedFile>, s: Settings, corrected: bool, codecs: Codecs, store: Store)
    : (seq<FileResult>, Store)
  {
    Lane(files, (f, st) => RasterizeSvgFile(f, s, corrected, codecs, st), store)
  }

  function RasterLane(files: seq<UploadedFile>, s: Settings, codecs: Codecs, store: Store): (seq<FileResult>, Store) {
    Lane(files, (f, st) => var (r, st') := RasterFile(f, s, codecs, st); ([r], st'), store)
  }

  // ---------------------------------------------------------------------
  // The batch

  predicate HasRasterFormats(formats: seq<Value>) { exists v :: v in formats && IsRasterFormat(v) }

  /** The SVG phase: optimise if `svg` is requested, then rasterise if a
      raster format is. The corrected pipeline keeps the staged SVG through
      optimisation when the rasterise pass still needs it. */
  function SvgPhase(svgs: seq<UploadedFile>, options: map<string, Value>, s: Settings, corrected: bool, codecs: Codecs, store: Store)
    : (seq<FileResult>, Store)
  {
    if |svgs| == 0 then ([], store)
    else
      var hasRaster := HasRasterFormats(s.formats);
      var optimized :=
        if Str("svg") in s.formats
        then SvgProcessor.OptimizeLane(svgs, SvgProcessor.ConfigOf(options), codecs.optimize, !(corrected && hasRaster), store)
        else ([], store);
      var rasterized := if hasRaster then RasterizeSvgLane(svgs, s, corrected, codecs, optimized.1) else ([], optimized.1);
      (optimized.0 + rasterized.0, rasterized.1)
  }

  /** The specialty phase: its results and store, and the files it hands
      back to the raster lane. */
  datatype MagickPhaseOutcome = MagickPhaseOutcome(results: seq<FileResult>, store: Store, fallback: seq<UploadedFile>)

  function MagickPhase(magick: seq<UploadedFile>, options: map<string, Value>, env: Environment, codecs: Codecs, store: Store)
    : MagickPhaseOutcome
    requires Get(options, "formats").Undefined? || Get(options, "formats").Arr?
  {
    if |magick| == 0 then MagickPhaseOutcome([], store, [])
    else if !env.firstProbe then MagickPhaseOutcome([], store, magick)
    else
      var m := ImageMagick.MagickSpec(magick, ImageMagick.SettingsOf(options), env.secondProbe, codecs.convert, store);
      match m.outcome
      case Failed(_) => MagickPhaseOutcome([], m.store, magick)
      case Done(rs) => MagickPhaseOutcome(rs, m.store, [])
  }

  /** processImages: the results of the SVG, specialty and raster phases, in
      that order, or the TypeError thrown before any file is touched. */
  function ImagesSpec(files: seq<UploadedFile>, options: map<string, Value>, env: Environment, codecs: Codecs,
                      corrected: bool, store: Store): Step<seq<FileResult>>
  {
    match SettingsOf(options, env.imageMagickDisabled)
    case Failed(m) => Step(Failed(m), store)
    case Done(s) =>
      var use := Truthy(s.useImageMagick);
      var svg := SvgPhase(SvgFiles(files), options, s, corrected, codecs, store);
      var magick := MagickPhase(MagickFiles(files, use), options, env, codecs, svg.1);
      var raster := RasterLane(RasterFiles(files, use) + magick.fallback, s, codecs, magick.store);
      Step(Done(svg.0 + magick.results + raster.0), raster.1)
  }

  // ---------------------------------------------------------------------
  // The loops

  /** The resize branch, as the loop body chains it. */
  method ChooseResize(s: Settings, input: string, density: Option<nat>, metadata: (string, Option<nat>) -> Attempt<Dims>)
    returns (op: Attempt<ResizeOp>)
    ensures op == ResizeOf(s, input, density, metadata)
  {
    if s.resizeMode == Str("absolute") && (Truthy(s.width) || Truthy(s.height)) {
      var width := if Truthy(s.width) then Some(s.width) else None;
      var height := if Truthy(s.height) then Some(s.height) else None;
      if s.crop == Str("cover") {
        op := Done(Box(width, height, Cover));
      } else {
        op := Done(Box(width, height, Inside));
      }
    } else if s.resize != Num(100) {
      var dims := metadata(input, density);
      if dims.Failed? {
        return Failed(dims.message);
      }
      op := Done(Scale(Scaled(dims.value.width, s.resize), Scaled(dims.value.height, s.resize)));
    } else {
      op := Done(NoResize);
    }
  }

  /** The format switch. */
  method ChooseEncoder(format: Value, quality: Value) returns (e: Encoder)
    ensures e == EncoderOf(format, quality)
  {
    match format {
      case Str("webp") => e := Webp(quality);
      case Str("png") => e := Png(9, quality);
      case Str("avif") => e := Avif(quality);
      case Str("jpeg") => e := Jpeg(quality);
      case Str("jpg") => e := Jpeg(quality);
      case _ => e := Webp(quality);
    }
  }

  /** The body of a sharp format loop: one output for `format`. */
  method RenderOne(f: UploadedFile, format: Value, s: Settings, svgSource: bool, codecs: Codecs, orig: nat, st: Store)
    returns (next: Step<ProcessedFile>)
    ensures next == RenderFormat(f, format, s, svgSource, codecs, orig, st)
  {
    var density := if svgSource then Some(300) else None;
    var op := ChooseResize(s, PathOf(f), density, codecs.metadata);
    next := EncodeOne(f, format, s.quality, svgSource, codecs.render, orig, st, density, op);
  }

  /** The encoding half of the loop body. */
  method EncodeOne(f: UploadedFile, format: Value, quality: Value, svgSource: bool, render: SharpJob -> Attempt<nat>,
                   orig: nat, st: Store, density: Option<nat>, op: Attempt<ResizeOp>)
    returns (next: Step<ProcessedFile>)
    ensures next == Encode(f, format, quality, svgSource, render, orig, st, density, op)
  {
    if op.Failed? {
      return Step(Failed(op.message), st);
    }
    next := WriteOne(f, format, quality, svgSource, render, orig, st, density, op.value);
  }

  method WriteOne(f: UploadedFile, format: Value, quality: Value, svgSource: bool, render: SharpJob -> Attempt<nat>,
                  orig: nat, st: Store, density: Option<nat>, resize: ResizeOp)
    returns (next: Step<ProcessedFile>)
    ensures next == Write(f, format, quality, svgSource, render, orig, st, density, resize)
  {
    var name := OutputName(Stem(f.originalname), format);
    var out := OutputPath(f, name);
    var encoder := ChooseEncoder(format, quality);
    var job := SharpJob(PathOf(f), density, resize, encoder, out);
    var written := render(job);
    assert Write(f, format, quality, svgSource, render, orig, st, density, resize) ==
      match written
      case Failed(m) => Step(Failed(m), st)
      case Done(size) => Step(Done(ProcessedFile(format, name, size, if svgSource then Clamped(orig, size) else Unclamped(orig, size))), st[out := size]);
    if written.Failed? {
      return Step(Failed(written.message), st);
    }
    var size := written.value;
    var savings := if svgSource then Clamped(orig, size) else Unclamped(orig, size);
    next := Step(Done(ProcessedFile(format, name, size, savings)), st[out := size]);
  }

  /** A sharp format loop, for an SVG source or a raster one: the first
      failure ends it. */
  method RenderFormats(f: UploadedFile, formats: seq<Value>, s: Settings, svgSource: bool, codecs: Codecs, orig: nat, store: Store)
    returns (outcome: Attempt<seq<ProcessedFile>>, st: Store)
    ensures Step(outcome, st) == RenderLoop(f, formats, s, svgSource, codecs, orig, store)
  {
    var entries: seq<ProcessedFile> := [];
    st := store;
    for i := 0 to |formats|
      invariant RenderLoop(f, formats[..i], s, svgSource, codecs, orig, store) == Step(Done(entries), st)
    {
      FormatsExtend(formats, i, (v, st) => RenderFormat(f, v, s, svgSource, codecs, orig, st), store);
      var next := RenderOne(f, formats[i], s, svgSource, codecs, orig, st);
      if next.outcome.Failed? {
        outcome, st := Failed(next.outcome.message), next.store;
        FormatsFailureSticks(formats, i + 1, (v, st) => RenderFormat(f, v, s, svgSource, codecs, orig, st), store);
        return;
      }
      entries, st := entries + [next.outcome.value], next.store;
    }
    assert formats[..|formats|] == formats;
    outcome := Done(entries);
  }

  /** The SVG-rasterise loop as written: the staged SVG is deleted only
      when `svg` was not requested. */
  method RasterizeSvgs(files: seq<UploadedFile>, s: Settings, codecs: Codecs, store: Store)
    returns (results: seq<FileResult>, st: Store)
    ensures (results, st) == RasterizeSvgLane(files, s, false, codecs, store)
  {
    var hasSvgFormat := Str("svg") in s.formats;
    results := [];
    st := store;
    for i := 0 to |files|
      invariant RasterizeSvgLane(files[..i], s, false, codecs, store) == (results, st)
    {
      var f := files[i];
      assert files[..i + 1][..i] == files[..i];
      ghost var next := RasterizeSvgFile(f, s, false, codecs, st);
      ghost var before := results;
      if PathOf(f) !in st {
        results := results + [Error(f.originalname, StatError(PathOf(f)))];
        assert next == ([Error(f.originalname, StatError(PathOf(f)))], st);
      } else {
        var orig := st[PathOf(f)];
        var rasterFormats := Filter(s.formats, IsRasterFormat);
        var entries, st' := RenderFormats(f, rasterFormats, s, true, codecs, orig, st);
        if entries.Failed? {
          results := results + [Error(f.originalname, entries.message)];
          assert next == ([Error(f.originalname, entries.message)], st');
          st := st';
        } else if !hasSvgFormat && PathOf(f) !in st' {
          results := results + [Error(f.originalname, UnlinkError(PathOf(f)))];
          assert next == ([Error(f.originalname, UnlinkError(PathOf(f)))], st');
          st := st';
        } else {
          st := st';
          if !hasSvgFormat {
            st := map p | p in st && p != PathOf(f) :: st[p];
          }
          var pushed := if |entries.value| > 0 then [Success(f.originalname, orig, entries.value, None)] else [];
          assert next == (pushed, st);
          results := results + pushed;
        }
      }
      assert results == before + next.0 && st == next.1;
      assert RasterizeSvgLane(files[..i + 1], s, false, codecs, store) == (results, st);
    }
    assert files[..|files|] == files;
  }

  /** The raster loop. */
  method RasterizeImages(files: seq<UploadedFile>, s: Settings, codecs: Codecs, store: Store)
    returns (results: seq<FileResult>, st: Store)
    ensures (results, st) == RasterLane(files, s, codecs, store)
  {
    results := [];
    st := store;
    for i := 0 to |files|
      invariant RasterLane(files[..i], s, codecs, store) == (results, st)
    {
      var f := files[i];
      assert files[..i + 1][..i] == files[..i];
      if PathOf(f) !in st {
        results := results + [Error(f.originalname, StatError(PathOf(f)))];
      } else {
        var orig := st[PathOf(f)];
        var rasterFormats := Filter(s.formats, v => v != Str("svg"));
        var entries, st' := RenderFormats(f, rasterFormats, s, false, codecs, orig, st);
        if entries.Failed? {
          results := results + [Error(f.originalname, entries.message)];
          st := st';
        } else if PathOf(f) !in st' {
          results := results + [Error(f.originalname, UnlinkError(PathOf(f)))];
          st := st';
        } else {
          st := map p | p in st' && p != PathOf(f) :: st'[p];
          results := results + [Success(f.originalname, orig, entries.value, None)];
        }
      }
    }
    assert files[..|files|] == files;
  }

  /** The SVG block of processImages (lines 44-160). */
  method RunSvgPhase(svgFiles: seq<UploadedFile>, options: map<string, Value>, s: Settings, codecs: Codecs, store: Store)
    returns (results: seq<FileResult>, st: Store)
    ensures (results, st) == SvgPhase(svgFiles, options, s, false, codecs, store)
  {
    results := [];
    st := store;
    var hasRasterFormats := HasRasterFormats(s.formats);
    var hasSvgFormat := Str("svg") in s.formats;
    if |svgFiles| > 0 {
      if hasSvgFormat {
        var optimized, st' := SvgProcessor.OptimizeSvgs(svgFiles, options, codecs.optimize, st);
        assert results + optimized == optimized;
        results := results + optimized;
        st := st';
      }
      if hasRasterFormats {
        var rasterized, st' := RasterizeSvgs(svgFiles, s, codecs, st);
        results := results + rasterized;
        st := st';
      } else {
        assert results + [] == results;
      }
    }
  }

  /** The ImageMagick block of processImages (lines 163-179): its results,
      and the files it appends to the raster lane. */
  method RunMagickPhase(magickFiles: seq<UploadedFile>, options: map<string, Value>, env: Environment, codecs: Codecs, store: Store)
    returns (results: seq<FileResult>, st: Store, fallback: seq<UploadedFile>)
    requires Get(options, "formats").Undefined? || Get(options, "formats").Arr?
    ensures MagickPhaseOutcome(results, st, fallback) == MagickPhase(magickFiles, options, env, codecs, store)
  {
    results, st, fallback := [], store, [];
    if |magickFiles| > 0 {
      if env.firstProbe {
        var magick, st' := ImageMagick.ProcessWithImageMagick(magickFiles, ImageMagick.SettingsOf(options), env.secondProbe, codecs.convert, st);
        st := st';
        if magick.Done? {
          results := magick.value;
        } else {
          fallback := magickFiles;
        }
      } else {
        fallback := magickFiles;
      }
    }
  }

  /** processImages as written: SVG optimisation, SVG rasterisation,
      ImageMagick with fallback to the raster lane, then the raster lane. */
  method ProcessImages(files: seq<UploadedFile>, options: map<string, Value>, env: Environment, codecs: Codecs, store: Store)
    returns (outcome: Attempt<seq<FileResult>>, st: Store)
    ensures Step(outcome, st) == ImagesSpec(files, options, env, codecs, false, store)
  {
    var settings := SettingsOf(options, env.imageMagickDisabled);
    if settings.Failed? {
      return Failed(settings.message), store;
    }
    var s := settings.value;
    var use := Truthy(s.useImageMagick);
    var svgFiles := SvgFiles(files);
    var imageMagickFiles := MagickFiles(files, use);
    var rasterFiles := RasterFiles(files, use);
    var results, st1 := RunSvgPhase(svgFiles, options, s, codecs, store);
    var magickResults, st2, fallback := RunMagickPhase(imageMagickFiles, options, env, codecs, st1);
    results := results + magickResults;
    rasterFiles := rasterFiles + fallback;
    var rastered, st3 := RasterizeImages(rasterFiles, s, codecs, st2);
    results := results + rastered;
    return Done(results), st3;
  }

  // ---------------------------------------------------------------------
  // Properties

  /** Every upload belongs to exactly one lane. */
  lemma ExactlyOneLane(f: UploadedFile, useImageMagick: bool)
    ensures InSvgLane(f) ==> !InMagickLane(f, useImageMagick) && !InRasterLane(f, useImageMagick)
    ensures InMagickLane(f, useImageMagick) ==> !InRasterLane(f, useImageMagick)
    ensures InSvgLane(f) || InMagickLane(f, useImageMagick) || InRasterLane(f, useImageMagick)
  {
    if ImageMagick.ShouldUseImageMagick(f.originalname) {
      ImageMagick.SpecialtyIsNotSvg(f.originalname);
    }
  }

  /** The three lanes together hold exactly the uploads, each once. */
  lemma LanesPartition(files: seq<UploadedFile>, useImageMagick: bool)
    ensures multiset(SvgFiles(files)) + multiset(MagickFiles(files, useImageMagick)) + multiset(RasterFiles(files, useImageMagick))
            == multiset(files)
  {
    var magick := (f: UploadedFile) => InMagickLane(f, useImageMagick);
    forall f | f in files
      ensures (InSvgLane(f) || magick(f) || InRasterLane(f, useImageMagick))
      ensures !(InSvgLane(f) && magick(f)) && !(InSvgLane(f) && InRasterLane(f, useImageMagick))
      ensures !(magick(f) && InRasterLane(f, useImageMagick))
    {
      ExactlyOneLane(f, useImageMagick);
    }
    FilterPartition(files, InSvgLane, magick, f => InRasterLane(f, useImageMagick));
    if useImageMagick {
      FilterAgrees(files, magick, f => InMagickLane(f, true));
    } else {
      FilterAgrees(files, magick, (f: UploadedFile) => false);
      FilterNone(files);
    }
  }

  lemma {:induction false} FilterNone(files: seq<UploadedFile>)
    ensures Filter(files, (f: UploadedFile) => false) == []
  {
    if files != [] {
      FilterNone(files[..|files| - 1]);
    }
  }

  /** With no options at all: quality 80, resize 100, WebP only, ImageMagick
      unless disabled, percent mode, no dimensions, no crop. A `formats`
      that is not an array throws before any file is touched. */
  lemma SettingsDefaults(imageMagickDisabled: bool, formats: Value)
    ensures SettingsOf(map[], imageMagickDisabled)
         == Done(Settings(Num(80), Num(100), [Str("webp")], Bool(!imageMagickDisabled), Str("percent"), Null, Null, Str("none")))
    ensures !formats.Undefined? && !formats.Arr? ==>
      SettingsOf(map["formats" := formats], imageMagickDisabled) == Failed(FormatsError(formats))
  {
  }

  /** The resize rule: a box only in absolute mode with a truthy dimension
      (cover when `crop` is `cover`, else inside), without reading the
      metadata; otherwise a percentage of the source dimensions, rounded to
      the nearest pixel, unless `resize` is the number 100. */
  lemma ResizeRule(s: Settings, input: string, density: Option<nat>, metadata: (string, Option<nat>) -> Attempt<Dims>)
    ensures var r := ResizeOf(s, input, density, metadata);
      var absolute := s.resizeMode == Str("absolute") && (Truthy(s.width) || Truthy(s.height));
      && (absolute <==> r.Done? && r.value.Box?)
      && (absolute ==> (r.value.fit == Cover <==> s.crop == Str("cover")))
      && (absolute ==> (r.value.width.Some? <==> Truthy(s.width)) && (r.value.height.Some? <==> Truthy(s.height)))
      && (!absolute && s.resize == Num(100) ==> r == Done(NoResize))
      && (!absolute && s.resize != Num(100) && metadata(input, density).Failed? ==> r == Failed(metadata(input, density).message))
      && (!absolute && ToNumber(s.resize).Some? && s.resize != Num(100) && metadata(input, density).Done? ==>
            var d := metadata(input, density).value;
            var p := ToNumber(s.resize).value;
            && r.Done? && r.value.Scale? && r.value.newWidth.Some? && r.value.newHeight.Some?
            && 100 * r.value.newWidth.value - 50 <= d.width * p < 100 * r.value.newWidth.value + 50
            && 100 * r.value.newHeight.value - 50 <= d.height * p < 100 * r.value.newHeight.value + 50)
      && (!absolute && ToNumber(s.resize).None? && metadata(input, density).Done? ==>
            r == Done(Scale(None, None)))
  {
    var absolute := s.resizeMode == Str("absolute") && (Truthy(s.width) || Truthy(s.height));
    if !absolute && s.resize != Num(100) && metadata(input, density).Done? {
      var d := metadata(input, density).value;
      ScaledRounds(d.width, s.resize);
      ScaledRounds(d.height, s.resize);
    }
  }

  /** A percentage sent as text is coerced: `"50"` halves a 200 by 101
      image to 100 by 51. */
  lemma TextResize(s: Settings, input: string, density: Option<nat>, metadata: (string, Option<nat>) -> Attempt<Dims>)
    requires s.resizeMode == Str("percent") && s.resize == Str("50")
    requires metadata(input, density) == Done(Dims(200, 101))
    ensures ResizeOf(s, input, density, metadata) == Done(Scale(Some(100), Some(51)))
  {
    DigitsAreNumber("50");
    assert DigitsValue("50") == 50 by {
      assert "50"[..1] == "5" && "5"[..0] == "";
    }
    assert ToNumber(s.resize) == Some(50);
    assert Scaled(200, s.resize) == Some(100);
    assert Scaled(101, s.resize) == Some(51);
  }

  /** The text `"100"` is not the number 100, so it still asks for a resize,
      to the same size. */
  lemma TextHundredResizes(s: Settings, input: string, density: Option<nat>, metadata: (string, Option<nat>) -> Attempt<Dims>)
    requires s.resizeMode == Str("percent") && s.resize == Str("100")
    requires metadata(input, density) == Done(Dims(200, 101))
    ensures ResizeOf(s, input, density, metadata) == Done(Scale(Some(200), Some(101)))
  {
    DigitsAreNumber("100");
    assert DigitsValue("100") == 100 by {
      assert "100"[..2] == "10" && "10"[..1] == "1" && "1"[..0] == "";
    }
    assert ToNumber(s.resize) == Some(100);
    assert Scaled(200, s.resize) == Some(200);
    assert Scaled(101, s.resize) == Some(101);
  }

  /** The entry a sharp loop produces for a format: named after the client
      name, savings clamped for an SVG source and not otherwise. */
  predicate SharpEntry(e: ProcessedFile, format: Value, f: UploadedFile, orig: nat, svgSource: bool) {
    && e.format == format
    && e.filename == OutputName(Stem(f.originalname), format)
    && e.savings == (if svgSource then Clamped(orig, e.size) else Unclamped(orig, e.size))
  }

  predicate SharpSuccess(r: FileResult, f: UploadedFile, formats: seq<Value>, svgSource: bool) {
    && r.Success?
    && r.processor == None
    && |r.processedFiles| == |formats|
    && forall i :: 0 <= i < |formats| ==> SharpEntry(r.processedFiles[i], formats[i], f, r.originalSize, svgSource)
  }

  /** A successful sharp loop yields one entry per format, in order. */
  lemma RenderLoopResult(f: UploadedFile, formats: seq<Value>, s: Settings, svgSource: bool, codecs: Codecs, orig: nat, store: Store)
    ensures var r := RenderLoop(f, formats, s, svgSource, codecs, orig, store).outcome;
      r.Done? ==> |r.value| == |formats| && forall i :: 0 <= i < |formats| ==> SharpEntry(r.value[i], formats[i], f, orig, svgSource)
  {
    var step: FormatStep := (v, st) => RenderFormat(f, v, s, svgSource, codecs, orig, st);
    forall v, st | step(v, st).outcome.Done? ensures SharpEntry(step(v, st).outcome.value, v, f, orig, svgSource) {
    }
    FormatsResults(formats, step, store, (e, v) => SharpEntry(e, v, f, orig, svgSource));
  }


  /** A raster file reports under its client name; a success has one entry
      per requested format other than `svg`, in request order. */
  lemma RasterFileResult(f: UploadedFile, s: Settings, codecs: Codecs, store: Store)
    ensures var r := RasterFile(f, s, codecs, store).0;
      && r.name == f.originalname
      && (r.Success? ==> SharpSuccess(r, f, Filter(s.formats, v => v != Str("svg")), false))
  {
    if PathOf(f) in store {
      RenderLoopResult(f, Filter(s.formats, v => v != Str("svg")), s, false, codecs, store[PathOf(f)], store);
    }
  }

  lemma RasterLaneResults(files: seq<UploadedFile>, s: Settings, codecs: Codecs, store: Store)
    ensures var rs := RasterLane(files, s, codecs, store).0;
      && Names(rs) == OriginalNames(files)
      && forall i :: 0 <= i < |rs| && rs[i].Success? ==> SharpSuccess(rs[i], files[i], Filter(s.formats, v => v != Str("svg")), false)
  {
    var step: FileStep := (f, st) => var (r, st') := RasterFile(f, s, codecs, st); ([r], st');
    forall f, st
      ensures |step(f, st).0| == 1 && step(f, st).0[0].name == f.originalname
      ensures step(f, st).0[0].Success? ==> SharpSuccess(step(f, st).0[0], f, Filter(s.formats, v => v != Str("svg")), false)
    {
      RasterFileResult(f, s, codecs, st);
    }
    LaneResults(files, step, store,
      (r: FileResult, f: UploadedFile) => r.Success? ==> SharpSuccess(r, f, Filter(s.formats, v => v != Str("svg")), false));
  }

  /** When a raster format is requested, an SVG yields exactly one result;
      a success lists the raster formats in request order, and its savings
      are never negative. */
  lemma RasterizeSvgFileResult(f: UploadedFile, s: Settings, corrected: bool, codecs: Codecs, store: Store)
    requires HasRasterFormats(s.formats)
    ensures var rs := RasterizeSvgFile(f, s, corrected, codecs, store).0;
      && |rs| == 1 && rs[0].name == f.originalname
      && (rs[0].Success? ==> SharpSuccess(rs[0], f, Filter(s.formats, IsRasterFormat), true))
      && (rs[0].Success? ==> forall i :: 0 <= i < |rs[0].processedFiles| ==> rs[0].processedFiles[i].savings.gain >= 0)
  {
    var formats := Filter(s.formats, IsRasterFormat);
    var v :| v in s.formats && IsRasterFormat(v);
    FilterMembers(s.formats, IsRasterFormat, v);
    if PathOf(f) in store {
      var orig := store[PathOf(f)];
      var outputs := RenderLoop(f, formats, s, true, codecs, orig, store);
      RenderLoopResult(f, formats, s, true, codecs, orig, store);
      AfterRasterizeResult(f, formats, orig, DeletesStagedSvg(f, s.formats, corrected), outputs);
    }
  }

  /** After a loop over at least one format whose entries are those of an
      SVG source, exactly one result is reported: the error, or the
      success listing the entries, whose savings are never negative. */
  lemma AfterRasterizeResult(f: UploadedFile, formats: seq<Value>, orig: nat, deletes: bool, outputs: Step<seq<ProcessedFile>>)
    requires |formats| > 0
    requires outputs.outcome.Done? ==> |outputs.outcome.value| == |formats|
    requires outputs.outcome.Done? ==>
      forall i :: 0 <= i < |formats| ==> SharpEntry(outputs.outcome.value[i], formats[i], f, orig, true)
    ensures var rs := AfterRasterize(f, orig, deletes, outputs).0;
      && |rs| == 1 && rs[0].name == f.originalname
      && (rs[0].Success? ==> SharpSuccess(rs[0], f, formats, true))
      && (rs[0].Success? ==> forall i :: 0 <= i < |rs[0].processedFiles| ==> rs[0].processedFiles[i].savings.gain >= 0)
  {
    if outputs.outcome.Done? {
      var entries := outputs.outcome.value;
      forall i | 0 <= i < |entries| ensures entries[i].savings.gain >= 0 {
        assert SharpEntry(entries[i], formats[i], f, orig, true);
      }
    }
  }

  lemma RasterizeSvgLaneResults(files: seq<UploadedFile>, s: Settings, corrected: bool, codecs: Codecs, store: Store)
    requires HasRasterFormats(s.formats)
    ensures var rs := RasterizeSvgLane(files, s, corrected, codecs, store).0;
      && Names(rs) == OriginalNames(files)
      && forall i :: 0 <= i < |rs| && rs[i].Success? ==> SharpSuccess(rs[i], files[i], Filter(s.formats, IsRasterFormat), true)
  {
    var step: FileStep := (f, st) => RasterizeSvgFile(f, s, corrected, codecs, st);
    forall f, st
      ensures |step(f, st).0| == 1 && step(f, st).0[0].name == f.originalname
      ensures step(f, st).0[0].Success? ==> SharpSuccess(step(f, st).0[0], f, Filter(s.formats, IsRasterFormat), true)
    {
      RasterizeSvgFileResult(f, s, corrected, codecs, st);
    }
    LaneResults(files, step, store,
      (r: FileResult, f: UploadedFile) => r.Success? ==> SharpSuccess(r, f, Filter(s.formats, IsRasterFormat), true));
  }

  /** The specialty files fall back to the raster lane, untouched, when
      either probe says ImageMagick is missing; otherwise ImageMagick
      reports once for each of them and nothing falls back. */
  lemma MagickFallback(magick: seq<UploadedFile>, options: map<string, Value>, env: Environment, codecs: Codecs, store: Store)
    requires Get(options, "formats").Undefined? || Get(options, "formats").Arr?
    requires |magick| > 0
    ensures var m := MagickPhase(magick, options, env, codecs, store);
      && (!env.firstProbe || !env.secondProbe ==> m == MagickPhaseOutcome([], store, magick))
      && (env.firstProbe && env.secondProbe ==> m.fallback == [] && Names(m.results) == OriginalNames(magick))
  {
    ImageMagick.MagickResults(magick, ImageMagick.SettingsOf(options), env.secondProbe, codecs.convert, store);
  }

  /** How many results a batch yields: one per non-SVG upload, plus one per
      SVG for optimisation when `svg` is requested and one more when a raster
      format is; an SVG asked for neither yields nothing. */
  lemma ResultCount(files: seq<UploadedFile>, options: map<string, Value>, env: Environment, codecs: Codecs,
                    corrected: bool, store: Store)
    requires SettingsOf(options, env.imageMagickDisabled).Done?
    ensures var s := SettingsOf(options, env.imageMagickDisabled).value;
      var n := |SvgFiles(files)|;
      var r := ImagesSpec(files, options, env, codecs, corrected, store).outcome;
      && r.Done?
      && |r.value| == |files| - n + (if Str("svg") in s.formats then n else 0) + (if HasRasterFormats(s.formats) then n else 0)
  {
    var s := SettingsOf(options, env.imageMagickDisabled).value;
    var use := Truthy(s.useImageMagick);
    LanesPartition(files, use);
    assert |multiset(files)| == |files|;
    var svg := SvgPhase(SvgFiles(files), options, s, corrected, codecs, store);
    SvgPhaseCount(SvgFiles(files), options, s, corrected, codecs, store);
    var magick := MagickPhase(MagickFiles(files, use), options, env, codecs, svg.1);
    MagickPhaseCount(MagickFiles(files, use), options, env, codecs, svg.1);
    RasterLaneCount(RasterFiles(files, use) + magick.fallback, s, codecs, magick.store);
  }

  lemma SvgPhaseCount(svgs: seq<UploadedFile>, options: map<string, Value>, s: Settings, corrected: bool, codecs: Codecs, store: Store)
    ensures |SvgPhase(svgs, options, s, corrected, codecs, store).0|
         == (if Str("svg") in s.formats then |svgs| else 0) + (if HasRasterFormats(s.formats) then |svgs| else 0)
  {
    var hasRaster := HasRasterFormats(s.formats);
    if |svgs| > 0 {
      var optimized :=
        if Str("svg") in s.formats
        then SvgProcessor.OptimizeLane(svgs, SvgProcessor.ConfigOf(options), codecs.optimize, !(corrected && hasRaster), store)
        else ([], store);
      if Str("svg") in s.formats {
        SvgProcessor.OptimizeLaneResults(svgs, SvgProcessor.ConfigOf(options), codecs.optimize, !(corrected && hasRaster), store);
        assert |optimized.0| == |Names(optimized.0)|;
      }
      if hasRaster {
        RasterizeSvgLaneResults(svgs, s, corrected, codecs, optimized.1);
        var rasterized := RasterizeSvgLane(svgs, s, corrected, codecs, optimized.1);
        assert |rasterized.0| == |Names(rasterized.0)|;
      }
    }
  }

  lemma MagickPhaseCount(magick: seq<UploadedFile>, options: map<string, Value>, env: Environment, codecs: Codecs, store: Store)
    requires Get(options, "formats").Undefined? || Get(options, "formats").Arr?
    ensures var m := MagickPhase(magick, options, env, codecs, store);
      |m.results| + |m.fallback| == |magick|
  {
    if |magick| > 0 {
      MagickFallback(magick, options, env, codecs, store);
      var m := MagickPhase(magick, options, env, codecs, store);
      assert |m.results| == |Names(m.results)|;
    }
  }

  lemma RasterLaneCount(files: seq<UploadedFile>, s: Settings, codecs: Codecs, store: Store)
    ensures |RasterLane(files, s, codecs, store).0| == |files|
  {
    RasterLaneResults(files, s, codecs, store);
    var rs := RasterLane(files, s, codecs, store).0;
    assert |rs| == |Names(rs)|;
  }

  // ---------------------------------------------------------------------
  // Requesting `svg` together with a raster format

  /** The options `{ formats: ['svg', 'png'] }`. */
  function SvgAndPng(): map<string, Value> {
    map["formats" := Arr([Str("svg"), Str("png")])]
  }

  /** A single staged SVG whose staged name is not `<stem>.svg` (multer
      names it `files-<time>-<random>.svg`). */
  predicate StagedSvg(f: UploadedFile, store: Store) {
    InSvgLane(f) && PathOf(f) in store && PathOf(f) != OutputPath(f, SvgProcessor.SvgOutputName(f))
  }

  /** The settings those options give: `svg` and `png`, no resizing. */
  predicate SvgAndPngOnly(s: Settings) {
    s.formats == [Str("svg"), Str("png")] && s.resize == Num(100) && s.resizeMode == Str("percent")
  }

  /** A success listing a single `png` output. */
  predicate PngResult(r: FileResult) {
    r.Success? && |r.processedFiles| == 1 && r.processedFiles[0].format == Str("png")
  }

  lemma SvgAndPngSettings(imageMagickDisabled: bool)
    ensures var r := SettingsOf(SvgAndPng(), imageMagickDisabled);
      r.Done? && SvgAndPngOnly(r.value)
  {
    assert Get(SvgAndPng(), "formats") == Arr([Str("svg"), Str("png")]);
  }

  lemma SvgAndPngFormats()
    ensures var fs := [Str("svg"), Str("png")];
      && Str("svg") in fs && HasRasterFormats(fs)
      && Filter(fs, IsRasterFormat) == [Str("png")]
  {
    var fs := [Str("svg"), Str("png")];
    assert Str("png") in fs && IsRasterFormat(Str("png"));
    assert !IsRasterFormat(Str("svg"));
    assert fs[..1] == [Str("svg")];
    assert [Str("svg")][..0] == [];
  }

  /** A lone SVG is in the vector lane only. */
  lemma LoneSvgLanes(f: UploadedFile, useImageMagick: bool)
    requires InSvgLane(f)
    ensures SvgFiles([f]) == [f]
    ensures MagickFiles([f], useImageMagick) == [] && RasterFiles([f], useImageMagick) == []
  {
    ExactlyOneLane(f, useImageMagick);
    FilterSingle(f, InSvgLane);
    FilterSingle(f, f => InMagickLane(f, true));
    FilterSingle(f, f => InRasterLane(f, useImageMagick));
  }

  /** A batch whose only file is an SVG: the specialty and raster phases do
      nothing, so the batch reports what the SVG phase reports. */
  lemma LoneSvgBatch(f: UploadedFile, env: Environment, codecs: Codecs, corrected: bool, store: Store)
    requires InSvgLane(f)
    ensures var s := SettingsOf(SvgAndPng(), env.imageMagickDisabled).value;
      var svg := SvgPhase([f], SvgAndPng(), s, corrected, codecs, store);
      ImagesSpec([f], SvgAndPng(), env, codecs, corrected, store) == Step(Done(svg.0), svg.1)
  {
    SvgAndPngSettings(env.imageMagickDisabled);
    var s := SettingsOf(SvgAndPng(), env.imageMagickDisabled).value;
    LoneSvgLanes(f, Truthy(s.useImageMagick));
    SvgOnlyBatch([f], SvgAndPng(), env, codecs, corrected, store);
  }

  /** A batch with no specialty or raster files reports what its SVG phase
      reports. */
  lemma SvgOnlyBatch(files: seq<UploadedFile>, options: map<string, Value>, env: Environment, codecs: Codecs,
                     corrected: bool, store: Store)
    requires SettingsOf(options, env.imageMagickDisabled).Done?
    requires var use := Truthy(SettingsOf(options, env.imageMagickDisabled).value.useImageMagick);
      MagickFiles(files, use) == [] && RasterFiles(files, use) == []
    ensures var s := SettingsOf(options, env.imageMagickDisabled).value;
      var svg := SvgPhase(SvgFiles(files), options, s, corrected, codecs, store);
      ImagesSpec(files, options, env, codecs, corrected, store) == Step(Done(svg.0), svg.1)
  {
    var s := SettingsOf(options, env.imageMagickDisabled).value;
    var svg := SvgPhase(SvgFiles(files), options, s, corrected, codecs, store);
    assert MagickPhase([], options, env, codecs, svg.1) == MagickPhaseOutcome([], svg.1, []);
    assert RasterLane([] + [], s, codecs, svg.1) == ([], svg.1);
    assert svg.0 + [] + [] == svg.0;
  }

  /** As written: the optimiser deletes the staged SVG, so the rasterising
      pass fails on it with ENOENT. */
  lemma StagedSvgLostAsWritten(f: UploadedFile, env: Environment, codecs: Codecs, store: Store)
    requires StagedSvg(f, store)
    requires codecs.optimize(PathOf(f), SvgProcessor.ConfigOf(SvgAndPng())).Done?
    ensures var r := ImagesSpec([f], SvgAndPng(), env, codecs, false, store).outcome;
      && r.Done? && |r.value| == 2
      && r.value[0].Success?
      && r.value[1] == Error(f.originalname, StatError(PathOf(f)))
  {
    LoneSvgBatch(f, env, codecs, false, store);
    SvgAndPngSettings(env.imageMagickDisabled);
    LoneSvgPhaseAsWritten(f, SettingsOf(SvgAndPng(), env.imageMagickDisabled).value, codecs, store);
  }

  lemma LoneSvgPhaseAsWritten(f: UploadedFile, s: Settings, codecs: Codecs, store: Store)
    requires StagedSvg(f, store)
    requires codecs.optimize(PathOf(f), SvgProcessor.ConfigOf(SvgAndPng())).Done?
    requires s.formats == [Str("svg"), Str("png")]
    ensures var r := SvgPhase([f], SvgAndPng(), s, false, codecs, store).0;
      |r| == 2 && r[0].Success? && r[1] == Error(f.originalname, StatError(PathOf(f)))
  {
    SvgAndPngFormats();
    var cfg := SvgProcessor.ConfigOf(SvgAndPng());
    SvgPhaseBoth([f], SvgAndPng(), s, false, codecs, store);
    var optimized := SvgProcessor.OptimizeLane([f], cfg, codecs.optimize, true, store);
    LoneOptimizeDeletes(f, cfg, codecs.optimize, store);
    RasterizeLaneSingle(f, s, false, codecs, optimized.1);
  }

  /** The optimiser as written, on a staged SVG whose output lands elsewhere:
      it succeeds and removes the staged file. */
  lemma LoneOptimizeDeletes(f: UploadedFile, cfg: SvgProcessor.SvgoConfig, optimize: SvgProcessor.Optimizer, store: Store)
    requires StagedSvg(f, store) && optimize(PathOf(f), cfg).Done?
    ensures var r := SvgProcessor.OptimizeLane([f], cfg, optimize, true, store);
      |r.0| == 1 && r.0[0].Success? && PathOf(f) !in r.1
  {
    LaneSingle(f, (f, st) => var (r, st') := SvgProcessor.OptimizeFile(f, cfg, optimize, true, st); ([r], st'), store);
    SvgProcessor.OptimizeFileStore(f, cfg, optimize, store);
  }

  /** The optimiser with `deleteInput` off, on a present staged SVG: it
      succeeds and keeps the staged file. */
  lemma LoneOptimizeKeeps(f: UploadedFile, cfg: SvgProcessor.SvgoConfig, optimize: SvgProcessor.Optimizer, store: Store)
    requires PathOf(f) in store && optimize(PathOf(f), cfg).Done?
    ensures var r := SvgProcessor.OptimizeLane([f], cfg, optimize, false, store);
      |r.0| == 1 && r.0[0].Success? && PathOf(f) in r.1
  {
    LaneSingle(f, (f, st) => var (r, st') := SvgProcessor.OptimizeFile(f, cfg, optimize, false, st); ([r], st'), store);
    SvgProcessor.OptimizeLaneKeepsInputs([f], cfg, optimize, store);
  }

  /** Corrected: the optimiser keeps the staged SVG while a raster format is
      still to be produced, and the rasterising pass then converts it and
      removes it. */
  lemma StagedSvgKeptCorrected(f: UploadedFile, env: Environment, codecs: Codecs, store: Store)
    requires StagedSvg(f, store)
    requires codecs.optimize(PathOf(f), SvgProcessor.ConfigOf(SvgAndPng())).Done?
    requires forall job :: codecs.render(job).Done?
    ensures var r := ImagesSpec([f], SvgAndPng(), env, codecs, true, store);
      && r.outcome.Done? && |r.outcome.value| == 2
      && r.outcome.value[0].Success?
      && PngResult(r.outcome.value[1])
      && PathOf(f) !in r.store
  {
    LoneSvgBatch(f, env, codecs, true, store);
    SvgAndPngSettings(env.imageMagickDisabled);
    LoneSvgPhaseCorrected(f, SvgAndPng(), SettingsOf(SvgAndPng(), env.imageMagickDisabled).value, codecs, store);
  }

  lemma LoneSvgPhaseCorrected(f: UploadedFile, options: map<string, Value>, s: Settings, codecs: Codecs, store: Store)
    requires StagedSvg(f, store)
    requires codecs.optimize(PathOf(f), SvgProcessor.ConfigOf(options)).Done?
    requires forall job :: codecs.render(job).Done?
    requires SvgAndPngOnly(s)
    ensures var r := SvgPhase([f], options, s, true, codecs, store);
      && |r.0| == 2 && r.0[0].Success?
      && PngResult(r.0[1])
      && PathOf(f) !in r.1
  {
    SvgAndPngFormats();
    var cfg := SvgProcessor.ConfigOf(options);
    SvgPhaseBoth([f], options, s, true, codecs, store);
    var optimized := SvgProcessor.OptimizeLane([f], cfg, codecs.optimize, false, store);
    LoneOptimizeKeeps(f, cfg, codecs.optimize, store);
    RasterizeLaneSingle(f, s, true, codecs, optimized.1);
    LoneSvgRendered(f, s, codecs, optimized.1);
  }

  lemma RasterizeLaneSingle(f: UploadedFile, s: Settings, corrected: bool, codecs: Codecs, store: Store)
    ensures RasterizeSvgLane([f], s, corrected, codecs, store) == RasterizeSvgFile(f, s, corrected, codecs, store)
  {
    LaneSingle(f, (f, st) => RasterizeSvgFile(f, s, corrected, codecs, st), store);
  }

  /** The SVG phase when both `svg` and a raster format are requested: the
      optimiser's results, then the rasterising pass over the store it
      leaves; the staged SVG is kept through optimisation exactly in the
      corrected pipeline. */
  lemma SvgPhaseBoth(svgs: seq<UploadedFile>, options: map<string, Value>, s: Settings, corrected: bool, codecs: Codecs, store: Store)
    requires |svgs| > 0 && Str("svg") in s.formats && HasRasterFormats(s.formats)
    ensures var optimized := SvgProcessor.OptimizeLane(svgs, SvgProcessor.ConfigOf(options), codecs.optimize, !corrected, store);
      var rasterized := RasterizeSvgLane(svgs, s, corrected, codecs, optimized.1);
      SvgPhase(svgs, options, s, corrected, codecs, store) == (optimized.0 + rasterized.0, rasterized.1)
  {
  }

  /** The corrected rasterising pass over a present staged SVG, with `png`
      the only raster format and a renderer that succeeds. */
  lemma LoneSvgRendered(f: UploadedFile, s: Settings, codecs: Codecs, store: Store)
    requires PathOf(f) in store && PathOf(f) != OutputPath(f, SvgProcessor.SvgOutputName(f))
    requires SvgAndPngOnly(s)
    requires forall job :: codecs.render(job).Done?
    ensures var r := RasterizeSvgFile(f, s, true, codecs, store);
      && |r.0| == 1 && PngResult(r.0[0])
      && PathOf(f) !in r.1
  {
    SvgAndPngFormats();
    var orig := store[PathOf(f)];
    PngRendered(f, s, codecs, orig, store);
    var step: FormatStep := (v, st) => RenderFormat(f, v, s, true, codecs, orig, st);
    FormatsSingle(Str("png"), step, store);
    assert DeletesStagedSvg(f, s.formats, true);
  }

  /** Rendering `png` from an SVG with a renderer that succeeds, and no
      resizing: a `png` entry, and the staged file still in the store. */
  lemma PngRendered(f: UploadedFile, s: Settings, codecs: Codecs, orig: nat, store: Store)
    requires PathOf(f) in store
    requires SvgAndPngOnly(s)
    requires forall job :: codecs.render(job).Done?
    ensures var png := RenderFormat(f, Str("png"), s, true, codecs, orig, store);
      && png.outcome.Done? && png.outcome.value.format == Str("png")
      && PathOf(f) in png.store
  {
    assert ResizeOf(s, PathOf(f), Some(300), codecs.metadata) == Done(NoResize);
  }
}

=== FILE: imagemagick_processor.dfy ===
/** `backend/app/services/imageMagickProcessor.js`: which uploads go to the
    `convert` binary, the command line built for each requested format, and
    the per-file loop of `processWithImageMagick`. The binary itself is the
    parameter `convert`: a command line to the size of the file it writes,
    or the message it fails with. */
module ImageMagick {
  import opened Js
  import opened Media
  import opened FilenameSafety

  /** Extensions ImageMagick handles better than sharp. */
  const PreferredFormats: seq<string> := [".tiff", ".tif", ".psd", ".eps", ".ai", ".pdf", ".heic", ".heif"]

  const NotInstalled: string := "ImageMagick is not installed on this system"

  /** `exec(command)` followed by the size of the file it wrote. */
  type Converter = string -> Attempt<nat>

  /** shouldUseImageMagick. */
  predicate ShouldUseImageMagick(filename: string) {
    Lower(Extname(filename)) in PreferredFormats
  }

  /** A name whose stem holds no dot goes to ImageMagick exactly when its
      extension, in any case, is one of the preferred ones; a name without an
      extension never does. */
  lemma SpecialtyByExtension(stem: string, ext: string)
    requires stem != [] && DotFree(stem)
    requires ext == [] || (ext[0] == '.' && '.' !in ext[1..])
    requires '/' !in ext
    ensures ShouldUseImageMagick(stem + ext) <==> Lower(ext) in PreferredFormats
    ensures ext == [] ==> !ShouldUseImageMagick(stem)
  {
    ExtnameOfDotFree(stem, ext);
    assert stem + [] == stem;
  }

  /** An SVG never goes to ImageMagick. */
  lemma SpecialtyIsNotSvg(filename: string)
    requires ShouldUseImageMagick(filename)
    ensures Lower(Extname(filename)) != ".svg"
  {
    SvgNotPreferred();
  }

  lemma SvgNotPreferred()
    ensures ".svg" !in PreferredFormats
  {
  }

  /** The options processWithImageMagick reads, defaults applied. */
  datatype Settings = Settings(quality: Value, resize: Value, formats: seq<Value>)

  /** The command line: the quoted input, ` -resize R%` only when `resize`
      is not the number 100, ` -quality Q`, then the quoted output. */
  function Command(input: string, output: string, resize: Value, quality: Value): (c: string)
  {
    "convert \"" + input + "\""
    + (if resize != Num(100) then " -resize " + ToStr(resize) + "%" else "")
    + " -quality " + ToStr(quality)
    + " \"" + output + "\""
  }

  /** The command line as processWithImageMagick assembles it, piece by piece. */
  method BuildCommand(input: string, output: string, resize: Value, quality: Value) returns (command: string)
    ensures command == Command(input, output, resize, quality)
  {
    command := "convert \"" + input + "\"";
    if resize != Num(100) {
      command := command + " -resize " + ToStr(resize) + "%";
    }
    command := command + " -quality " + ToStr(quality);
    command := command + " \"" + output + "\"";
  }

  /** One iteration of the format loop: the output is named after the
      STAGED file name, written by `convert`, and its savings are not
      clamped. */
  function ConvertFormat(f: UploadedFile, format: Value, s: Settings, convert: Converter, orig: nat, store: Store)
    : Step<ProcessedFile>
  {
    var name := OutputName(Stem(f.filename), format);
    var out := OutputPath(f, name);
    match convert(Command(PathOf(f), out, s.resize, s.quality))
    case Failed(m) => Step(Failed(m), store)
    case Done(size) =>
      var written := store[out := size];
      Step(Done(ProcessedFile(format, name, written[out], Unclamped(orig, written[out]))), written)
  }

  /** The format loop over `formats`. */
  function FormatLoop(f: UploadedFile, formats: seq<Value>, s: Settings, convert: Converter, orig: nat, store: Store)
    : Step<seq<ProcessedFile>>
  {
    Formats(formats, (v, st) => ConvertFormat(f, v, s, convert, orig, st), store)
  }

  /** The entry written for a format. */
  predicate EntryFor(e: ProcessedFile, format: Value, f: UploadedFile, orig: nat) {
    && e.format == format
    && e.filename == OutputName(Stem(f.filename), format)
    && e.savings == Unclamped(orig, e.size)
  }

  /** One iteration of the file loop. */
  function ConvertFile(f: UploadedFile, s: Settings, convert: Converter, store: Store): (FileResult, Store) {
    match Stat(store, PathOf(f))
    case Failed(m) => (Error(f.originalname, m), store)
    case Done(orig) =>
      var outputs := FormatLoop(f, s.formats, s, convert, orig, store);
      match outputs.outcome
      case Failed(m) => (Error(f.originalname, m), outputs.store)
      case Done(entries) =>
        match Unlink(outputs.store, PathOf(f))
        case Failed(m) => (Error(f.originalname, m), outputs.store)
        case Done(st) => (Success(f.originalname, orig, entries, Some("ImageMagick")), st)
  }

  /** The options as processWithImageMagick destructures them. The batch
      pipeline has already required `formats` to be an array or absent. */
  function SettingsOf(options: map<string, Value>): (s: Settings)
    requires Get(options, "formats").Undefined? || Get(options, "formats").Arr?
    ensures s.quality == OrDefault(Get(options, "quality"), Num(80))
    ensures s.resize == OrDefault(Get(options, "resize"), Num(100))
    ensures Get(options, "formats").Undefined? ==> s.formats == [Str("webp")]
    ensures Get(options, "formats").Arr? ==> s.formats == Get(options, "formats").items
  {
    var formats := OrDefault(Get(options, "formats"), Arr([Str("webp")]));
    Settings(OrDefault(Get(options, "quality"), Num(80)), OrDefault(Get(options, "resize"), Num(100)), formats.items)
  }

  /** processWithImageMagick, with `available` the answer of its own probe. */
  function MagickSpec(files: seq<UploadedFile>, s: Settings, available: bool, convert: Converter, store: Store)
    : Step<seq<FileResult>>
  {
    if !available then Step(Failed(NotInstalled), store)
    else
      var (rs, st) := Lane(files, (f, st) => var (r, st') := ConvertFile(f, s, convert, st); ([r], st'), store);
      Step(Done(rs), st)
  }

  /** The format loop of processWithImageMagick. */
  method ConvertFormats(f: UploadedFile, s: Settings, convert: Converter, orig: nat, store: Store)
    returns (outcome: Attempt<seq<ProcessedFile>>, st: Store)
    ensures Step(outcome, st) == FormatLoop(f, s.formats, s, convert, orig, store)
  {
    var entries: seq<ProcessedFile> := [];
    st := store;
    for i := 0 to |s.formats|
      invariant FormatLoop(f, s.formats[..i], s, convert, orig, store) == Step(Done(entries), st)
    {
      var format := s.formats[i];
      FormatsExtend(s.formats, i, (v, st) => ConvertFormat(f, v, s, convert, orig, st), store);
      var name := Stem(f.filename) + "." + ToStr(format);
      var out := f.dir + "/" + name;
      var command := BuildCommand(PathOf(f), out, s.resize, s.quality);
      var written := convert(command);
      ghost var next := ConvertFormat(f, format, s, convert, orig, st);
      if written.Failed? {
        assert next == Step(Failed(written.message), st);
        outcome := Failed(written.message);
        FormatsFailureSticks(s.formats, i + 1, (v, st) => ConvertFormat(f, v, s, convert, orig, st), store);
        return;
      }
      st := st[out := written.value];
      var size := st[out];
      entries := entries + [ProcessedFile(format, name, size, Unclamped(orig, size))];
      assert next == Step(Done(ProcessedFile(format, name, size, Unclamped(orig, size))), st);
    }
    assert s.formats[..|s.formats|] == s.formats;
    outcome := Done(entries);
  }

  /** processWithImageMagick: throws before touching any file when the
      binary is missing; otherwise one result per file. */
  method ProcessWithImageMagick(files: seq<UploadedFile>, s: Settings, available: bool, convert: Converter, store: Store)
    returns (outcome: Attempt<seq<FileResult>>, st: Store)
    ensures Step(outcome, st) == MagickSpec(files, s, available, convert, store)
  {
    if !available {
      return Failed(NotInstalled), store;
    }
    ghost var step: FileStep := (f, st) => var (r, st') := ConvertFile(f, s, convert, st); ([r], st');
    var results: seq<FileResult> := [];
    st := store;
    for i := 0 to |files|
      invariant Lane(files[..i], step, store) == (results, st)
    {
      var f := files[i];
      assert files[..i + 1][..i] == files[..i];
      if PathOf(f) !in st {
        results := results + [Error(f.originalname, StatError(PathOf(f)))];
      } else {
        var orig := st[PathOf(f)];
        var entries, st' := ConvertFormats(f, s, convert, orig, st);
        if entries.Failed? {
          results := results + [Error(f.originalname, entries.message)];
          st := st';
        } else if PathOf(f) !in st' {
          results := results + [Error(f.originalname, UnlinkError(PathOf(f)))];
          st := st';
        } else {
          st := map p | p in st' && p != PathOf(f) :: st'[p];
          results := results + [Success(f.originalname, orig, entries.value, Some("ImageMagick"))];
        }
      }
    }
    assert files[..|files|] == files;
    outcome := Done(results);
  }

  // ---------------------------------------------------------------------
  // Properties

  /** A successful file lists one entry per requested format, in order
      (`svg` included), named after the staged file, and is credited to
      ImageMagick. */
  lemma ConvertFileResult(f: UploadedFile, s: Settings, convert: Converter, store: Store)
    ensures var r := ConvertFile(f, s, convert, store).0;
      && r.name == f.originalname
      && (r.Success? ==> MagickSuccess(r, f, s.formats))
  {
    if PathOf(f) in store {
      var orig := store[PathOf(f)];
      var step: FormatStep := (v, st) => ConvertFormat(f, v, s, convert, orig, st);
      forall v, st | step(v, st).outcome.Done? ensures EntryFor(step(v, st).outcome.value, v, f, orig) {
      }
      FormatsResults(s.formats, step, store, (e, v) => EntryFor(e, v, f, orig));
    }
  }

  predicate MagickSuccess(r: FileResult, f: UploadedFile, formats: seq<Value>) {
    && r.Success?
    && r.processor == Some("ImageMagick")
    && |r.processedFiles| == |formats|
    && forall i :: 0 <= i < |formats| ==> EntryFor(r.processedFiles[i], formats[i], f, r.originalSize)
  }

  /** When the binary is available: one result per file, in order; each
      success as above. When it is not: a throw, and the store untouched. */
  lemma MagickResults(files: seq<UploadedFile>, s: Settings, available: bool, convert: Converter, store: Store)
    ensures var r := MagickSpec(files, s, available, convert, store);
      && (!available ==> r == Step(Failed(NotInstalled), store))
      && (available ==> r.outcome.Done? && Names(r.outcome.value) == OriginalNames(files))
      && (available ==> forall i :: 0 <= i < |files| && r.outcome.value[i].Success? ==>
                          MagickSuccess(r.outcome.value[i], files[i], s.formats))
  {
    if available {
      var step: FileStep := (f, st) => var (r, st') := ConvertFile(f, s, convert, st); ([r], st');
      forall f, st
        ensures |step(f, st).0| == 1 && step(f, st).0[0].name == f.originalname
        ensures step(f, st).0[0].Success? ==> MagickSuccess(step(f, st).0[0], f, s.formats)
      {
        ConvertFileResult(f, s, convert, st);
      }
      LaneResults(files, step, store, (r: FileResult, f: UploadedFile) => r.Success? ==> MagickSuccess(r, f, s.formats));
    }
  }
}

=== FILE: js.dfy ===
/** The parts of the JavaScript language and of Node's `path` module that the
    core depends on, stated as pure functions: dynamic values and their
    truthiness, `String(v)`, `parseInt(s, 10)`, `toLowerCase`, `trim` and the
    regular-expression class `\s`, and the POSIX `path.extname` /
    `path.basename`. Only integral numbers are represented, and exactly: the
    rounding of doubles beyond `2^53` is not. */
module Js {

  datatype Option<+T> = None | Some(value: T)

  /** A JSON-like JavaScript value, as options objects and request bodies carry. */
  datatype Value =
    | Undefined
    | Null
    | Bool(b: bool)
    | Num(n: int)
    | Str(s: string)
    | Arr(items: seq<Value>)
    | Obj(props: map<string, Value>)
    | NotANumber    // NaN, as `parseInt` returns for text without digits

  /** Property access: a missing key reads as `undefined`. */
  function Get(props: map<string, Value>, key: string): (v: Value)
    ensures key !in props ==> v == Undefined
    ensures key in props ==> v == props[key]
  {
    if key in props then props[key] else Undefined
  }

  /** JavaScript truthiness (`if (v)`, `Boolean(v)`, `v || d`). */
  predicate Truthy(v: Value) {
    match v
    case Undefined => false
    case Null => false
    case Bool(b) => b
    case Num(n) => n != 0
    case Str(s) => s != ""
    case Arr(_) => true
    case Obj(_) => true
    case NotANumber => false
  }

  // ---------------------------------------------------------------------
  // Characters

  predicate IsDigit(c: char) { '0' <= c <= '9' }

  predicate IsAsciiLetter(c: char) { 'a' <= c <= 'z' || 'A' <= c <= 'Z' }

  /** The regular-expression class `\w` (without the `u` flag). */
  predicate IsWordChar(c: char) { IsAsciiLetter(c) || IsDigit(c) || c == '_' }

  /** The regular-expression class `\s`, which is also the set `trim` removes:
      white space and line terminators. */
  predicate IsSpace(c: char) {
    var k := c as int;
    || (9 <= k <= 13)            // \t \n \v \f \r
    || k == 0x20 || k == 0xA0 || k == 0x1680
    || (0x2000 <= k <= 0x200A)
    || k == 0x2028 || k == 0x2029 || k == 0x202F || k == 0x205F
    || k == 0x3000 || k == 0xFEFF
  }

  function LowerChar(c: char): (r: char)
    ensures 'A' <= c <= 'Z' ==> r as int == c as int + 32
    ensures !('A' <= c <= 'Z') ==> r == c
  {
    if 'A' <= c <= 'Z' then (c as int + 32) as char else c
  }

  /** `toLowerCase`, for the ASCII letters that every comparison in the core
      is about. */
  function Lower(s: string): (r: string)
    ensures |r| == |s|
    ensures forall i :: 0 <= i < |s| ==> r[i] == LowerChar(s[i])
  {
    if s == [] then [] else [LowerChar(s[0])] + Lower(s[1..])
  }

  // ---------------------------------------------------------------------
  // Strings

  predicate StartsWith(s: string, prefix: string) {
    |prefix| <= |s| && s[..|prefix|] == prefix
  }

  predicate EndsWith(s: string, suffix: string) {
    |suffix| <= |s| && s[|s| - |suffix|..] == suffix
  }

  /** `s.split(c).pop()`: what follows the last `c`, or all of `s` when
      there is none. */
  function SplitPop(s: string, c: char): (r: string)
    ensures c !in r && EndsWith(s, r)
    ensures r == s || (|r| < |s| && s[|s| - |r| - 1] == c)
  {
    if s == [] then []
    else if s[|s| - 1] == c then []
    else
      var p := SplitPop(s[..|s| - 1], c);
      SplitPopStep(s, c, p);
      p + [s[|s| - 1]]
  }

  /** One step of SplitPop: a segment of all but the last character,
      extended by that character when it is not `c`. */
  lemma SplitPopStep(s: string, c: char, p: string)
    requires s != [] && s[|s| - 1] != c
    requires c !in p && EndsWith(s[..|s| - 1], p)
    requires p == s[..|s| - 1] || (|p| < |s| - 1 && s[..|s| - 1][|s| - 1 - |p| - 1] == c)
    ensures var r := p + [s[|s| - 1]];
      c !in r && EndsWith(s, r) && (r == s || (|r| < |s| && s[|s| - |r| - 1] == c))
  {
    var init := s[..|s| - 1];
    var r := p + [s[|s| - 1]];
    assert s[|s| - |r|..] == init[|init| - |p|..] + [s[|s| - 1]];
    if p == init {
      assert r == s;
    }
  }

  /** The last segment is the one `c`-free suffix that is all of `s` or
      follows a `c`. */
  lemma SplitPopIff(s: string, c: char, t: string)
    ensures SplitPop(s, c) == t <==> c !in t && (s == t || EndsWith(s, [c] + t))
  {
    var r := SplitPop(s, c);
    if r == t && r != s {
      assert s[|s| - |t| - 1..] == [c] + t;
    }
    if c !in t && (s == t || EndsWith(s, [c] + t)) {
      SplitPopUnique(s, c, t);
    }
  }

  lemma {:induction false} SplitPopUnique(s: string, c: char, t: string)
    requires c !in t && (s == t || EndsWith(s, [c] + t))
    ensures SplitPop(s, c) == t
  {
    if s != [] {
      var init := s[..|s| - 1];
      if s[|s| - 1] == c {
        assert s != t;
        if t != [] {
          assert false;
        }
      } else {
        assert t != [] by {
          if t == [] {
            assert false;
          }
        }
        var t' := t[..|t| - 1];
        assert t == t' + [s[|s| - 1]] by {
          assert t[|t| - 1] == s[|s| - 1];
        }
        if s == t {
          assert init == t';
        } else {
          assert init[|init| - |t'| - 1..] == [c] + t';
        }
        SplitPopUnique(init, c, t');
      }
    }
  }

  /** Lower-casing does not move the dots: the last segment of the
      lower-cased text is the lower-cased last segment. */
  lemma LowerSplitPop(s: string)
    ensures Lower(SplitPop(s, '.')) == SplitPop(Lower(s), '.')
  {
    var r := SplitPop(s, '.');
    var t := Lower(r);
    var ls := Lower(s);
    assert '.' !in t by {
      forall i | 0 <= i < |t| ensures t[i] != '.' {
        assert r[i] != '.';
      }
    }
    if r == s {
      assert ls == t;
    } else {
      var k := |s| - |r| - 1;
      assert s[k] == '.';
      assert ls[k..] == ['.'] + t by {
        assert s[k..] == ['.'] + r;
        forall i | 0 <= i < |ls[k..]| ensures ls[k..][i] == (['.'] + t)[i] {
          assert ls[k..][i] == LowerChar(s[k + i]);
        }
      }
    }
    SplitPopIff(ls, '.', t);
  }

  /** `s.includes(part)`. */
  predicate Includes(s: string, part: string) {
    exists i :: 0 <= i <= |s| - |part| && OccursAt(s, part, i)
  }

  predicate OccursAt(s: string, part: string, i: int) {
    0 <= i <= |s| - |part| && s[i..i + |part|] == part
  }

  function TrimStart(s: string): (r: string)
    ensures |r| <= |s|
    ensures r == [] || !IsSpace(r[0])
  {
    if s != [] && IsSpace(s[0]) then TrimStart(s[1..]) else s
  }

  function TrimEnd(s: string): (r: string)
    ensures |r| <= |s| && r == s[..|r|]
    ensures r == [] || !IsSpace(r[|r| - 1])
  {
    if s != [] && IsSpace(s[|s| - 1]) then TrimEnd(s[..|s| - 1]) else s
  }

  /** `s.trim()`. */
  function Trim(s: string): string {
    TrimEnd(TrimStart(s))
  }

  /** `parts.join(sep)` for strings. */
  function Join(parts: seq<string>, sep: string): string {
    if parts == [] then ""
    else if |parts| == 1 then parts[0]
    else parts[0] + sep + Join(parts[1..], sep)
  }

  // ---------------------------------------------------------------------
  // Numbers and their decimal text

  function DigitChar(d: nat): char
    requires d < 36
  {
    if d < 10 then ('0' as int + d) as char else ('a' as int + d - 10) as char
  }

  /** `n.toString(radix)` for a non-negative integer. */
  function NatToRadix(n: nat, radix: nat): (r: string)
    requires 2 <= radix <= 36
    ensures |r| >= 1
    decreases n
  {
    if n < radix then [DigitChar(n)] else NatToRadix(n / radix, radix) + [DigitChar(n % radix)]
  }

  /** `10^21`: from this magnitude on, `String(n)` writes a number in
      exponent form. */
  const ExponentFrom: nat := 1_000_000_000_000_000_000_000

  /** `String(n)` for an integer: its decimal digits, or the exponent form
      once the magnitude reaches `10^21`. */
  function IntToString(n: int): string {
    if n < 0 then "-" + NatToString(Magnitude(n)) else NatToString(Magnitude(n))
  }

  function Magnitude(n: int): nat {
    if n < 0 then -n else n
  }

  function NatToString(m: nat): string {
    var digits := NatToRadix(m, 10);
    if m < ExponentFrom then digits else ExponentForm(digits)
  }

  /** The exponent form of a digit string: its first digit; the other
      digits, trailing zeros dropped, after a point when any remain; then
      `e+` and the count of digits after the first (`1e+21`, `1.5e+21`). */
  function ExponentForm(digits: string): string
    requires |digits| >= 1
  {
    [digits[0]] + FractionAndExponent(digits[1..])
  }

  /** What follows the first digit in the exponent form; it starts with `.`
      or `e`, never with a digit. */
  function FractionAndExponent(rest: string): (r: string)
    ensures r != [] && !IsDigit(r[0])
  {
    var fraction := StripTrailingZeros(rest);
    (if fraction == [] then "" else "." + fraction) + "e+" + NatToRadix(|rest|, 10)
  }

  function StripTrailingZeros(s: string): string {
    if s != [] && s[|s| - 1] == '0' then StripTrailingZeros(s[..|s| - 1]) else s
  }

  /** The most significant decimal digit: the value of the first
      character of the decimal text. */
  function LeadingDigit(m: nat): (d: nat)
    ensures d < 10
  {
    var c := NatToRadix(m, 10)[0];
    if IsDigit(c) then c as int - '0' as int else 0
  }

  predicate AllDigits(s: string) {
    forall i :: 0 <= i < |s| ==> IsDigit(s[i])
  }

  /** The longest prefix of decimal digits. */
  function DigitPrefix(s: string): (r: string)
    ensures AllDigits(r) && StartsWith(s, r)
    ensures |r| < |s| ==> !IsDigit(s[|r|])
  {
    if s != [] && IsDigit(s[0]) then [s[0]] + DigitPrefix(s[1..]) else []
  }

  /** The value of a string of decimal digits. */
  function DigitsValue(s: string): nat
    requires AllDigits(s)
  {
    if s == [] then 0 else DigitsValue(s[..|s| - 1]) * 10 + (s[|s| - 1] as int - '0' as int)
  }

  /** `parseInt(s, 10)`: leading white space, an optional sign, then the
      longest run of decimal digits; `None` stands for `NaN`. */
  function ParseInt(s: string): Option<int> {
    var t := TrimStart(s);
    var negative := t != [] && t[0] == '-';
    var digits := DigitPrefix(SignStripped(t));
    var magnitude: int := if digits == [] then 0 else DigitsValue(digits);
    if digits == [] then None
    else if negative then Some(-magnitude)
    else Some(magnitude)
  }

  /** `parseInt` gives `NaN` exactly when no digit follows the white space
      and the sign: the first character after the white space decides, and
      the second one only when the first is a sign. */
  lemma ParseIntNaN(s: string)
    ensures ParseInt(s).None? <==> DigitPrefix(SignStripped(TrimStart(s))) == []
    ensures var t := TrimStart(s);
      ParseInt(s).None? <==>
        t == [] || (!IsDigit(t[0]) && !((t[0] == '-' || t[0] == '+') && |t| > 1 && IsDigit(t[1])))
  {
  }

  function SignStripped(t: string): string {
    if t != [] && (t[0] == '-' || t[0] == '+') then t[1..] else t
  }

  /** `String(v)`; an array joins its elements with commas, writing `null`
      and `undefined` elements as empty strings. */
  function ToStr(v: Value): string
    decreases v, 0
  {
    match v
    case Undefined => "undefined"
    case Null => "null"
    case Bool(b) => if b then "true" else "false"
    case Num(n) => IntToString(n)
    case Str(s) => s
    case Arr(items) => Join(seq(|items|, i requires 0 <= i < |items| => ElementStr(items[i])), ",")
    case Obj(_) => "[object Object]"
    case NotANumber => "NaN"
  }

  function ElementStr(v: Value): string
    decreases v, 1
  {
    if v.Undefined? || v.Null? then "" else ToStr(v)
  }

  /** `parseInt(v, 10)` for any value: the value is first turned into a string. */
  function ParseIntValue(v: Value): Option<int> {
    ParseInt(ToStr(v))
  }

  /** `Number(v)`, the coercion arithmetic such as `v / 100` applies, for
      the values whose number is an integer; `None` stands for `NaN`. */
  function ToNumber(v: Value): Option<int> {
    match v
    case Undefined => None
    case Null => Some(0)
    case Bool(b) => Some(if b then 1 else 0)
    case Num(n) => Some(n)
    case NotANumber => None
    case _ => TextToNumber(ToStr(v))
  }

  /** `Number(s)` for text: white space around it is ignored, empty text is
      0, and a sign followed by decimal digits is their value; any other text
      is `NaN`. */
  function TextToNumber(s: string): Option<int> {
    var t := Trim(s);
    if t == [] then Some(0)
    else if |t| > 1 && t[0] == '-' && AllDigits(t[1..]) then Some(-(DigitsValue(t[1..]) as int))
    else if |t| > 1 && t[0] == '+' && AllDigits(t[1..]) then Some(DigitsValue(t[1..]) as int)
    else if AllDigits(t) then Some(DigitsValue(t) as int)
    else None
  }

  /** Text that is only digits is the number they denote. */
  lemma DigitsAreNumber(d: string)
    requires d != [] && AllDigits(d)
    ensures TextToNumber(d) == Some(DigitsValue(d) as int)
  {
    assert TrimStart(d) == d by { assert !IsSpace(d[0]); }
    assert TrimEnd(d) == d by { assert !IsSpace(d[|d| - 1]); }
    assert !(d[0] == '-' || d[0] == '+');
  }

  /** `Number` and `parseInt` agree on text that is only digits and
      disagree on text with anything after them: `Number("5px")` is `NaN`,
      `parseInt("5px")` is 5. */
  lemma NumberOfDigits(d: string, c: char)
    requires d != [] && AllDigits(d) && !IsDigit(c) && !IsSpace(c)
    ensures TextToNumber(d) == ParseInt(d) == Some(DigitsValue(d) as int)
    ensures TextToNumber(d + [c]).None?
    ensures ParseInt(d + [c]) == Some(DigitsValue(d) as int)
  {
    DigitPrefixOfDigits(d);
    ParseNonNegative(d);
    DigitsAreNumber(d);
    var t := d + [c];
    assert TrimStart(t) == t by { assert t[0] == d[0] && !IsSpace(d[0]); }
    assert TrimEnd(t) == t by { assert t[|t| - 1] == c; }
    assert !AllDigits(t) by { assert t[|t| - 1] == c; }
    assert !AllDigits(t[1..]) by { assert t[1..][|t| - 2] == c; }
    assert DigitPrefix(t) == d by { DigitPrefixThen(d, c); }
    assert SignStripped(t) == t;
  }

  lemma {:induction false} DigitPrefixThen(d: string, c: char)
    requires AllDigits(d) && !IsDigit(c)
    ensures DigitPrefix(d + [c]) == d
  {
    if d != [] {
      assert (d + [c])[1..] == d[1..] + [c];
      DigitPrefixThen(d[1..], c);
    } else {
      assert (d + [c])[0] == c;
    }
  }

  /** What `Number` makes of text a resize setting can hold: digits are
      their value, empty text is 0, digits with a unit are `NaN`. */
  lemma TextToNumberExamples()
    ensures TextToNumber("50") == Some(50)
    ensures TextToNumber("") == Some(0)
    ensures TextToNumber("50%").None?
  {
    assert DigitsValue("50") == 50 by {
      assert "50"[..1] == "5" && "5"[..0] == "";
    }
    NumberOfDigits("50", '%');
    assert "50" + ['%'] == "50%";
  }

  /** An array holding one number converts to that number, through its
      text. */
  lemma ToNumberOfArray()
    ensures ToNumber(Arr([Num(50)])) == Some(50)
  {
    assert ToStr(Arr([Num(50)])) == IntToString(50) by {
      assert ElementStr(Num(50)) == IntToString(50);
    }
    assert IntToString(50) == "50" by {
      DecimalText(50);
    }
    TextToNumberExamples();
  }

  /** An object's text is `[object Object]`, which is `NaN`. */
  lemma ToNumberOfObject(props: map<string, Value>)
    ensures ToNumber(Obj(props)).None?
  {
    var o := "[object Object]";
    assert TrimStart(o) == o by { assert !IsSpace(o[0]); }
    assert TrimEnd(o) == o by { assert !IsSpace(o[|o| - 1]); }
    assert !AllDigits(o) by { assert !IsDigit(o[0]); }
  }

  lemma {:induction false} DigitsOfRadix10(n: nat)
    ensures AllDigits(NatToRadix(n, 10))
    ensures DigitsValue(NatToRadix(n, 10)) == n
    decreases n
  {
    if n >= 10 {
      DigitsOfRadix10(n / 10);
      var s := NatToRadix(n, 10);
      assert s[..|s| - 1] == NatToRadix(n / 10, 10);
    }
  }

  lemma DigitPrefixOfDigits(s: string)
    requires AllDigits(s)
    ensures DigitPrefix(s) == s
  {
    if s != [] {
      DigitPrefixOfDigits(s[1..]);
    }
  }

  /** The integer `parseInt(String(n), 10)` reads: `n` itself below `10^21`
      in magnitude, and only the signed leading digit of the exponent form
      from there on. */
  function ReadBack(n: int): int {
    if n < 0 then -(ReadBackMagnitude(Magnitude(n)) as int) else ReadBackMagnitude(Magnitude(n))
  }

  function ReadBackMagnitude(m: nat): nat {
    if m < ExponentFrom then m else LeadingDigit(m)
  }

  /** Writing an integer with `String` and parsing it back gives the
      integer when it is below `10^21` in magnitude; a larger one comes back
      as its leading digit, between 1 and 9, with its sign. */
  lemma ParseIntOfIntToString(n: int)
    ensures ParseInt(IntToString(n)) == Some(ReadBack(n))
    ensures -(ExponentFrom as int) < n < ExponentFrom ==> ParseInt(IntToString(n)) == Some(n)
    ensures n >= ExponentFrom ==> 1 <= ParseInt(IntToString(n)).value <= 9
    ensures n <= -(ExponentFrom as int) ==> -9 <= ParseInt(IntToString(n)).value <= -1
  {
    var m := Magnitude(n);
    if n < 0 {
      assert IntToString(n) == "-" + NatToString(m);
      NegativeMagnitudeParses(m);
    } else {
      assert IntToString(n) == NatToString(m);
      MagnitudeParses(m);
    }
    if m >= ExponentFrom {
      LeadingDigitRange(m);
    }
  }

  lemma MagnitudeParses(m: nat)
    ensures ParseInt(NatToString(m)) == Some(ReadBackMagnitude(m))
  {
    if m < ExponentFrom {
      DecimalParses(m);
    } else {
      ExponentParses(m);
    }
  }

  lemma NegativeMagnitudeParses(m: nat)
    ensures ParseInt("-" + NatToString(m)) == Some(-(ReadBackMagnitude(m) as int))
  {
    MagnitudeParses(m);
    TextStartsWithDigit(m);
    ParseNegated(NatToString(m));
  }

  lemma TextStartsWithDigit(m: nat)
    ensures NatToString(m) != [] && IsDigit(NatToString(m)[0])
  {
    FirstDigit(m);
  }

  /** A minus sign in front of a digit negates what `parseInt` reads. */
  lemma ParseNegated(s: string)
    requires s != [] && IsDigit(s[0])
    ensures ParseInt(s).Some? && ParseInt("-" + s) == Some(-ParseInt(s).value)
  {
    assert TrimStart(s) == s by { assert !IsSpace(s[0]); }
    assert SignStripped(s) == s;
    var t := "-" + s;
    assert TrimStart(t) == t by { assert t[0] == '-'; }
    assert SignStripped(t) == s by { assert t[1..] == s; }
    assert DigitPrefix(s) != [];
  }

  /** Below `10^21` the text is the decimal digits. */
  lemma DecimalParses(m: nat)
    requires m < ExponentFrom
    ensures ParseInt(NatToString(m)) == Some(m)
  {
    var d := NatToRadix(m, 10);
    DecimalText(m);
    DigitsOfRadix10(m);
    DigitPrefixOfDigits(d);
    ParseNonNegative(d);
  }

  lemma NegativeDecimalParses(m: nat)
    requires m < ExponentFrom
    ensures ParseInt("-" + NatToString(m)) == Some(-(m as int))
  {
    var d := NatToRadix(m, 10);
    DecimalText(m);
    DigitsOfRadix10(m);
    DigitPrefixOfDigits(d);
    ParseNegative(d);
  }

  lemma DecimalText(m: nat)
    requires m < ExponentFrom
    ensures NatToString(m) == NatToRadix(m, 10)
  {
  }

  /** From `10^21` on, the text is a digit, the leading one, then `.` or `e`. */
  lemma ExponentParses(m: nat)
    requires m >= ExponentFrom
    ensures ParseInt(NatToString(m)) == Some(LeadingDigit(m))
  {
    var d := NatToRadix(m, 10);
    FirstDigit(m);
    assert NatToString(m) == ExponentForm(d);
    ExponentFormParses(d);
  }

  lemma NegativeExponentParses(m: nat)
    requires m >= ExponentFrom
    ensures ParseInt("-" + NatToString(m)) == Some(-(LeadingDigit(m) as int))
  {
    FirstDigit(m);
    NegativeExponentFormParses(NatToRadix(m, 10));
  }

  /** The exponent form reads back as its first digit: the character after
      it is `.` or `e`. */
  lemma ExponentFormParses(d: string)
    requires |d| >= 1 && IsDigit(d[0])
    ensures ParseInt(ExponentForm(d)) == Some(d[0] as int - '0' as int)
  {
    var e := ExponentForm(d);
    assert e[1] == FractionAndExponent(d[1..])[0];
    ParseLeading(e);
  }

  lemma NegativeExponentFormParses(d: string)
    requires |d| >= 1 && IsDigit(d[0])
    ensures ParseInt("-" + ExponentForm(d)) == Some(-(d[0] as int - '0' as int))
  {
    var e := ExponentForm(d);
    assert e[1] == FractionAndExponent(d[1..])[0];
    NegativeParseLeading(e);
  }

  /** The decimal text starts with a digit, and with `0` only for zero. */
  lemma {:induction false} FirstDigit(m: nat)
    ensures IsDigit(NatToRadix(m, 10)[0])
    ensures m > 0 ==> NatToRadix(m, 10)[0] != '0'
    decreases m
  {
    if m >= 10 {
      FirstDigit(m / 10);
    }
  }

  /** A positive number's leading digit is between 1 and 9. */
  lemma LeadingDigitRange(m: nat)
    requires m > 0
    ensures 1 <= LeadingDigit(m) <= 9
  {
    FirstDigit(m);
  }

  /** A digit followed by something that is not a digit parses as that
      digit, with or without a minus sign in front. */
  lemma ParseLeading(s: string)
    requires |s| >= 2 && IsDigit(s[0]) && !IsDigit(s[1])
    ensures ParseInt(s) == Some(s[0] as int - '0' as int)
  {
    LeadingDigitPrefix(s);
    assert TrimStart(s) == s by { assert !IsSpace(s[0]); }
    assert SignStripped(s) == s;
  }

  lemma NegativeParseLeading(s: string)
    requires |s| >= 2 && IsDigit(s[0]) && !IsDigit(s[1])
    ensures ParseInt("-" + s) == Some(-(s[0] as int - '0' as int))
  {
    LeadingDigitPrefix(s);
    var t := "-" + s;
    assert TrimStart(t) == t by { assert t[0] == '-'; }
    assert SignStripped(t) == s by { assert t[1..] == s; }
  }

  lemma LeadingDigitPrefix(s: string)
    requires |s| >= 2 && IsDigit(s[0]) && !IsDigit(s[1])
    ensures DigitPrefix(s) == [s[0]]
    ensures DigitsValue([s[0]]) == s[0] as int - '0' as int
  {
    assert DigitPrefix(s[1..]) == [];
    assert [s[0]][..0] == [];
  }

  lemma ParseNonNegative(d: string)
    requires d != [] && AllDigits(d) && DigitPrefix(d) == d
    ensures ParseInt(d) == Some(DigitsValue(d) as int)
  {
    var c := d[0];
    assert IsDigit(c);
    assert !IsSpace(c) && c != '-' && c != '+';
    assert TrimStart(d) == d;
    assert SignStripped(d) == d;
  }

  lemma ParseNegative(d: string)
    requires d != [] && AllDigits(d) && DigitPrefix(d) == d
    ensures ParseInt("-" + d) == Some(-(DigitsValue(d) as int))
  {
    var s := "-" + d;
    assert TrimStart(s) == s by { assert s[0] == '-'; }
    assert SignStripped(s) == d by { assert s[0] == '-' && s[1..] == d; }
  }

  // ---------------------------------------------------------------------
  // POSIX path helpers (Node's `path` on Linux)

  function StripTrailingSlashes(p: string): (r: string)
    ensures |r| <= |p| && r == p[..|r|]
    ensures r == [] || r[|r| - 1] != '/'
  {
    if p != [] && p[|p| - 1] == '/' then StripTrailingSlashes(p[..|p| - 1]) else p
  }

  function AfterLastSlash(p: string): (r: string)
    ensures '/' !in r
    ensures |r| <= |p| && r == p[|p| - |r|..]
    ensures '/' !in p ==> r == p
  {
    if p == [] then []
    else if p[|p| - 1] == '/' then []
    else AfterLastSlash(p[..|p| - 1]) + [p[|p| - 1]]
  }

  /** The last path component, ignoring trailing separators. */
  function LastComponent(p: string): (r: string)
    ensures '/' !in r
    ensures '/' !in p ==> r == p
  {
    AfterLastSlash(StripTrailingSlashes(p))
  }

  /** Index of the last `c` in `s`, if any. */
  function LastIndexOf(s: string, c: char): (r: Option<nat>)
    ensures r.None? <==> c !in s
    ensures r.Some? ==> r.value < |s| && s[r.value] == c && c !in s[r.value + 1..]
  {
    if s == [] then None
    else if s[|s| - 1] == c then Some(|s| - 1)
    else
      var r := LastIndexOf(s[..|s| - 1], c);
      assert s[..|s| - 1] + [s[|s| - 1]] == s;
      r
  }

  /** `path.extname(p)`: from the last `.` of the last component to its end,
      unless that dot is the component's first character or the component
      is `..`. */
  function Extname(p: string): (r: string)
    ensures r == [] || (r[0] == '.' && '.' !in r[1..])
    ensures '/' !in r
    ensures r == [] || EndsWith(LastComponent(p), r)
  {
    var name := LastComponent(p);
    match LastIndexOf(name, '.')
    case None => ""
    case Some(i) => if i == 0 || name == ".." then "" else name[i..]
  }

  /** `path.basename(p, suffix)`: the last component, with `suffix` removed
      when the component ends with it and is longer than it. */
  function Basename(p: string, suffix: string): (r: string)
    ensures '/' !in r
  {
    if suffix != [] && suffix == p then ""
    else
      var name := LastComponent(p);
      if suffix != [] && |name| > |suffix| && EndsWith(name, suffix)
      then name[..|name| - |suffix|]
      else name
  }
}

=== FILE: media.dfy ===
/** What the three converters of `backend/app/services/` share: uploaded
    files, the artifact store they read and write, savings, and the result
    records they build. The store is a value, map from path to size in
    bytes, threaded through every operation; codecs are parameters. */
module Media {
  import opened Js

  /** The artifact store: the size of every file present, by path. */
  type Store = map<string, nat>

  /** A step that either produces a value or throws with a message. */
  datatype Attempt<+T> = Done(value: T) | Failed(message: string)

  /** A step's outcome together with the store it leaves behind, which
      keeps whatever was written before a failure. */
  datatype Step<+T> = Step(outcome: Attempt<T>, store: Store)

  /** An upload as multer describes it: the client's name, and the staged
      file `filename` inside directory `dir`. */
  datatype UploadedFile = UploadedFile(originalname: string, dir: string, filename: string)

  /** `file.path`. */
  function PathOf(f: UploadedFile): string { f.dir + "/" + f.filename }

  /** `path.join(path.dirname(file.path), name)` for a name without separators. */
  function OutputPath(f: UploadedFile, name: string): string { f.dir + "/" + name }

  function StatError(p: string): string { "ENOENT: no such file or directory, stat '" + p + "'" }

  function UnlinkError(p: string): string { "ENOENT: no such file or directory, unlink '" + p + "'" }

  /** `(await fs.stat(p)).size`. */
  function Stat(store: Store, p: string): (r: Attempt<nat>)
    ensures r.Done? <==> p in store
    ensures r.Done? ==> r.value == store[p]
  {
    if p in store then Done(store[p]) else Failed(StatError(p))
  }

  /** `await fs.unlink(p)`. */
  function Unlink(store: Store, p: string): (r: Attempt<Store>)
    ensures r.Done? <==> p in store
    ensures r.Done? ==> r.value.Keys == store.Keys - {p}
    ensures r.Done? ==> forall q :: q in r.value ==> r.value[q] == store[q]
  {
    if p in store then Done(map q | q in store && q != p :: store[q]) else Failed(UnlinkError(p))
  }

  /** `((orig - out) / orig * 100).toFixed(2)` as an exact value: the
      percentage is `100 * gain / base`; dividing by a zero original size
      gives `NaN` or `-Infinity`. */
  datatype Savings = Percent(gain: int, base: nat) | NaN | MinusInfinity

  /** Savings as the raster, ImageMagick and SVGO paths compute them: not clamped. */
  function Unclamped(orig: nat, out: nat): (r: Savings)
    ensures orig > 0 ==> r == Percent(orig - out, orig)
    ensures orig == 0 ==> (r.NaN? <==> out == 0) && (r.MinusInfinity? <==> out > 0)
  {
    if orig == 0 then (if out == 0 then NaN else MinusInfinity) else Percent(orig - out, orig)
  }

  /** Savings as the SVG-to-raster path computes them: `0.00` unless the
      output is smaller. */
  function Clamped(orig: nat, out: nat): (r: Savings)
    ensures r.Percent? && r.gain >= 0 && r.base > 0
    ensures orig > out ==> r == Percent(orig - out, orig)
    ensures orig <= out ==> r.gain == 0
  {
    if orig > out then Percent(orig - out, orig) else Percent(0, 1)
  }

  datatype ProcessedFile = ProcessedFile(format: Value, filename: string, size: nat, savings: Savings)

  /** One entry of `results`: a success lists the outputs (and, for
      ImageMagick, the processor); an error carries the thrown message. */
  datatype FileResult =
    | Success(name: string, originalSize: nat, processedFiles: seq<ProcessedFile>, processor: Option<string>)
    | Error(name: string, error: string)

  /** `path.basename(name, path.extname(name))`. */
  function Stem(name: string): string { Basename(name, Extname(name)) }

  /** `stem + '.' + format`. */
  function OutputName(stem: string, format: Value): string { stem + "." + ToStr(format) }

  function Names(results: seq<FileResult>): seq<string> {
    seq(|results|, i requires 0 <= i < |results| => results[i].name)
  }

  function OriginalNames(files: seq<UploadedFile>): seq<string> {
    seq(|files|, i requires 0 <= i < |files| => files[i].originalname)
  }

  /** A destructuring default: it applies only to `undefined`. */
  function OrDefault(v: Value, d: Value): (r: Value)
    ensures v.Undefined? ==> r == d
    ensures !v.Undefined? ==> r == v
  {
    if v.Undefined? then d else v
  }

  /** One iteration of a converter's per-file loop: the file and the store
      before it, to the results it pushes and the store after it. */
  type FileStep = (UploadedFile, Store) -> (seq<FileResult>, Store)

  /** A converter's loop over `files`, in order, each file caught on its own. */
  function Lane(files: seq<UploadedFile>, step: FileStep, store: Store): (seq<FileResult>, Store) {
    if files == [] then ([], store)
    else
      var prev := Lane(files[..|files| - 1], step, store);
      var next := step(files[|files| - 1], prev.1);
      (prev.0 + next.0, next.1)
  }

  /** If every step pushes exactly one result, under the client's name and
      with property `ok`, the loop reports once per file, in order, each
      result having `ok`. */
  lemma {:induction false} LaneResults(files: seq<UploadedFile>, step: FileStep, store: Store,
                                       ok: (FileResult, UploadedFile) -> bool)
    requires forall f, st :: |step(f, st).0| == 1 && step(f, st).0[0].name == f.originalname && ok(step(f, st).0[0], f)
    ensures var rs := Lane(files, step, store).0;
      && Names(rs) == OriginalNames(files)
      && forall i :: 0 <= i < |rs| ==> ok(rs[i], files[i])
  {
    if files != [] {
      var init := files[..|files| - 1];
      var last := files[|files| - 1];
      LaneResults(init, step, store, ok);
      var prev := Lane(init, step, store);
      var r := step(last, prev.1).0[0];
      var rs := prev.0;
      assert step(last, prev.1).0 == [r];
      assert |Names(rs)| == |rs| && |OriginalNames(init)| == |init|;
      forall i | 0 <= i < |rs| + 1 ensures ok((rs + [r])[i], files[i]) {
        if i < |rs| {
          assert (rs + [r])[i] == rs[i] && files[i] == init[i];
        }
      }
      assert Names(rs + [r]) == Names(rs) + [r.name];
      assert OriginalNames(files) == OriginalNames(init) + [last.originalname];
    }
  }

  /** The loop over a single file is that file's step. */
  lemma LaneSingle(f: UploadedFile, step: FileStep, store: Store)
    ensures Lane([f], step, store) == step(f, store)
  {
    assert [f][..0] == [];
    assert [] + step(f, store).0 == step(f, store).0;
  }

  /** One iteration of a converter's per-format loop: the format and the
      store before it, to the output entry (or the thrown message) and the
      store after it. */
  type FormatStep = (Value, Store) -> Step<ProcessedFile>

  /** The per-format loop: entries in request order; the first failure ends
      the loop, keeping whatever was written before it. */
  function Formats(formats: seq<Value>, step: FormatStep, store: Store): Step<seq<ProcessedFile>> {
    if formats == [] then Step(Done([]), store)
    else
      var prev := Formats(formats[..|formats| - 1], step, store);
      match prev.outcome
      case Failed(_) => prev
      case Done(entries) =>
        var next := step(formats[|formats| - 1], prev.store);
        match next.outcome
        case Failed(m) => Step(Failed(m), next.store)
        case Done(entry) => Step(Done(entries + [entry]), next.store)
  }

  /** If every successful step yields an entry with property `ok` for its
      format, a successful loop yields one entry per format, in order, each
      with `ok`. */
  lemma {:induction false} FormatsResults(formats: seq<Value>, step: FormatStep, store: Store,
                                          ok: (ProcessedFile, Value) -> bool)
    requires forall v, st :: step(v, st).outcome.Done? ==> ok(step(v, st).outcome.value, v)
    ensures var r := Formats(formats, step, store).outcome;
      r.Done? ==> |r.value| == |formats| && forall i :: 0 <= i < |formats| ==> ok(r.value[i], formats[i])
  {
    if formats != [] {
      var init := formats[..|formats| - 1];
      FormatsResults(init, step, store, ok);
      var prev := Formats(init, step, store);
      if prev.outcome.Done? {
        var next := step(formats[|formats| - 1], prev.store);
        if next.outcome.Done? {
          var es := prev.outcome.value;
          forall i | 0 <= i < |formats| ensures ok((es + [next.outcome.value])[i], formats[i]) {
            if i < |init| {
              assert (es + [next.outcome.value])[i] == es[i] && formats[i] == init[i];
            }
          }
        }
      }
    }
  }

  /** The loop over one more format runs that format's step unless the
      loop has already failed. */
  lemma FormatsExtend(formats: seq<Value>, i: nat, step: FormatStep, store: Store)
    requires i < |formats|
    ensures var prev := Formats(formats[..i], step, store);
      var next := step(formats[i], prev.store);
      Formats(formats[..i + 1], step, store)
      == if prev.outcome.Failed? then prev
         else if next.outcome.Failed? then Step(Failed(next.outcome.message), next.store)
         else Step(Done(prev.outcome.value + [next.outcome.value]), next.store)
  {
    assert formats[..i + 1][..i] == formats[..i];
  }

  /** A loop over one format that succeeds lists that format's entry. */
  lemma FormatsSingle(v: Value, step: FormatStep, store: Store)
    requires step(v, store).outcome.Done?
    ensures Formats([v], step, store) == Step(Done([step(v, store).outcome.value]), step(v, store).store)
  {
    assert [v][..0] == [];
    assert [] + [step(v, store).outcome.value] == [step(v, store).outcome.value];
  }

  /** Once the loop has failed on a prefix it stays failed, with the same
      message and store. */
  lemma {:induction false} FormatsFailureSticks(formats: seq<Value>, n: nat, step: FormatStep, store: Store)
    requires n <= |formats|
    requires Formats(formats[..n], step, store).outcome.Failed?
    ensures Formats(formats, step, store) == Formats(formats[..n], step, store)
  {
    if n < |formats| {
      assert formats[..|formats| - 1][..n] == formats[..n];
      FormatsFailureSticks(formats[..|formats| - 1], n, step, store);
    } else {
      assert formats[..n] == formats;
    }
  }

  /** `s.filter(keep)`. */
  function Filter<T>(s: seq<T>, keep: T -> bool): (r: seq<T>)
    ensures |r| <= |s|
  {
    if s == [] then []
    else Filter(s[..|s| - 1], keep) + (if keep(s[|s| - 1]) then [s[|s| - 1]] else [])
  }

  /** The filter of a single element. */
  lemma FilterSingle<T>(x: T, keep: T -> bool)
    ensures Filter([x], keep) == if keep(x) then [x] else []
  {
    assert [x][..0] == [];
  }

  /** The filter keeps exactly the elements that pass. */
  lemma {:induction false} FilterMembers<T>(s: seq<T>, keep: T -> bool, x: T)
    ensures x in Filter(s, keep) <==> x in s && keep(x)
  {
    if s != [] {
      FilterMembers(s[..|s| - 1], keep, x);
      assert s == s[..|s| - 1] + [s[|s| - 1]];
    }
  }

  /** A filter that every element passes keeps the whole sequence. */
  lemma {:induction false} FilterAll<T>(s: seq<T>, keep: T -> bool)
    requires forall x :: x in s ==> keep(x)
    ensures Filter(s, keep) == s
  {
    if s != [] {
      FilterAll(s[..|s| - 1], keep);
      assert s == s[..|s| - 1] + [s[|s| - 1]];
    }
  }

  /** Filters by predicates that agree on every element are equal. */
  lemma {:induction false} FilterAgrees<T>(s: seq<T>, p: T -> bool, q: T -> bool)
    requires forall x :: x in s ==> p(x) == q(x)
    ensures Filter(s, p) == Filter(s, q)
  {
    if s != [] {
      FilterAgrees(s[..|s| - 1], p, q);
    }
  }

  /** Exactly one of the three predicates holds for `x`. */
  predicate OneOf<T>(x: T, a: T -> bool, b: T -> bool, c: T -> bool) {
    (a(x) || b(x) || c(x)) && !(a(x) && b(x)) && !(a(x) && c(x)) && !(b(x) && c(x))
  }

  /** Three filters by predicates of which exactly one holds for each
      element split the sequence: each element goes to exactly one part. */
  lemma {:induction false} FilterPartition<T>(s: seq<T>, a: T -> bool, b: T -> bool, c: T -> bool)
    requires forall x :: x in s ==> OneOf(x, a, b, c)
    ensures multiset(Filter(s, a)) + multiset(Filter(s, b)) + multiset(Filter(s, c)) == multiset(s)
  {
    if s != [] {
      var init := s[..|s| - 1];
      var x := s[|s| - 1];
      assert s == init + [x];
      assert forall y :: y in init ==> y in s;
      FilterPartition(init, a, b, c);
      PartitionStep(s, a, b, c);
    }
  }

  /** The partition of all but the last element extends to the whole
      sequence. */
  lemma PartitionStep<T>(s: seq<T>, a: T -> bool, b: T -> bool, c: T -> bool)
    requires s != [] && OneOf(s[|s| - 1], a, b, c)
    requires var init := s[..|s| - 1];
      multiset(Filter(init, a)) + multiset(Filter(init, b)) + multiset(Filter(init, c)) == multiset(init)
    ensures multiset(Filter(s, a)) + multiset(Filter(s, b)) + multiset(Filter(s, c)) == multiset(s)
  {
    var init := s[..|s| - 1];
    var x := s[|s| - 1];
    assert s == init + [x];
    FilterLast(s, a);
    FilterLast(s, b);
    FilterLast(s, c);
    OneOfSingle(x, a, b, c);
    UnionRegroup(multiset(Filter(init, a)), multiset(Filter(init, b)), multiset(Filter(init, c)),
                 if a(x) then multiset{x} else multiset{}, if b(x) then multiset{x} else multiset{},
                 if c(x) then multiset{x} else multiset{});
  }

  lemma UnionRegroup<T>(p: multiset<T>, q: multiset<T>, r: multiset<T>, p': multiset<T>, q': multiset<T>, r': multiset<T>)
    ensures (p + p') + (q + q') + (r + r') == (p + q + r) + (p' + q' + r')
  {
  }

  lemma OneOfSingle<T>(x: T, a: T -> bool, b: T -> bool, c: T -> bool)
    requires OneOf(x, a, b, c)
    ensures (if a(x) then multiset{x} else multiset{}) + (if b(x) then multiset{x} else multiset{})
      + (if c(x) then multiset{x} else multiset{}) == multiset{x}
  {
  }

  /** The filter of a non-empty sequence, as multisets: the filter of all
      but the last element, plus the last one when it is kept. */
  lemma FilterLast<T>(s: seq<T>, p: T -> bool)
    requires s != []
    ensures multiset(Filter(s, p)) ==
      multiset(Filter(s[..|s| - 1], p)) + (if p(s[|s| - 1]) then multiset{s[|s| - 1]} else multiset{})
  {
  }

  /** `s.map(f)`. */
  function Map<T, U>(s: seq<T>, f: T -> U): (r: seq<U>)
    ensures |r| == |s|
  {
    if s == [] then [] else Map(s[..|s| - 1], f) + [f(s[|s| - 1])]
  }

  /** Each element of the map is `f` of the element at the same place. */
  lemma {:induction false} MapAt<T, U>(s: seq<T>, f: T -> U, i: nat)
    requires i < |s|
    ensures Map(s, f)[i] == f(s[i])
  {
    if i < |s| - 1 {
      MapAt(s[..|s| - 1], f, i);
    }
  }

  /** A loop whose steps never remove a file never removes one. */
  lemma {:induction false} LaneKeepsFiles(files: seq<UploadedFile>, step: FileStep, store: Store)
    requires forall f: UploadedFile, st: Store :: st.Keys <= step(f, st).1.Keys
    ensures store.Keys <= Lane(files, step, store).1.Keys
  {
    if files != [] {
      LaneKeepsFiles(files[..|files| - 1], step, store);
    }
  }
}

=== FILE: numeric_input.dfy ===
/** The numeric text fields of the option panels
    (`frontend/src/components/ProcessingOptions.jsx` and
    `frontend/src/components/FileConversionOptions.jsx`): quality, resize and
    SVG precision are `type="text"` inputs whose `onChange` keeps only empty
    or all-digit text and whose `onBlur` turns the text into a number clamped
    to the field's range, the empty text standing for the field's default. */
module NumericInput {
  import opened Js

  /** A field's default and its inclusive range. */
  datatype Field = Field(whenEmpty: int, lo: int, hi: int)

  const Quality: Field := Field(80, 1, 100)
  const Resize: Field := Field(100, 10, 100)
  const Precision: Field := Field(2, 0, 5)

  predicate WellFormed(f: Field) {
    f.lo <= f.whenEmpty <= f.hi
  }

  /** The `onChange` filter: `val === '' || /^\d+$/.test(val)`. */
  predicate Accepts(text: string) {
    text == "" || (|text| > 0 && AllDigits(text))
  }

  /** `onChange`: accepted text is stored as `''` or as `parseInt(text)`,
      here the exact integer the digits denote (the source's double rounds
      it beyond 2^53); any other text leaves the field as it was. */
  function OnChange(prev: Value, text: string): (v: Value)
    ensures !Accepts(text) ==> v == prev
    ensures text == "" ==> v == Str("")
    ensures text != "" && Accepts(text) ==> v == Num(DigitsValue(text))
  {
    if !Accepts(text) then prev
    else if text == "" then Str("")
    else
      var parsed := ParseInt(text);
      assert parsed == Some(DigitsValue(text) as int) by {
        DigitPrefixOfDigits(text);
        ParseNonNegative(text);
      }
      match parsed
      case Some(n) => Num(n)
      case None => NotANumber
  }

  /** `Math.max(lo, Math.min(hi, n))`. */
  function Clamp(n: int, f: Field): int {
    if n > f.hi then (if f.hi < f.lo then f.lo else f.hi)
    else if n < f.lo then f.lo
    else n
  }

  /** `onBlur`: the empty text becomes the default, other text is parsed
      with `parseInt` and clamped; text `parseInt` cannot read gives `NaN`,
      which `Math.min` and `Math.max` pass through. */
  function OnBlur(text: string, f: Field): (v: Value)
    requires WellFormed(f)
    ensures text == "" ==> v == Num(f.whenEmpty)
    ensures v == NotANumber <==> text != "" && ParseInt(text).None?
    ensures v.Num? ==> f.lo <= v.n <= f.hi
    ensures text != "" && ParseInt(text).Some? ==>
      var n := ParseInt(text).value;
      && (f.lo <= n <= f.hi ==> v == Num(n))
      && (n < f.lo ==> v == Num(f.lo))
      && (n > f.hi ==> v == Num(f.hi))
  {
    var val := if text == "" then Some(f.whenEmpty) else ParseInt(text);
    match val
    case Some(n) => Num(Clamp(n, f))
    case None => NotANumber
  }

  /** An options object: `{...options, key: v}` is `options[key := v]`. */
  type Props = map<string, Value>

  /** The `onChange` handler of field `key`: accepted text produces the
      options object with that field replaced, refused text produces no
      update at all (`None`). */
  function ChangeField(options: Props, key: string, text: string): (r: Option<Props>)
    ensures r.Some? <==> Accepts(text)
    ensures r.Some? ==> r.value.Keys == options.Keys + {key}
    ensures r.Some? ==> forall k :: k in options && k != key ==> r.value[k] == options[k]
    ensures r.Some? && text == "" ==> r.value[key] == Str("")
    ensures r.Some? && text != "" ==> r.value[key] == Num(DigitsValue(text))
  {
    if Accepts(text) then
      var v := OnChange(Get(options, key), text);
      assert v == if text == "" then Str("") else Num(DigitsValue(text));
      Some(options[key := v])
    else None
  }

  /** The `onBlur` handler of field `key`: the field is replaced by the
      clamped value of the displayed text and nothing else changes. */
  function BlurField(options: Props, key: string, text: string, f: Field): (r: Props)
    requires WellFormed(f)
    ensures r.Keys == options.Keys + {key}
    ensures forall k :: k in options && k != key ==> r[k] == options[k]
    ensures text == "" ==> r[key] == Num(f.whenEmpty)
    ensures r[key].Num? ==> f.lo <= r[key].n <= f.hi
    ensures r[key] == NotANumber <==> text != "" && ParseInt(text).None?
  {
    options[key := OnBlur(text, f)]
  }

  // ---------------------------------------------------------------------
  // Properties

  /** Blurring is idempotent for a field whose range lies below `10^21` in
      magnitude: the text a blurred field displays blurs to the same value. */
  lemma BlurTwice(text: string, f: Field)
    requires WellFormed(f) && -(ExponentFrom as int) < f.lo && f.hi < ExponentFrom
    ensures var v := OnBlur(text, f);
      v.Num? ==> OnBlur(ToStr(v), f) == v
  {
    var v := OnBlur(text, f);
    if v.Num? {
      var shown := IntToString(v.n);
      assert ToStr(v) == shown;
      ParseIntOfIntToString(v.n);
      ShownNonEmpty(v.n);
      assert OnBlur(shown, f) == Num(Clamp(v.n, f));
    }
  }

  lemma ShownNonEmpty(n: int)
    ensures IntToString(n) != ""
  {
    assert |NatToString(Magnitude(n))| >= 1;
  }

  /** What `onChange` stores, once displayed, blurs exactly as the typed
      text would while the typed number is below `10^21`. From `10^21` on
      the field displays the number in exponent form, and blurring reads
      only its leading digit: 22 typed digits in the quality field blur to
      that digit, not to 100. */
  lemma BlurAfterTyping(prev: Value, text: string, f: Field)
    requires WellFormed(f) && Accepts(text)
    ensures text == "" || DigitsValue(text) < ExponentFrom ==>
      OnBlur(ToStr(OnChange(prev, text)), f) == OnBlur(text, f)
    ensures text != "" && DigitsValue(text) >= ExponentFrom ==>
      && OnBlur(ToStr(OnChange(prev, text)), f) == Num(Clamp(LeadingDigit(DigitsValue(text)), f))
      && OnBlur(text, f) == Num(Clamp(DigitsValue(text), f))
  {
    if text != "" {
      var n := DigitsValue(text);
      assert ToStr(OnChange(prev, text)) == IntToString(n);
      DigitPrefixOfDigits(text);
      ParseNonNegative(text);
      assert OnBlur(text, f) == Num(Clamp(n, f));
      ShownNonEmpty(n);
      ParseIntOfIntToString(n);
      if n < ExponentFrom {
        assert ParseInt(IntToString(n)) == Some(n);
      } else {
        assert ParseInt(IntToString(n)) == Some(LeadingDigit(n));
      }
    }
  }

  /** Typing accepted text and leaving the field stores what the typed text
      blurs to, whatever the field held before, as long as the typed number
      is below `10^21`. */
  lemma ChangeThenBlur(options: Props, key: string, text: string, f: Field)
    requires WellFormed(f) && Accepts(text)
    ensures text == "" || DigitsValue(text) < ExponentFrom ==>
      var typed := ChangeField(options, key, text).value;
      BlurField(typed, key, ToStr(typed[key]), f) == BlurField(options, key, text, f)
    ensures text != "" && DigitsValue(text) >= ExponentFrom ==>
      var typed := ChangeField(options, key, text).value;
      BlurField(typed, key, ToStr(typed[key]), f)[key] == Num(Clamp(LeadingDigit(DigitsValue(text)), f))
  {
    var stored := OnChange(Get(options, key), text);
    var typed := ChangeField(options, key, text).value;
    assert typed == options[key := stored];
    BlurAfterTyping(Get(options, key), text, f);
    assert typed[key := OnBlur(ToStr(stored), f)] == options[key := OnBlur(ToStr(stored), f)];
  }
}

=== FILE: processing_options.dfy ===
/** `frontend/src/components/ProcessingOptions.jsx`: the default-preset
    panel. In images mode it detects which image kinds the queue holds and
    shows the raster panel, the SVG panel or a prompt to add files
    accordingly; its numeric fields filter typed text and clamp on blur. */
module ProcessingOptions {
  import opened Js
  import opened Media
  import opened FormatSelector
  import opened NumericInput

  /** The `detectedTypes` state of images mode. */
  datatype ImageTypes = ImageTypes(raster: bool, svg: bool)

  /** What the detection effect should find: a raster flag for some file of
      raster kind, an SVG flag for some `.svg` file. */
  function ImageTypesOf(names: seq<string>): ImageTypes {
    ImageTypes(Has(names, Raster), Has(names, Svg))
  }

  /** The detection effect: both flags start false; a file with a raster
      extension sets `raster`, else one whose extension is `svg` sets `svg`;
      every other file sets nothing. */
  method DetectImageTypes(names: seq<string>) returns (types: ImageTypes)
    ensures types == ImageTypesOf(names)
  {
    types := ImageTypes(false, false);
    for i := 0 to |names|
      invariant types == ImageTypesOf(names[..i])
    {
      var ext := Ext(names[i]);
      assert names[..i + 1][..i] == names[..i];
      assert Map(names[..i + 1], KindOf) == Map(names[..i], KindOf) + [KindOf(names[i])];
      if ext in RasterExts {
        assert KindOf(names[i]) == Raster;
        types := types.(raster := true);
      } else if ext == "svg" {
        assert KindOf(names[i]) == Svg;
        types := types.(svg := true);
      } else {
        assert KindOf(names[i]) != Raster && KindOf(names[i]) != Svg;
      }
    }
    assert names[..|names|] == names;
  }

  /** `options.formats.some(f => ['webp', 'avif', 'jpg', 'png'].includes(f))`. */
  predicate SelectsRaster(formats: seq<string>) {
    exists i :: 0 <= i < |formats| && formats[i] in RasterFormats
  }

  /** The default-presets notice. */
  predicate ShowsNotice(t: ImageTypes) { t.raster || t.svg }

  /** The raster panel also serves SVG files that are being converted to a
      raster format. */
  predicate ShowsRasterPanel(t: ImageTypes, formats: seq<string>) {
    t.raster || (t.svg && SelectsRaster(formats))
  }

  predicate ShowsSvgPanel(t: ImageTypes) { t.svg }

  /** The "add image files" prompt. */
  predicate ShowsAddFilesPrompt(t: ImageTypes) { !t.raster && !t.svg }

  /** What images mode shows for a queue: the raster panel when some file
      is a raster image, or some file is an SVG and a raster format is
      selected; the SVG panel when some file is an SVG; the prompt exactly
      when neither panel shows, in which case no file is a raster image or
      an SVG. */
  lemma PanelsForQueue(names: seq<string>, formats: seq<string>)
    ensures var t := ImageTypesOf(names);
      && (ShowsRasterPanel(t, formats) <==>
            (exists i :: 0 <= i < |names| && KindOf(names[i]) == Raster)
            || ((exists i :: 0 <= i < |names| && KindOf(names[i]) == Svg) && SelectsRaster(formats)))
      && (ShowsSvgPanel(t) <==> exists i :: 0 <= i < |names| && KindOf(names[i]) == Svg)
      && (ShowsAddFilesPrompt(t) <==> !ShowsRasterPanel(t, formats) && !ShowsSvgPanel(t))
      && (ShowsAddFilesPrompt(t) <==> forall i :: 0 <= i < |names| ==> KindOf(names[i]) in {Video, Other})
      && (ShowsNotice(t) <==> !ShowsAddFilesPrompt(t))
  {
    HasIff(names, Raster);
    HasIff(names, Svg);
    var t := ImageTypesOf(names);
    if ShowsAddFilesPrompt(t) {
      forall i | 0 <= i < |names| ensures KindOf(names[i]) in {Video, Other} {
        if KindOf(names[i]) == Raster || KindOf(names[i]) == Svg {
          assert false;
        }
      }
    } else if t.raster {
      var i :| 0 <= i < |names| && KindOf(names[i]) == Raster;
      assert KindOf(names[i]) !in {Video, Other};
    } else {
      var i :| 0 <= i < |names| && KindOf(names[i]) == Svg;
      assert KindOf(names[i]) !in {Video, Other};
    }
  }
}

=== FILE: results.dfy ===
/** `frontend/src/components/Results.jsx`: the results view. It keeps the
    results of the current mode, sums their sizes before and after, derives
    the overall savings, and collects the output filenames for the archive
    download. A missing number reads as `undefined`, which `|| 0` turns
    into 0. */
module Results {
  import opened Js
  import opened Media

  /** One processed output: its name on the server and its size. */
  datatype OutFile = OutFile(filename: string, size: Option<nat>)

  /** One row of `results`: image rows carry `processedFiles`, video rows a
      single `filename` and an `afterSize`; a failed file carries neither. */
  datatype Row = Row(beforeSize: Option<nat>, afterSize: Option<nat>,
                     processedFiles: Option<seq<OutFile>>, filename: Option<string>)

  /** `n || 0` for a size that may be missing. */
  function OrZero(n: Option<nat>): nat {
    match n
    case Some(v) => v
    case None => 0
  }

  // ---------------------------------------------------------------------
  // Mode filter

  predicate IsImageRow(r: Row) { r.processedFiles.Some? }

  predicate IsVideoRow(r: Row) { r.processedFiles.None? }

  /** `filteredResults`: in `images` mode the rows with `processedFiles`,
      in any other mode the rows without. */
  function ForMode(rows: seq<Row>, mode: string): (r: seq<Row>)
    ensures forall x :: x in r <==> x in rows && (if mode == "images" then IsImageRow(x) else IsVideoRow(x))
  {
    var keep := if mode == "images" then IsImageRow else IsVideoRow;
    forall x ensures x in Filter(rows, keep) <==> x in rows && keep(x) {
      FilterMembers(rows, keep, x);
    }
    Filter(rows, keep)
  }

  // ---------------------------------------------------------------------
  // Totals

  /** `filteredResults.reduce((sum, r) => sum + (r.beforeSize || 0), 0)`. */
  function TotalBefore(rows: seq<Row>): nat {
    if rows == [] then 0 else TotalBefore(rows[..|rows| - 1]) + OrZero(rows[|rows| - 1].beforeSize)
  }

  /** The inner `reduce` over one row's outputs. */
  function OutputsSize(files: seq<OutFile>): nat {
    if files == [] then 0 else OutputsSize(files[..|files| - 1]) + OrZero(files[|files| - 1].size)
  }

  /** What a row contributes after processing: the sizes of its outputs
      when it has `processedFiles`, otherwise its `afterSize`. */
  function RowAfter(r: Row): nat {
    match r.processedFiles
    case Some(files) => OutputsSize(files)
    case None => OrZero(r.afterSize)
  }

  function TotalAfter(rows: seq<Row>): nat {
    if rows == [] then 0 else TotalAfter(rows[..|rows| - 1]) + RowAfter(rows[|rows| - 1])
  }

  /** `totalSavings`: the plain number 0 when nothing was measured before,
      otherwise the exact percentage `100 * (before - after) / before`. */
  function TotalSavings(before: nat, after: nat): (s: Savings)
    ensures s.Percent? && s.base > 0
    ensures before == 0 ==> s.gain == 0
    ensures before > 0 ==> s == Unclamped(before, after)
    ensures s.gain < 0 <==> after > before > 0
  {
    if before > 0 then Percent(before - after, before) else Percent(0, 1)
  }

  /** The totals of two lists of rows add up. */
  lemma {:induction false} TotalsAppend(a: seq<Row>, b: seq<Row>)
    ensures TotalBefore(a + b) == TotalBefore(a) + TotalBefore(b)
    ensures TotalAfter(a + b) == TotalAfter(a) + TotalAfter(b)
  {
    if b != [] {
      var init := b[..|b| - 1];
      TotalsAppend(a, init);
      assert (a + b)[..|a + b| - 1] == a + init;
      assert (a + b)[|a + b| - 1] == b[|b| - 1];
    } else {
      assert a + b == a;
    }
  }

  /** The image rows and the video rows split the totals of all rows: every
      row is counted in exactly one of the two views. */
  lemma {:induction false} ModesSplitTotals(rows: seq<Row>)
    ensures TotalBefore(ForMode(rows, "images")) + TotalBefore(ForMode(rows, "video")) == TotalBefore(rows)
    ensures TotalAfter(ForMode(rows, "images")) + TotalAfter(ForMode(rows, "video")) == TotalAfter(rows)
  {
    SplitTotals(rows);
  }

  lemma {:induction false} SplitTotals(rows: seq<Row>)
    ensures TotalBefore(Filter(rows, IsImageRow)) + TotalBefore(Filter(rows, IsVideoRow)) == TotalBefore(rows)
    ensures TotalAfter(Filter(rows, IsImageRow)) + TotalAfter(Filter(rows, IsVideoRow)) == TotalAfter(rows)
  {
    if rows != [] {
      var init := rows[..|rows| - 1];
      var x := rows[|rows| - 1];
      SplitTotals(init);
      var img := if IsImageRow(x) then [x] else [];
      var vid := if IsVideoRow(x) then [x] else [];
      assert Filter(rows, IsImageRow) == Filter(init, IsImageRow) + img;
      assert Filter(rows, IsVideoRow) == Filter(init, IsVideoRow) + vid;
      TotalsAppend(Filter(init, IsImageRow), img);
      TotalsAppend(Filter(init, IsVideoRow), vid);
      assert [x][..0] == [];
    }
  }

  // ---------------------------------------------------------------------
  // Archive filenames

  /** What one row adds to the archive list: the names of its outputs, in
      order, or its own `filename` when it has no outputs and the name is
      not empty. */
  function RowFilenames(r: Row): (names: seq<string>)
    ensures r.processedFiles.Some? ==> |names| == |r.processedFiles.value|
    ensures r.processedFiles.Some? ==> forall j :: 0 <= j < |names| ==> names[j] == r.processedFiles.value[j].filename
    ensures r.processedFiles.None? ==> names == (if r.filename.Some? && r.filename.value != "" then [r.filename.value] else [])
  {
    match r.processedFiles
    case Some(files) => seq(|files|, j requires 0 <= j < |files| => files[j].filename)
    case None => if r.filename.Some? && r.filename.value != "" then [r.filename.value] else []
  }

  /** The archive list: the rows' contributions, concatenated in order. */
  function Filenames(rows: seq<Row>): seq<string> {
    if rows == [] then [] else Filenames(rows[..|rows| - 1]) + RowFilenames(rows[|rows| - 1])
  }

  /** The collection loop of `handleDownloadAll`, pushing one name at a time. */
  method CollectFilenames(rows: seq<Row>) returns (filenames: seq<string>)
    ensures filenames == Filenames(rows)
  {
    filenames := [];
    for i := 0 to |rows|
      invariant filenames == Filenames(rows[..i])
    {
      var r := rows[i];
      assert rows[..i + 1][..i] == rows[..i];
      if r.processedFiles.Some? {
        var files := r.processedFiles.value;
        ghost var start := filenames;
        for j := 0 to |files|
          invariant filenames == start + RowFilenames(r)[..j]
        {
          assert RowFilenames(r)[..j + 1] == RowFilenames(r)[..j] + [files[j].filename];
          filenames := filenames + [files[j].filename];
        }
        assert RowFilenames(r)[..|files|] == RowFilenames(r);
      } else if r.filename.Some? && r.filename.value != "" {
        filenames := filenames + [r.filename.value];
      }
    }
    assert rows[..|rows|] == rows;
  }

  /** `handleDownloadAll` up to the request: the names to archive, or
      `None` when there are none and no request is made. */
  method DownloadAllRequest(rows: seq<Row>) returns (request: Option<seq<string>>)
    ensures request == if Filenames(rows) == [] then None else Some(Filenames(rows))
  {
    var filenames := CollectFilenames(rows);
    if |filenames| == 0 {
      return None;
    }
    return Some(filenames);
  }

  /** The archive list names exactly the outputs of the image rows and the
      non-empty filenames of the other rows. */
  lemma {:induction false} FilenamesMembers(rows: seq<Row>, name: string)
    ensures name in Filenames(rows) <==> exists r :: r in rows && name in RowFilenames(r)
  {
    if rows != [] {
      var init := rows[..|rows| - 1];
      var last := rows[|rows| - 1];
      FilenamesMembers(init, name);
      assert rows == init + [last];
      assert Filenames(rows) == Filenames(init) + RowFilenames(last);
      assert forall r :: r in rows <==> r in init || r == last;
    }
  }

  /** The list has one name per output of each image row and at most one
      per other row. */
  lemma {:induction false} FilenamesLength(rows: seq<Row>)
    ensures |Filenames(rows)| <= TotalOutputs(rows) + |rows|
  {
    if rows != [] {
      FilenamesLength(rows[..|rows| - 1]);
    }
  }

  /** The number of outputs the image rows list. */
  function TotalOutputs(rows: seq<Row>): nat {
    if rows == [] then 0 else TotalOutputs(rows[..|rows| - 1]) + OutputCount(rows[|rows| - 1])
  }

  function OutputCount(r: Row): nat {
    match r.processedFiles
    case Some(files) => |files|
    case None => 0
  }

  // ---------------------------------------------------------------------
  // Rendering

  /** The view renders unless no row of the mode remains and processing is
      over. */
  predicate Renders(rows: seq<Row>, mode: string, processing: bool) {
    |ForMode(rows, mode)| > 0 || processing
  }

  /** When the view is hidden there is nothing it could have shown: the
      totals are zero and the archive list is empty. */
  lemma HiddenMeansEmpty(rows: seq<Row>, mode: string, processing: bool)
    ensures !Renders(rows, mode, processing) ==>
      var shown := ForMode(rows, mode);
      TotalBefore(shown) == 0 && TotalAfter(shown) == 0 && Filenames(shown) == []
  {
  }
}

=== FILE: security_content.dfy ===
/** Content validation of `backend/app/utils/security.js` (`validateFileType`):
    an SVG is screened as text for a root marker and for dangerous content;
    any other file is judged by the MIME type sniffed from its leading bytes. */
module ContentValidation {
  import opened Js
  import opened FilenameSafety
  import Media

  const AllowedImageMimes: seq<string> :=
    ["image/jpeg", "image/png", "image/gif", "image/webp", "image/avif", "image/bmp", "image/tiff", "image/svg+xml"]

  const AllowedVideoMimes: seq<string> :=
    ["video/mp4", "video/webm", "video/quicktime", "video/x-matroska", "video/x-msvideo",
     "video/x-flv", "video/x-ms-wmv", "video/x-m4v"]

  /** A staged upload as the validator sees it, one field per call that
      touches the file: the message `fs.access` throws, if it throws (an
      absent file gives ENOENT, an unreadable one EACCES); what reading it as
      UTF-8 gives, which only the `.svg` branch asks for; and what content
      sniffing gives, a MIME type or none, which only the other branch asks
      for. Either of the last two may throw (EISDIR, EACCES, ...). */
  datatype StagedFile = StagedFile(
    path: string,
    accessError: Option<string>,
    text: Media.Attempt<string>,
    sniffed: Media.Attempt<Option<string>>)

  datatype TypeCheck = TypeCheck(valid: bool, detectedType: Option<string>, error: Option<string>)

  // ---------------------------------------------------------------------
  // The five dangerous SVG patterns, all case-insensitive

  datatype SvgPattern =
    | ScriptTag       // /<script[\s>]/i
    | JavascriptUri   // /javascript:/i
    | EventHandler    // /on\w+\s*=/i
    | ForeignObject   // /<foreignObject/i
    | ExternalRef     // /xlink:href\s*=\s*["'](?!#)/i

  const SvgDangerousPatterns: seq<SvgPattern> :=
    [ScriptTag, JavascriptUri, EventHandler, ForeignObject, ExternalRef]

  /** `word` occurs at `i`, ignoring the case of ASCII letters (`word` is lower case). */
  predicate WordAt(t: string, word: string, i: int) {
    0 <= i && i + |word| <= |t| && Lower(t[i..i + |word|]) == word
  }

  predicate AllWord(s: string) { forall i :: 0 <= i < |s| ==> IsWordChar(s[i]) }

  predicate AllSpace(s: string) { forall i :: 0 <= i < |s| ==> IsSpace(s[i]) }

  /** `on`, word characters `t[i+2..j]` (at least one), spaces `t[j..k]`, then `=` at `k`. */
  predicate HandlerShape(t: string, i: int, j: int, k: int) {
    0 <= i && i + 2 < j <= k < |t| && AllWord(t[i + 2..j]) && AllSpace(t[j..k]) && t[k] == '='
  }

  /** After `xlink:href` at `i`, ending at `s`: spaces up to `=` at `j`, spaces up to
      a quote at `k`, and the quote not followed by `#`. */
  predicate RefShape(t: string, i: int, j: int, k: int) {
    var s := i + 10;
    0 <= s <= j < k < |t| && AllSpace(t[s..j]) && t[j] == '='
    && AllSpace(t[j + 1..k]) && (t[k] == '"' || t[k] == '\'')
    && (k + 1 == |t| || t[k + 1] != '#')
  }

  /** The pattern matches starting at index `i`. */
  predicate MatchesAt(p: SvgPattern, t: string, i: int) {
    match p
    case ScriptTag => WordAt(t, "<script", i) && i + 7 < |t| && (IsSpace(t[i + 7]) || t[i + 7] == '>')
    case JavascriptUri => WordAt(t, "javascript:", i)
    case EventHandler =>
      WordAt(t, "on", i) && exists j, k | i + 2 < j <= k < |t| :: HandlerShape(t, i, j, k)
    case ForeignObject => WordAt(t, "<foreignobject", i)
    case ExternalRef =>
      WordAt(t, "xlink:href", i) && exists j, k | i + 10 <= j < k < |t| :: RefShape(t, i, j, k)
  }

  /** `pattern.test(content)`. */
  predicate Matches(p: SvgPattern, t: string) {
    exists i | 0 <= i < |t| :: MatchesAt(p, t, i)
  }

  predicate AnyDangerous(t: string) {
    exists n | 0 <= n < |SvgDangerousPatterns| :: Matches(SvgDangerousPatterns[n], t)
  }

  /** The root check: the trimmed, lower-cased text starts with `<?xml` or
      `<svg`, or contains `<svg` anywhere. */
  predicate HasSvgRoot(content: string) {
    var t := Lower(Trim(content));
    StartsWith(t, "<?xml") || StartsWith(t, "<svg") || Includes(t, "<svg")
  }

  /** The `catch` of validateFileType: whatever the file calls throw is
      reported with its message and no detected type. */
  function Thrown(message: string): TypeCheck {
    TypeCheck(false, None, Some("Validation error: " + message))
  }

  /** The message Node gives when `fs.access` finds no file. */
  function NoSuchFile(path: string): string {
    "ENOENT: no such file or directory, access '" + path + "'"
  }

  const SvgForImagesOnly: TypeCheck :=
    TypeCheck(false, Some("svg"), Some("SVG files are only allowed for image processing"))

  predicate IsSvgPath(path: string) { Lower(Extname(path)) == ".svg" }

  /** The verdict validateFileType reaches, stated without its loop. */
  function FileTypeVerdict(file: StagedFile, kind: Kind): TypeCheck {
    if file.accessError.Some? then Thrown(file.accessError.value)
    else if IsSvgPath(file.path) then
      if kind != ImageKind then SvgForImagesOnly
      else if file.text.Failed? then Thrown(file.text.message)
      else SvgVerdict(file.text.value, kind)
    else if file.sniffed.Failed? then Thrown(file.sniffed.message)
    else SniffedVerdict(file.sniffed.value, kind)
  }

  /** The SVG branch: only for images, root marker required, no dangerous content. */
  function SvgVerdict(content: string, kind: Kind): TypeCheck {
    if kind != ImageKind then SvgForImagesOnly
    else if !HasSvgRoot(content) then
      TypeCheck(false, None, Some("Invalid SVG file format"))
    else if AnyDangerous(content) then
      TypeCheck(false, Some("svg"), Some("SVG contains potentially dangerous content"))
    else TypeCheck(true, Some("image/svg+xml"), None)
  }

  /** The binary branch: the sniffed MIME type against the kind's allow-list. */
  function SniffedVerdict(sniffed: Option<string>, kind: Kind): TypeCheck {
    match sniffed
    case None => TypeCheck(false, None, Some("Unable to determine file type"))
    case Some(mime) =>
      match kind
      case ImageKind =>
        if mime in AllowedImageMimes then TypeCheck(true, Some(mime), None)
        else TypeCheck(false, Some(mime), Some("File type " + mime + " is not an allowed image format"))
      case VideoKind =>
        if mime in AllowedVideoMimes then TypeCheck(true, Some(mime), None)
        else TypeCheck(false, Some(mime), Some("File type " + mime + " is not an allowed video format"))
      case OtherKind => TypeCheck(false, Some(mime), Some("Unknown validation type"))
  }

  /** The screening loop of validateFileType: the dangerous patterns are
      tried in order and the first that matches ends the search. */
  method ScreenSvg(content: string) returns (dangerous: bool)
    ensures dangerous <==> AnyDangerous(content)
  {
    for n := 0 to |SvgDangerousPatterns|
      invariant forall m :: 0 <= m < n ==> !Matches(SvgDangerousPatterns[m], content)
    {
      if Matches(SvgDangerousPatterns[n], content) {
        return true;
      }
    }
    return false;
  }

  /** validateFileType. */
  method ValidateFileType(file: StagedFile, kind: Kind) returns (r: TypeCheck)
    ensures r == FileTypeVerdict(file, kind)
  {
    if file.accessError.Some? {
      return Thrown(file.accessError.value);
    }
    var ext := Lower(Extname(file.path));
    if ext == ".svg" {
      if kind != ImageKind {
        return SvgForImagesOnly;
      }
      if file.text.Failed? {
        return Thrown(file.text.message);
      }
      r := ValidateSvg(file.text.value, kind);
      return;
    }
    if file.sniffed.Failed? {
      return Thrown(file.sniffed.message);
    }
    return SniffedVerdict(file.sniffed.value, kind);
  }

  /** The SVG branch of validateFileType. */
  method ValidateSvg(content: string, kind: Kind) returns (r: TypeCheck)
    ensures r == SvgVerdict(content, kind)
  {
    if kind != ImageKind {
      return SvgForImagesOnly;
    }
    if HasSvgRoot(content) {
      var dangerous := ScreenSvg(content);
      if dangerous {
        return TypeCheck(false, Some("svg"), Some("SVG contains potentially dangerous content"));
      }
      return TypeCheck(true, Some("image/svg+xml"), None);
    }
    return TypeCheck(false, None, Some("Invalid SVG file format"));
  }

  // ---------------------------------------------------------------------
  // Properties of the verdict

  /** Whether one of the calls validateFileType makes on this file throws,
      and the message of the first that does. */
  function FirstThrow(file: StagedFile, kind: Kind): Option<string> {
    if file.accessError.Some? then file.accessError
    else if IsSvgPath(file.path) then
      if kind == ImageKind && file.text.Failed? then Some(file.text.message) else None
    else if file.sniffed.Failed? then Some(file.sniffed.message)
    else None
  }

  /** A file passes exactly when every call on it succeeds and either it is
      an SVG sent for image processing with a root marker and none of the
      five dangerous patterns, or it is a binary whose sniffed MIME type is
      in the allow-list of the claimed kind. A call that throws rejects the
      file with its message and no detected type. A valid verdict never
      carries an error and an invalid one always does. */
  lemma FileTypeVerdictValid(file: StagedFile, kind: Kind)
    ensures var r := FileTypeVerdict(file, kind);
      && (r.valid <==> r.error.None?)
      && (FirstThrow(file, kind).Some? ==>
            r == TypeCheck(false, None, Some("Validation error: " + FirstThrow(file, kind).value)))
      && (r.valid <==>
            FirstThrow(file, kind).None? &&
            if IsSvgPath(file.path)
            then kind == ImageKind && HasSvgRoot(file.text.value) && !AnyDangerous(file.text.value)
            else file.sniffed.value.Some? &&
                 ((kind == ImageKind && file.sniffed.value.value in AllowedImageMimes) ||
                  (kind == VideoKind && file.sniffed.value.value in AllowedVideoMimes)))
  {
    var r := FileTypeVerdict(file, kind);
    if file.accessError.Some? {
      assert r == Thrown(file.accessError.value);
    } else if IsSvgPath(file.path) {
      if kind != ImageKind {
        assert r == SvgForImagesOnly;
      } else if file.text.Failed? {
        assert r == Thrown(file.text.message);
      } else {
        assert r == SvgVerdict(file.text.value, kind);
        SvgVerdictValid(file.text.value, kind);
      }
    } else if file.sniffed.Failed? {
      assert r == Thrown(file.sniffed.message);
    } else {
      assert r == SniffedVerdict(file.sniffed.value, kind);
      SniffedVerdictValid(file.sniffed.value, kind);
    }
  }

  /** A missing file is rejected with Node's ENOENT message, whatever its
      name and claimed kind. */
  lemma MissingFileRejected(file: StagedFile, kind: Kind)
    requires file.accessError == Some(NoSuchFile(file.path))
    ensures var r := FileTypeVerdict(file, kind);
      && !r.valid && r.detectedType.None?
      && r.error == Some("Validation error: " + "ENOENT: no such file or directory, access '" + file.path + "'")
  {
    var a, b, c := "Validation error: ", "ENOENT: no such file or directory, access '", file.path;
    assert a + (b + c + "'") == a + b + c + "'";
  }

  lemma SvgVerdictValid(content: string, kind: Kind)
    ensures var r := SvgVerdict(content, kind);
      && (r.valid <==> r.error.None?)
      && (r.valid <==> kind == ImageKind && HasSvgRoot(content) && !AnyDangerous(content))
  {
  }

  lemma SniffedVerdictValid(sniffed: Option<string>, kind: Kind)
    ensures var r := SniffedVerdict(sniffed, kind);
      && (r.valid <==> r.error.None?)
      && (r.valid <==> sniffed.Some? &&
                       ((kind == ImageKind && sniffed.value in AllowedImageMimes) ||
                        (kind == VideoKind && sniffed.value in AllowedVideoMimes)))
      && (sniffed.Some? ==> r.detectedType == sniffed)
  {
  }

  /** An SVG is never accepted for video processing, whatever it holds. */
  lemma SvgOnlyForImages(file: StagedFile)
    requires IsSvgPath(file.path)
    ensures !FileTypeVerdict(file, VideoKind).valid
    ensures file.accessError.None? ==> FileTypeVerdict(file, VideoKind).detectedType == Some("svg")
  {
  }

  /** Any SVG whose text contains `<script` followed by `>` or white space
      is rejected. */
  lemma ScriptTagRejected(content: string, i: nat, kind: Kind)
    requires i + 7 < |content| && Lower(content[i..i + 7]) == "<script"
    requires content[i + 7] == '>' || IsSpace(content[i + 7])
    ensures !SvgVerdict(content, kind).valid
  {
    assert MatchesAt(ScriptTag, content, i);
    assert Matches(SvgDangerousPatterns[0], content);
    SvgVerdictValid(content, kind);
  }

  /** An `xlink:href` whose quoted value does not start with `#` is an
      external reference and makes the SVG invalid. */
  lemma ExternalReferenceRejected(content: string, i: nat, kind: Kind)
    requires i + 12 <= |content|
    requires Lower(content[i..i + 10]) == "xlink:href"
    requires content[i + 10] == '=' && content[i + 11] == '"'
    requires i + 12 == |content| || content[i + 12] != '#'
    ensures !SvgVerdict(content, kind).valid
  {
    assert RefShape(content, i, i + 10, i + 11);
    assert MatchesAt(ExternalRef, content, i);
    assert Matches(SvgDangerousPatterns[4], content);
    SvgVerdictValid(content, kind);
  }

  /** After `xlink:href` at `i`: spaces up to `=` at `j`, spaces up to a
      quote at `k`, and `#` right after the quote. */
  predicate FragmentShape(t: string, i: int, j: int, k: int) {
    var s := i + 10;
    0 <= s <= j < k && k + 1 < |t| && AllSpace(t[s..j]) && t[j] == '='
    && AllSpace(t[j + 1..k]) && (t[k] == '"' || t[k] == '\'') && t[k + 1] == '#'
  }

  /** References to fragments of the same document are not external: when
      every `xlink:href` in the text is followed by `=` and a quoted value
      starting with `#`, the external-reference pattern finds nothing. */
  lemma FragmentReferenceAllowed(t: string)
    requires forall i | 0 <= i < |t| && WordAt(t, "xlink:href", i) :: exists j, k :: FragmentShape(t, i, j, k)
    ensures !Matches(ExternalRef, t)
  {
    forall i | 0 <= i < |t| ensures !MatchesAt(ExternalRef, t, i) {
      if WordAt(t, "xlink:href", i) {
        var j, k :| FragmentShape(t, i, j, k);
        forall j', k' | i + 10 <= j' < k' < |t| ensures !RefShape(t, i, j', k') {
          FragmentOnly(t, i, j, k, j', k');
        }
      }
    }
  }

  /** Spaces, `=`, spaces and a quote fix the positions of `=` and the
      quote, so a fragment reference leaves the pattern no other reading. */
  lemma FragmentOnly(t: string, i: int, j: int, k: int, j': int, k': int)
    requires FragmentShape(t, i, j, k)
    ensures !RefShape(t, i, j', k')
  {
    var s := i + 10;
    if s <= j' < j {
      assert t[s..j][j' - s] == t[j'];
    } else if j < j' < |t| {
      FirstNonSpace(t, s, j, j');
    } else if j' == j && j + 1 <= k' < k {
      assert t[j + 1..k][k' - j - 1] == t[k'];
    } else if j' == j && k < k' < |t| {
      FirstNonSpace(t, j + 1, k, k');
    }
  }

  /** A text whose character at `j` is not a space has no run of spaces
      from `s` past `j`. */
  lemma FirstNonSpace(t: string, s: int, j: int, j': int)
    requires 0 <= s <= j < j' <= |t| && !IsSpace(t[j])
    ensures !AllSpace(t[s..j'])
  {
    assert t[s..j'][j - s] == t[j];
  }
}

=== FILE: security_filename.dfy ===
/** The filename gates and repairs of `backend/app/utils/security.js`:
    `sanitizeFilename` (repair), `isPathTraversalSafe` and `isWithinDirectory`
    (reject-only gates), `validateExtension` (extension allow-list) and
    `generateSecureFilename` (sanitised name plus timestamp and random suffix). */
module FilenameSafety {
  import opened Js

  const MaxFilenameLength: nat := 200

  const AllowedImageExtensions: seq<string> :=
    [".jpg", ".jpeg", ".png", ".gif", ".webp", ".avif", ".bmp", ".tiff", ".tif", ".svg"]

  const AllowedVideoExtensions: seq<string> :=
    [".mp4", ".webm", ".mov", ".mkv", ".avi", ".flv", ".wmv", ".m4v"]

  /** The `type` argument of the validators: 'image', 'video' or anything else. */
  datatype Kind = ImageKind | VideoKind | OtherKind

  // ---------------------------------------------------------------------
  // sanitizeFilename

  /** The eight regular expressions of DANGEROUS_PATTERNS, in their order. */
  datatype Pattern =
    | NulBytes          // /\x00/g
    | DotDot            // /\.\./g
    | WindowsForbidden  // /[<>:"|?*]/g
    | ControlChars      // /[\x00-\x1f]/g
    | LeadingDots       // /^\.+/
    | TrailingDots      // /\.+$/
    | TrailingSpace     // /\s+$/
    | LeadingSpace      // /^\s+/

  const DangerousPatterns: seq<Pattern> :=
    [NulBytes, DotDot, WindowsForbidden, ControlChars, LeadingDots, TrailingDots, TrailingSpace, LeadingSpace]

  /** Characters that survive the final allow-list `[a-zA-Z0-9_\-]`. */
  predicate IsSafeChar(c: char) {
    IsAsciiLetter(c) || IsDigit(c) || c == '_' || c == '-'
  }

  predicate IsWindowsForbidden(c: char) {
    c == '<' || c == '>' || c == ':' || c == '"' || c == '|' || c == '?' || c == '*'
  }

  predicate IsControl(c: char) { c as int < 0x20 }

  function Filter(s: string, keep: char -> bool): (r: string)
    ensures |r| <= |s|
    ensures forall i :: 0 <= i < |r| ==> keep(r[i])
    ensures forall c :: c in r ==> c in s
  {
    if s == [] then [] else (if keep(s[0]) then [s[0]] else []) + Filter(s[1..], keep)
  }

  /** A global replace of `..` by nothing, scanning left to right. */
  function RemoveDotDot(s: string): (r: string)
    ensures |r| <= |s|
  {
    if |s| >= 2 && s[0] == '.' && s[1] == '.' then RemoveDotDot(s[2..])
    else if s == [] then []
    else [s[0]] + RemoveDotDot(s[1..])
  }

  function DropLeadingDots(s: string): (r: string)
    ensures |r| <= |s|
  {
    if s != [] && s[0] == '.' then DropLeadingDots(s[1..]) else s
  }

  function DropTrailingDots(s: string): (r: string)
    ensures |r| <= |s|
  {
    if s != [] && s[|s| - 1] == '.' then DropTrailingDots(s[..|s| - 1]) else s
  }

  /** One `baseName.replace(pattern, '')`. */
  function ApplyPattern(p: Pattern, s: string): string {
    match p
    case NulBytes => Filter(s, c => c as int != 0)
    case DotDot => RemoveDotDot(s)
    case WindowsForbidden => Filter(s, c => !IsWindowsForbidden(c))
    case ControlChars => Filter(s, c => !IsControl(c))
    case LeadingDots => DropLeadingDots(s)
    case TrailingDots => DropTrailingDots(s)
    case TrailingSpace => TrimEnd(s)
    case LeadingSpace => TrimStart(s)
  }

  /** The patterns `ps` applied one after the other, first to last. */
  function ApplyPatterns(ps: seq<Pattern>, s: string): string {
    if ps == [] then s else ApplyPattern(ps[|ps| - 1], ApplyPatterns(ps[..|ps| - 1], s))
  }

  /** `replace(/\s+/g, '_')`: every run of white space becomes one underscore. */
  function SpacesToUnderscore(s: string): string
    decreases |s|
  {
    if s == [] then []
    else if IsSpace(s[0]) then "_" + SpacesToUnderscore(TrimStart(s[1..]))
    else [s[0]] + SpacesToUnderscore(s[1..])
  }

  /** The base name as the source derives it: `path.basename(filename, ext)`
      with the extension already lower-cased. */
  function StemOf(name: string): string {
    Basename(name, Lower(Extname(name)))
  }

  /** The base-name pipeline: patterns, underscores, allow-list, the `file`
      fallback and truncation to 200 characters. */
  function CleanBase(stem: string): string {
    var kept := Filter(SpacesToUnderscore(ApplyPatterns(DangerousPatterns, stem)), IsSafeChar);
    var named := if kept == [] then "file" else kept;
    if |named| > MaxFilenameLength then named[..MaxFilenameLength] else named
  }

  predicate IsNonEmptyString(v: Value) { v.Str? && v.s != "" }

  /** The two parts sanitizeFilename joins: the cleaned base and the
      lower-cased extension (empty, and base `unnamed`, for a non-string or
      empty input). */
  function SanitizedBase(filename: Value): string {
    if IsNonEmptyString(filename) then CleanBase(StemOf(filename.s)) else "unnamed"
  }

  function SanitizedExt(filename: Value): string {
    if IsNonEmptyString(filename) then Lower(Extname(filename.s)) else ""
  }

  /** Every character is one the final allow-list keeps. */
  predicate AllSafe(s: string) {
    forall i :: 0 <= i < |s| ==> IsSafeChar(s[i])
  }

  predicate ValidBase(b: string) {
    b != [] && |b| <= MaxFilenameLength && AllSafe(b)
  }

  /** An extension with only allow-listed characters after its dot. */
  predicate SafeExt(ext: string) {
    ext == [] || (ext[0] == '.' && AllSafe(ext[1..]))
  }

  /** The cleaned base is never empty, is at most 200 characters and holds
      only letters, digits, `_` and `-`. */
  lemma CleanBaseIsValid(stem: string)
    ensures ValidBase(CleanBase(stem))
  {
    var kept := Filter(SpacesToUnderscore(ApplyPatterns(DangerousPatterns, stem)), IsSafeChar);
    var named := if kept == [] then "file" else kept;
    assert AllSafe(named);
  }

  lemma SanitizedBaseIsValid(filename: Value)
    ensures ValidBase(SanitizedBase(filename))
  {
    if IsNonEmptyString(filename) {
      CleanBaseIsValid(StemOf(filename.s));
    }
  }

  /** sanitizeFilename: the dangerous patterns are applied in a loop, then the
      base is restricted and joined to the lower-cased, unfiltered extension. */
  method SanitizeFilename(filename: Value) returns (r: string)
    ensures !IsNonEmptyString(filename) ==> r == "unnamed"
    ensures r == SanitizedBase(filename) + SanitizedExt(filename)
    ensures ValidBase(SanitizedBase(filename))
  {
    SanitizedBaseIsValid(filename);
    if !IsNonEmptyString(filename) {
      return "unnamed";
    }
    var name := filename.s;
    var ext := Lower(Extname(name));
    var baseName := StripDangerous(Basename(name, ext));
    baseName := SpacesToUnderscore(baseName);
    baseName := Filter(baseName, IsSafeChar);
    if baseName == [] {
      baseName := "file";
    }
    if |baseName| > MaxFilenameLength {
      baseName := baseName[..MaxFilenameLength];
    }
    r := baseName + ext;
  }

  /** The pattern loop of sanitizeFilename: each dangerous pattern replaced
      in turn. */
  method StripDangerous(stem: string) returns (b: string)
    ensures b == ApplyPatterns(DangerousPatterns, stem)
  {
    b := stem;
    for i := 0 to |DangerousPatterns|
      invariant b == ApplyPatterns(DangerousPatterns[..i], stem)
    {
      assert DangerousPatterns[..i + 1][..i] == DangerousPatterns[..i];
      b := ApplyPattern(DangerousPatterns[i], b);
    }
    assert DangerousPatterns[..|DangerousPatterns|] == DangerousPatterns;
  }

  // ---------------------------------------------------------------------
  // Re-splitting a sanitised name

  /** A name made of a valid base and an extension taken from `path.extname`
      splits back, under `path.extname` and `path.basename`, into exactly
      that base and extension. */
  lemma SplitJoined(base: string, ext: string)
    requires ValidBase(base)
    requires ext == [] || (ext[0] == '.' && '.' !in ext[1..])
    requires '/' !in ext
    ensures Extname(base + ext) == ext
    ensures Basename(base + ext, ext) == base
  {
    SafeIsDotFree(base);
    ExtnameOfDotFree(base, ext);
    NoSlashJoined(base, ext);
    var name := base + ext;
    assert LastComponent(name) == name;
    assert name[|base|..] == ext;
    assert ext != name by {
      assert |name| > |ext|;
    }
  }

  lemma NoSlashJoined(stem: string, ext: string)
    requires DotFree(stem) && '/' !in ext
    ensures '/' !in stem + ext
  {
    var name := stem + ext;
    forall i | 0 <= i < |name| ensures name[i] != '/' {
      if i < |stem| { assert name[i] == stem[i]; } else { assert name[i] == ext[i - |stem|]; }
    }
  }

  lemma LastIndexOfAt(s: string, c: char, k: nat)
    requires k < |s| && s[k] == c && c !in s[k + 1..]
    ensures LastIndexOf(s, c) == Some(k)
  {
  }

  /** The sanitised name's extension, as `path.extname` reads it, is the
      extension sanitizeFilename attached, and its base is the cleaned base. */
  lemma SanitizedNameSplits(filename: Value)
    ensures Extname(SanitizedBase(filename) + SanitizedExt(filename)) == SanitizedExt(filename)
    ensures Lower(SanitizedExt(filename)) == SanitizedExt(filename)
    ensures Basename(SanitizedBase(filename) + SanitizedExt(filename), SanitizedExt(filename))
         == SanitizedBase(filename)
  {
    SanitizedBaseIsValid(filename);
    var ext := SanitizedExt(filename);
    if IsNonEmptyString(filename) {
      var e := Extname(filename.s);
      LowerKeepsDotShape(e);
    }
    SplitJoined(SanitizedBase(filename), ext);
  }

  lemma LowerKeepsDotShape(e: string)
    requires e == [] || (e[0] == '.' && '.' !in e[1..])
    requires '/' !in e
    ensures var l := Lower(e); (l == [] || (l[0] == '.' && '.' !in l[1..])) && '/' !in l
    ensures Lower(Lower(e)) == Lower(e)
  {
    var l := Lower(e);
    forall i | 0 <= i < |e| ensures (l[i] == '.' <==> e[i] == '.') && (l[i] == '/' <==> e[i] == '/') {
    }
    if l != [] {
      assert forall i :: 1 <= i < |e| ==> e[i] == e[1..][i - 1];
    }
  }

  // ---------------------------------------------------------------------
  // generateSecureFilename

  /** generateSecureFilename, with `Date.now()` and `Math.floor(Math.random() * 1e9)`
      passed in: `<base>-<timestamp>-<random in base 36><ext>`, where base and
      ext are exactly the two parts sanitizeFilename produced. While the
      timestamp is below `10^21` its text has no dot, so `path.extname` of
      the result is that ext. */
  method GenerateSecureFilename(originalName: Value, timestamp: nat, random: nat) returns (r: string)
    requires random < 1_000_000_000
    ensures r == SanitizedBase(originalName) + "-" + IntToString(timestamp) + "-"
              + NatToRadix(random, 36) + SanitizedExt(originalName)
    ensures timestamp < ExponentFrom ==> Extname(r) == SanitizedExt(originalName)
  {
    var sanitized := SanitizeFilename(originalName);
    SanitizedNameSplits(originalName);
    var ext := Lower(Extname(sanitized));
    var baseName := Basename(sanitized, ext);
    r := baseName + "-" + IntToString(timestamp) + "-" + NatToRadix(random, 36) + ext;
    if timestamp < ExponentFrom {
      SecureNameExtension(originalName, timestamp, random);
    }
  }

  lemma SecureNameExtension(originalName: Value, timestamp: nat, random: nat)
    requires timestamp < ExponentFrom
    ensures Extname(SanitizedBase(originalName) + "-" + IntToString(timestamp) + "-"
              + NatToRadix(random, 36) + SanitizedExt(originalName)) == SanitizedExt(originalName)
  {
    var base := SanitizedBase(originalName);
    var stamp := IntToString(timestamp);
    var suffix := NatToRadix(random, 36);
    SanitizedBaseIsValid(originalName);
    SafeIsDotFree(base);
    RadixDigitsSafe(timestamp, 10);
    assert stamp == NatToRadix(timestamp, 10);
    SafeIsDotFree(stamp);
    RadixDigitsSafe(random, 36);
    SafeIsDotFree(suffix);
    assert DotFree("-");
    DotFreeAppend(base, "-");
    DotFreeAppend(base + "-", stamp);
    DotFreeAppend(base + "-" + stamp, "-");
    DotFreeAppend(base + "-" + stamp + "-", suffix);
    var ext := SanitizedExt(originalName);
    if IsNonEmptyString(originalName) {
      LowerKeepsDotShape(Extname(originalName.s));
    }
    ExtnameOfDotFree(base + "-" + stamp + "-" + suffix, ext);
  }

  /** No character is a dot or a slash. */
  predicate DotFree(s: string) {
    forall i :: 0 <= i < |s| ==> s[i] != '.' && s[i] != '/'
  }

  lemma SafeIsDotFree(s: string)
    requires AllSafe(s)
    ensures DotFree(s)
  {
    forall i | 0 <= i < |s| ensures s[i] != '.' && s[i] != '/' {
      assert IsSafeChar(s[i]);
    }
  }

  lemma DotFreeAppend(a: string, b: string)
    requires DotFree(a) && DotFree(b)
    ensures DotFree(a + b)
  {
    forall i | 0 <= i < |a + b| ensures (a + b)[i] != '.' && (a + b)[i] != '/' {
      if i < |a| { assert (a + b)[i] == a[i]; } else { assert (a + b)[i] == b[i - |a|]; }
    }
  }

  /** A digit of any radix up to 36 is a letter or a decimal digit. */
  lemma DigitCharSafe(d: nat)
    requires d < 36
    ensures IsSafeChar(DigitChar(d))
  {
  }

  lemma DivShrinks(n: nat, d: nat)
    requires 2 <= d <= n
    ensures n / d < n
  {
    var q := n / d;
    assert q * d <= n;
    assert q * d == q + q * (d - 1);
    assert q * (d - 1) >= q;
  }

  /** `n.toString(radix)` uses only letters and digits. */
  lemma {:induction false} RadixDigitsSafe(n: nat, radix: nat)
    requires 2 <= radix <= 36
    ensures AllSafe(NatToRadix(n, radix))
    decreases n
  {
    DigitCharSafe(n % radix);
    if n >= radix {
      DivShrinks(n, radix);
      RadixDigitsSafe(n / radix, radix);
      var init := NatToRadix(n / radix, radix);
      var last := DigitChar(n % radix);
      forall i | 0 <= i < |init + [last]| ensures IsSafeChar((init + [last])[i]) {
        if i < |init| { assert (init + [last])[i] == init[i]; }
      }
    } else {
      DigitCharSafe(n);
    }
  }

  /** The extension of `stem + ext`, for a stem with no dot or slash that
      does not start the name with a dot. */
  lemma ExtnameOfDotFree(stem: string, ext: string)
    requires stem != [] && DotFree(stem)
    requires ext == [] || (ext[0] == '.' && '.' !in ext[1..])
    requires '/' !in ext
    ensures Extname(stem + ext) == ext
  {
    var name := stem + ext;
    NoSlashJoined(stem, ext);
    assert LastComponent(name) == name;
    if ext == [] {
      assert name == stem;
      assert '.' !in name by {
        forall i | 0 <= i < |name| ensures name[i] != '.' { }
      }
    } else {
      var k := |stem|;
      assert name[k + 1..] == ext[1..];
      LastIndexOfAt(name, '.', k);
      assert name[0] == stem[0];
      assert name[k..] == ext;
    }
  }

  // ---------------------------------------------------------------------
  // isPathTraversalSafe

  /** `path.isAbsolute` on POSIX. */
  predicate IsAbsolute(p: string) { p != [] && p[0] == '/' }

  /** isPathTraversalSafe: a reject-only gate. The absolute-path and
      basename checks of the source never decide anything on POSIX, because
      a name without `/` is neither absolute nor has directory parts. */
  function IsPathTraversalSafe(filename: Value): (r: bool)
    ensures r <==> filename.Str? && filename.s != ""
                   && (0 as char) !in filename.s
                   && !Includes(filename.s, "..")
                   && '/' !in filename.s
                   && '\\' !in filename.s
  {
    if !IsNonEmptyString(filename) then false
    else
      var name := filename.s;
      if (0 as char) in name then false
      else if Includes(name, "..") || '/' in name || '\\' in name then false
      else if IsAbsolute(name) then false
      else if Basename(name, "") != name then false
      else true
  }

  /** A name containing `..`, a NUL, `/` or `\` never passes the gate. */
  lemma TraversalGateRejects(name: string, i: nat)
    requires i < |name|
    requires name[i] == 0 as char || name[i] == '/' || name[i] == '\\'
             || (i + 1 < |name| && name[i] == '.' && name[i + 1] == '.')
    ensures !IsPathTraversalSafe(Str(name))
  {
    if i + 1 < |name| && name[i] == '.' && name[i + 1] == '.' {
      assert OccursAt(name, "..", i);
    }
  }

  // ---------------------------------------------------------------------
  // isWithinDirectory

  /** `p.split('/')`. */
  function Split(p: string): (r: seq<string>)
    ensures |r| >= 1
    ensures forall i :: 0 <= i < |r| ==> '/' !in r[i]
  {
    match LastIndexOf(p, '/')
    case None => [p]
    case Some(k) => Split(p[..k]) + [p[k + 1..]]
  }

  /** One step of path normalisation: empty and `.` parts vanish, `..`
      removes the previous part (and stays at the root). */
  function NormalizeStep(acc: seq<string>, part: string): seq<string> {
    if part == "" || part == "." then acc
    else if part == ".." then (if acc == [] then [] else acc[..|acc| - 1])
    else acc + [part]
  }

  predicate IsSegment(s: string) { s != "" && '/' !in s }

  predicate AllSegments(segs: seq<string>) {
    forall i :: 0 <= i < |segs| ==> IsSegment(segs[i])
  }

  function Normalize(parts: seq<string>): (r: seq<string>)
    requires forall i :: 0 <= i < |parts| ==> '/' !in parts[i]
    ensures AllSegments(r)
  {
    if parts == [] then []
    else NormalizeStep(Normalize(parts[..|parts| - 1]), parts[|parts| - 1])
  }

  /** `path.resolve(p)` as a list of segments, with `process.cwd()` given. */
  function Resolve(p: string, cwd: string): (r: seq<string>)
    ensures AllSegments(r)
  {
    var parts := if IsAbsolute(p) then Split(p) else Split(cwd) + Split(p);
    Normalize(parts)
  }

  /** The text of a resolved path: `/` followed by the segments joined by `/`. */
  function Render(segs: seq<string>): string {
    "/" + Join(segs, "/")
  }

  predicate IsPrefix(d: seq<string>, p: seq<string>) {
    |d| <= |p| && p[..|d|] == d
  }

  /** isWithinDirectory: the resolved path equals the resolved directory or
      starts with it followed by the separator. */
  function IsWithinDirectory(filePath: string, allowedDir: string, cwd: string): bool {
    var resolvedPath := Render(Resolve(filePath, cwd));
    var resolvedDir := Render(Resolve(allowedDir, cwd));
    StartsWith(resolvedPath, resolvedDir + "/") || resolvedPath == resolvedDir
  }

  /** The string test is exactly segment containment: the file is inside the
      directory iff the directory's segments are a prefix of the file's, so
      `/up/uploads2/x` is not inside `/up/uploads`. When the directory
      resolves to the root, only the root itself passes, because `/` plus
      the separator is `//`. */
  lemma WithinDirectoryIsSegmentPrefix(filePath: string, allowedDir: string, cwd: string)
    ensures IsWithinDirectory(filePath, allowedDir, cwd)
        <==> (if Resolve(allowedDir, cwd) == [] then Resolve(filePath, cwd) == []
              else IsPrefix(Resolve(allowedDir, cwd), Resolve(filePath, cwd)))
  {
    var p := Resolve(filePath, cwd);
    var d := Resolve(allowedDir, cwd);
    var rp := Render(p);
    var rd := Render(d);
    if d == [] {
      assert rd == "/";
      if p != [] {
        assert rp != rd by { JoinHead(p); }
        assert !StartsWith(rp, "//") by {
          JoinHead(p);
          assert rp[1] == p[0][0];
        }
      }
    } else {
      if IsPrefix(d, p) {
        PrefixRenders(d, p);
      } else {
        if rp == rd {
          assert Join(p, "/") == Join(d, "/") by {
            assert rp[1..] == Join(p, "/") && rd[1..] == Join(d, "/");
          }
          JoinedPrefixIsSegmentPrefix(d, p);
        } else if StartsWith(rp, rd + "/") {
          assert StartsWith(Join(p, "/"), Join(d, "/") + "/") by {
            assert rp[..|rd + "/"|] == rd + "/";
            assert rp[1..][..|Join(d, "/") + "/"|] == (rd + "/")[1..];
          }
          JoinedPrefixIsSegmentPrefix(d, p);
        }
      }
    }
  }

  lemma JoinHead(p: seq<string>)
    requires p != [] && AllSegments(p)
    ensures |Join(p, "/")| >= 1 && Join(p, "/")[0] == p[0][0]
  {
    assert IsSegment(p[0]);
    if |p| > 1 {
      assert Join(p, "/") == p[0] + "/" + Join(p[1..], "/");
    }
  }

  lemma {:induction false} JoinAppend(d: seq<string>, e: seq<string>)
    requires d != [] && e != []
    ensures Join(d + e, "/") == Join(d, "/") + "/" + Join(e, "/")
    decreases |d|
  {
    if |d| == 1 {
      assert (d + e)[1..] == e;
    } else {
      JoinAppend(d[1..], e);
      assert (d + e)[1..] == d[1..] + e;
    }
  }

  lemma PrefixRenders(d: seq<string>, p: seq<string>)
    requires d != [] && IsPrefix(d, p)
    ensures Render(p) == Render(d) || StartsWith(Render(p), Render(d) + "/")
  {
    if |p| > |d| {
      var e := p[|d|..];
      assert p == d + e;
      JoinAppend(d, e);
      assert Render(p) == Render(d) + "/" + Join(e, "/");
    } else {
      assert p == d;
    }
  }

  /** If the joined text of `p` equals that of `d` or extends it at a
      separator, then `d` is a segment prefix of `p`. */
  lemma {:induction false} JoinedPrefixIsSegmentPrefix(d: seq<string>, p: seq<string>)
    requires d != [] && AllSegments(d) && AllSegments(p)
    requires Join(p, "/") == Join(d, "/") || StartsWith(Join(p, "/"), Join(d, "/") + "/")
    ensures IsPrefix(d, p)
    decreases |d|
  {
    var h := d[0];
    assert IsSegment(h);
    if |d| == 1 {
      assert Join(d, "/") == h;
      if Join(p, "/") == h {
        SegmentMatch(p, h, false);
      } else {
        SegmentMatch(p, h, true);
        assert Join(p[1..], "/") != [] by { JoinHead(p[1..]); }
      }
    } else {
      assert Join(d, "/") == h + "/" + Join(d[1..], "/");
      SegmentMatch(p, h, true);
      var p' := p[1..];
      var d' := d[1..];
      if Join(p, "/") == Join(d, "/") {
        assert Join(p', "/") == Join(d', "/");
      } else {
        assert StartsWith(Join(p', "/"), Join(d', "/") + "/") by {
          var jp := Join(p, "/");
          var jd := Join(d, "/") + "/";
          assert jp[..|jd|] == jd;
          assert jp == h + "/" + Join(p', "/");
          assert jd == h + "/" + (Join(d', "/") + "/");
          assert jp[|h| + 1..][..|Join(d', "/") + "/"|] == jd[|h| + 1..];
        }
      }
      JoinedPrefixIsSegmentPrefix(d', p');
      assert p[..|d|] == [h] + p'[..|d'|];
    }
  }

  /** When `Join(p)` is the segment `h` (followed by a separator when
      `more`), the first segment of `p` is `h`. */
  lemma SegmentMatch(p: seq<string>, h: string, more: bool)
    requires IsSegment(h) && AllSegments(p)
    requires if more then StartsWith(Join(p, "/"), h + "/") else Join(p, "/") == h
    ensures p != [] && p[0] == h
    ensures more ==> |p| > 1 && Join(p, "/") == h + "/" + Join(p[1..], "/")
    ensures !more ==> |p| == 1
  {
    var j := Join(p, "/");
    assert p != [];
    var q := p[0];
    assert IsSegment(q);
    assert |h| <= |j| && j[..|h|] == h by {
      if more { assert j[..|h| + 1][..|h|] == h; }
    }
    assert forall i :: 0 <= i < |h| ==> j[i] == h[i];
    assert more ==> |j| > |h| && j[|h|] == '/';
    assert !more ==> |j| == |h|;
    assert |p| == 1 ==> j == q;
    assert |p| > 1 ==> j == q + "/" + Join(p[1..], "/");
    assert |p| > 1 ==> j[|q|] == '/' && j[..|q|] == q;
    assert forall i :: 0 <= i < |q| ==> j[i] == q[i];
  }

  // ---------------------------------------------------------------------
  // validateExtension

  datatype ExtensionCheck = ExtensionCheck(valid: bool, error: Option<string>)

  function AllowedExtensions(kind: Kind): seq<string> {
    match kind
    case ImageKind => AllowedImageExtensions
    case VideoKind => AllowedVideoExtensions
    case OtherKind => []
  }

  /** validateExtension: the lower-cased `path.extname` must be in the
      allow-list of the claimed kind; an unknown kind is always rejected. */
  function ValidateExtension(filename: string, kind: Kind): (r: ExtensionCheck)
    ensures r.valid <==> r.error.None?
    ensures r.valid <==> Lower(Extname(filename)) in AllowedExtensions(kind)
    ensures kind == OtherKind ==> !r.valid
  {
    var ext := Lower(Extname(filename));
    match kind
    case ImageKind =>
      if ext in AllowedImageExtensions then ExtensionCheck(true, None)
      else ExtensionCheck(false, Some("Extension " + ext + " is not an allowed image extension"))
    case VideoKind =>
      if ext in AllowedVideoExtensions then ExtensionCheck(true, None)
      else ExtensionCheck(false, Some("Extension " + ext + " is not an allowed video extension"))
    case OtherKind => ExtensionCheck(false, Some("Unknown validation type"))
  }

  /** Sanitising a name never changes the extension gate's verdict on it:
      sanitizeFilename keeps the extension, lower-cased. */
  lemma SanitizePreservesExtensionVerdict(filename: string, kind: Kind)
    requires filename != ""
    ensures ValidateExtension(SanitizedBase(Str(filename)) + SanitizedExt(Str(filename)), kind).valid
        == ValidateExtension(filename, kind).valid
  {
    SanitizedNameSplits(Str(filename));
  }

  // ---------------------------------------------------------------------
  // A corrected sanitizeFilename

  /** The extension as evidently intended: lower-cased, and after its dot
      only the characters the base name may hold. */
  function SanitizedExtFixed(name: string): (r: string)
    ensures SafeExt(r)
  {
    var ext := Extname(name);
    if ext == [] then []
    else
      var kept := Filter(Lower(ext[1..]), IsSafeChar);
      assert ("." + kept)[1..] == kept;
      "." + kept
  }

  /** sanitizeFilename as evidently intended: the base name is taken with
      the extension as written (so `photo.JPG` keeps `photo`), and the
      extension keeps only allow-listed characters after its dot, so no NUL,
      separator or `..` can reach the result, which therefore always passes
      isPathTraversalSafe. */
  function SanitizeFilenameFixed(filename: Value): (r: string)
    ensures IsPathTraversalSafe(Str(r))
  {
    if !IsNonEmptyString(filename) then
      assert ValidBase("unnamed");
      BaseAndSafeExtIsSafe("unnamed", "");
      "unnamed"
    else
      var stem := Basename(filename.s, Extname(filename.s));
      CleanBaseIsValid(stem);
      BaseAndSafeExtIsSafe(CleanBase(stem), SanitizedExtFixed(filename.s));
      CleanBase(stem) + SanitizedExtFixed(filename.s)
  }

  lemma BaseAndSafeExtIsSafe(base: string, ext: string)
    requires ValidBase(base)
    requires SafeExt(ext)
    ensures IsPathTraversalSafe(Str(base + ext))
  {
    var name := base + ext;
    forall i | 0 <= i < |name|
      ensures name[i] != 0 as char && name[i] != '/' && name[i] != '\\'
      ensures name[i] == '.' ==> i == |base|
    {
      if i < |base| {
        assert name[i] == base[i] && IsSafeChar(base[i]);
      } else {
        assert name[i] == ext[i - |base|];
        if i > |base| { assert ext[i - |base|] == ext[1..][i - |base| - 1]; }
      }
    }
    forall i | 0 <= i <= |name| - 2 ensures !OccursAt(name, "..", i) {
      assert name[i..i + 2] == [name[i], name[i + 1]];
    }
  }

  // ---------------------------------------------------------------------
  // Names that are already clean

  /** A name sanitizeFilename should leave alone, apart from lower-casing
      the extension: a valid base, then a dot and at least one allow-listed
      character, 200 characters at most in all. */
  predicate CleanName(base: string, ext: string) {
    && ValidBase(base)
    && |ext| >= 2 && SafeExt(ext)
    && |base| + |ext| <= MaxFilenameLength
  }

  /** As written: when the extension of a clean name holds an upper-case
      letter, the base is not stripped of it (the lower-cased suffix does not
      match), so its letters are glued onto the base: `photo.JPG` becomes
      `photoJPG.jpg`. */
  lemma UpperCaseExtensionGluedAsWritten(base: string, ext: string)
    requires CleanName(base, ext)
    requires Lower(ext) != ext
    ensures SanitizedBase(Str(base + ext)) + SanitizedExt(Str(base + ext)) == base + ext[1..] + Lower(ext)
  {
    CleanNameSplits(base, ext);
    CleanBaseDropsDot(base, ext);
    GluedStem(base + ext, ext);
  }

  /** With an extension that lower-casing changes, the suffix `basename`
      is asked to strip is not there, and the whole name is the stem. */
  lemma GluedStem(name: string, ext: string)
    requires Extname(name) == ext && '/' !in name
    requires Lower(ext) != ext && |name| > |ext|
    ensures StemOf(name) == name
  {
    var suffix := Lower(ext);
    assert EndsWith(name, ext) by {
      assert LastComponent(name) == name;
    }
    assert !EndsWith(name, suffix) by {
      assert |suffix| == |ext|;
    }
    BasenameKeeps(name, suffix);
  }

  /** `path.basename` of a plain name that does not end with the suffix is
      the name itself. */
  lemma BasenameKeeps(name: string, suffix: string)
    requires '/' !in name && !EndsWith(name, suffix)
    ensures Basename(name, suffix) == name
  {
    assert suffix != name by {
      assert name[|name| - |name|..] == name;
    }
  }

  /** A clean name splits back into its base and extension, and holds no `/`. */
  lemma CleanNameSplits(base: string, ext: string)
    requires CleanName(base, ext)
    ensures '.' !in ext[1..] && '/' !in ext && '/' !in base + ext
    ensures Extname(base + ext) == ext && Basename(base + ext, ext) == base
  {
    SafeIsDotFree(ext[1..]);
    assert '.' !in ext[1..];
    assert '/' !in ext by {
      assert ext == [ext[0]] + ext[1..];
    }
    SplitJoined(base, ext);
    SafeIsDotFree(base);
    NoSlashJoined(base, ext);
  }

  /** The base-name pipeline, given a whole clean name, keeps it but for the
      dot, which the allow-list drops. */
  lemma CleanBaseDropsDot(base: string, ext: string)
    requires CleanName(base, ext)
    ensures CleanBase(base + ext) == base + ext[1..]
  {
    var name := base + ext;
    assert SpacesToUnderscore(ApplyPatterns(DangerousPatterns, name)) == name by {
      forall i | 0 <= i < |name|
        ensures IsSafeChar(name[i]) || (name[i] == '.' && i == |base|)
      {
        if i < |base| { assert name[i] == base[i]; }
        else if i > |base| { assert name[i] == ext[1..][i - |base| - 1]; }
      }
      TameKept(name);
    }
    assert Filter(name, IsSafeChar) == base + ext[1..] by {
      FilterDropsDot(base, ext);
    }
  }

  /** The pattern and white-space steps leave a tame string alone. */
  lemma TameKept(s: string)
    requires forall i :: 0 <= i < |s| ==> IsSafeChar(s[i]) || s[i] == '.'
    requires forall i :: 0 <= i < |s| - 1 ==> !(s[i] == '.' && s[i + 1] == '.')
    requires s != [] ==> s[0] != '.' && s[|s| - 1] != '.'
    ensures SpacesToUnderscore(ApplyPatterns(DangerousPatterns, s)) == s
  {
    forall i | 0 <= i < |s| ensures !IsSpace(s[i]) {
      TameCharIsHarmless(s[i]);
    }
    PatternsKeepTame(s);
    SpacesKept(s);
  }

  lemma FilterDropsDot(base: string, ext: string)
    requires CleanName(base, ext)
    ensures Filter(base + ext, IsSafeChar) == base + ext[1..]
  {
    var tail := ext[1..];
    assert ext == "." + tail;
    calc {
      Filter(base + ext, IsSafeChar);
      { assert base + ext == (base + ".") + tail; }
      Filter((base + ".") + tail, IsSafeChar);
      { FilterConcat(base + ".", tail, IsSafeChar); }
      Filter(base + ".", IsSafeChar) + Filter(tail, IsSafeChar);
      { FilterConcat(base, ".", IsSafeChar); }
      Filter(base, IsSafeChar) + Filter(".", IsSafeChar) + Filter(tail, IsSafeChar);
      { SafeFilterKeeps(base); SafeFilterKeeps(tail); FilterDot(); }
      base + [] + tail;
      { assert base + [] == base; }
      base + tail;
    }
  }

  lemma FilterDot()
    ensures Filter(".", IsSafeChar) == []
  {
    assert !IsSafeChar('.');
  }

  lemma SafeFilterKeeps(s: string)
    requires AllSafe(s)
    ensures Filter(s, IsSafeChar) == s
  {
    FilterKeepsAll(s, IsSafeChar);
  }

  /** `photo.JPG` is such a name. */
  lemma PhotoJpgAsWritten()
    ensures SanitizedBase(Str("photo" + ".JPG")) + SanitizedExt(Str("photo" + ".JPG")) == "photo" + "JPG" + ".jpg"
  {
    assert CleanName("photo", ".JPG") by {
      assert ValidBase("photo");
    }
    assert Lower(".JPG") == ".jpg" by {
      assert Lower(".JPG")[1] == 'j';
    }
    UpperCaseExtensionGluedAsWritten("photo", ".JPG");
    assert ".JPG"[1..] == "JPG";
  }

  /** As written: the extension is not filtered, so a backslash or a NUL in
      it reaches the result and the traversal gate then rejects the
      sanitised name. */
  lemma UnfilteredExtensionFailsGateAsWritten(name: string, c: char)
    requires c == '\\' || c == 0 as char
    requires c in Extname(name)
    ensures !IsPathTraversalSafe(Str(SanitizedBase(Str(name)) + SanitizedExt(Str(name))))
  {
    var ext := Extname(name);
    var k :| 0 <= k < |ext| && ext[k] == c;
    var e := SanitizedExt(Str(name));
    ExtOfNonEmpty(name);
    assert e[k] == LowerChar(c);
    SuffixCharFailsGate(SanitizedBase(Str(name)), e, k);
  }

  lemma ExtOfNonEmpty(name: string)
    requires Extname(name) != []
    ensures SanitizedExt(Str(name)) == Lower(Extname(name))
  {
    assert name != [];
  }

  lemma SuffixCharFailsGate(b: string, e: string, k: nat)
    requires k < |e| && (e[k] == '\\' || e[k] == 0 as char)
    ensures !IsPathTraversalSafe(Str(b + e))
  {
    assert (b + e)[|b| + k] == e[k];
  }

  /** Corrected: a clean name comes back unchanged but for its extension,
      which is lower-cased. */
  lemma CleanNameKeptFixed(base: string, ext: string)
    requires CleanName(base, ext)
    ensures SanitizeFilenameFixed(Str(base + ext)) == base + Lower(ext)
  {
    CleanNameSplits(base, ext);
    CleanBaseKeepsValid(base);
    CleanExtKept(base + ext, ext);
  }

  /** The base-name pipeline leaves a valid base alone. */
  lemma CleanBaseKeepsValid(base: string)
    requires ValidBase(base)
    ensures CleanBase(base) == base
  {
    TameKept(base);
    FilterKeepsAll(base, IsSafeChar);
  }

  /** The corrected extension of a name whose extension is already
      allow-listed is that extension, lower-cased. */
  lemma CleanExtKept(name: string, ext: string)
    requires Extname(name) == ext && |ext| >= 2 && SafeExt(ext)
    ensures SanitizedExtFixed(name) == Lower(ext)
  {
    var e := Lower(ext[1..]);
    LowerKeepsSafe(ext[1..]);
    SafeFilterKeeps(e);
    assert Lower(ext) == [LowerChar(ext[0])] + e;
  }

  /** Lower-casing keeps a string within the allow-list. */
  lemma LowerKeepsSafe(s: string)
    requires AllSafe(s)
    ensures AllSafe(Lower(s))
  {
    forall i | 0 <= i < |s| ensures IsSafeChar(Lower(s)[i]) {
      assert IsSafeChar(s[i]);
    }
  }

  /** A string of allow-listed characters and dots, with no `..` and no dot
      at either end, is left unchanged by every dangerous pattern. */
  lemma PatternsKeepTame(s: string)
    requires forall i :: 0 <= i < |s| ==> IsSafeChar(s[i]) || s[i] == '.'
    requires forall i :: 0 <= i < |s| - 1 ==> !(s[i] == '.' && s[i + 1] == '.')
    requires s != [] ==> s[0] != '.' && s[|s| - 1] != '.'
    ensures ApplyPatterns(DangerousPatterns, s) == s
  {
    forall p: Pattern ensures ApplyPattern(p, s) == s {
      PatternKeepsTame(p, s);
    }
    PatternsFix(DangerousPatterns, s);
  }

  lemma {:induction false} PatternsFix(ps: seq<Pattern>, s: string)
    requires forall p: Pattern :: ApplyPattern(p, s) == s
    ensures ApplyPatterns(ps, s) == s
  {
    if ps != [] {
      PatternsFix(ps[..|ps| - 1], s);
    }
  }

  lemma PatternKeepsTame(p: Pattern, s: string)
    requires forall i :: 0 <= i < |s| ==> IsSafeChar(s[i]) || s[i] == '.'
    requires forall i :: 0 <= i < |s| - 1 ==> !(s[i] == '.' && s[i + 1] == '.')
    requires s != [] ==> s[0] != '.' && s[|s| - 1] != '.'
    ensures ApplyPattern(p, s) == s
  {
    forall i | 0 <= i < |s|
      ensures !IsSpace(s[i]) && !IsControl(s[i]) && !IsWindowsForbidden(s[i]) && s[i] as int != 0
    {
      TameCharIsHarmless(s[i]);
    }
    match p
    case NulBytes => FilterKeepsAll(s, c => c as int != 0);
    case DotDot => NoDotDotKept(s);
    case WindowsForbidden => FilterKeepsAll(s, c => !IsWindowsForbidden(c));
    case ControlChars => FilterKeepsAll(s, c => !IsControl(c));
    case LeadingDots =>
    case TrailingDots =>
    case TrailingSpace =>
    case LeadingSpace =>
  }

  lemma TameCharIsHarmless(c: char)
    requires IsSafeChar(c) || c == '.'
    ensures !IsSpace(c) && !IsControl(c) && !IsWindowsForbidden(c) && c as int != 0
  {
  }

  lemma {:induction false} FilterKeepsAll(s: string, keep: char -> bool)
    requires forall i :: 0 <= i < |s| ==> keep(s[i])
    ensures Filter(s, keep) == s
  {
    if s != [] {
      FilterKeepsAll(s[1..], keep);
    }
  }

  lemma {:induction false} FilterConcat(a: string, b: string, keep: char -> bool)
    ensures Filter(a + b, keep) == Filter(a, keep) + Filter(b, keep)
  {
    if a != [] {
      assert (a + b)[1..] == a[1..] + b;
      FilterConcat(a[1..], b, keep);
    } else {
      assert a + b == b;
    }
  }

  lemma {:induction false} NoDotDotKept(s: string)
    requires forall i :: 0 <= i < |s| - 1 ==> !(s[i] == '.' && s[i + 1] == '.')
    ensures RemoveDotDot(s) == s
  {
    if s != [] {
      NoDotDotKept(s[1..]);
    }
  }

  lemma {:induction false} SpacesKept(s: string)
    requires forall i :: 0 <= i < |s| ==> !IsSpace(s[i])
    ensures SpacesToUnderscore(s) == s
    decreases |s|
  {
    if s != [] {
      SpacesKept(s[1..]);
    }
  }
}

=== FILE: security_options.dfy ===
/** The option validator of `backend/app/utils/security.js` (`validateOptions`):
    every field that is present is checked, each failure adds one message
    (nothing stops at the first), and each field that passes is copied,
    normalised, into `sanitized`. */
module OptionValidation {
  import opened Js
  import opened FilenameSafety

  /** The outcome of checking one field. */
  datatype Check = Absent | Accept(value: Value) | Reject(message: string)

  datatype OptionsCheck = OptionsCheck(valid: bool, sanitized: map<string, Value>, errors: seq<string>)

  const ResizeModes: seq<string> := ["percent", "absolute"]
  const CropModes: seq<string> := ["none", "cover"]
  const ImageFormats: seq<string> := ["webp", "avif", "jpg", "jpeg", "png", "svg"]
  const VideoFormats: seq<string> := ["mp4", "webm", "mov", "mkv", "gif"]
  const VideoPresets: seq<string> := ["web", "quality", "fast"]

  /** The fields checked for every kind, then those for images and for videos, in source order. */
  const CommonFields: seq<string> := ["quality", "resize", "resizeMode", "width", "height", "crop"]
  const ImageFields: seq<string> := ["formats", "useImageMagick"]
  const VideoFields: seq<string> := ["format", "bitrate", "preset", "audio"]

  function FieldsFor(kind: Kind): seq<string> {
    CommonFields + (match kind case ImageKind => ImageFields case VideoKind => VideoFields case OtherKind => [])
  }

  // ---------------------------------------------------------------------
  // The field rules

  /** An integer field: `parseInt(v, 10)` must lie in `[lo, hi]`. Width and
      height also skip `null`. */
  function RangeCheck(v: Value, lo: int, hi: int, message: string, skipNull: bool): Check {
    if v.Undefined? || (skipNull && v.Null?) then Absent
    else match ParseIntValue(v)
      case None => Reject(message)
      case Some(n) => if n < lo || n > hi then Reject(message) else Accept(Num(n))
  }

  /** An enumerated field: `allowed.includes(v)`, which holds only for a string member. */
  function MemberCheck(v: Value, allowed: seq<string>, message: string): Check {
    if v.Undefined? then Absent
    else if v.Str? && v.s in allowed then Accept(v)
    else Reject(message)
  }

  predicate IsAllowedFormat(f: Value) { f.Str? && f.s in ImageFormats }

  function InvalidFormats(items: seq<Value>): (r: seq<Value>)
    ensures |r| <= |items|
    ensures forall i :: 0 <= i < |r| ==> !IsAllowedFormat(r[i])
    ensures r == [] <==> forall i :: 0 <= i < |items| ==> IsAllowedFormat(items[i])
  {
    if items == [] then []
    else (if IsAllowedFormat(items[0]) then [] else [items[0]]) + InvalidFormats(items[1..])
  }

  function ElementStrs(items: seq<Value>): seq<string> {
    seq(|items|, i requires 0 <= i < |items| => ElementStr(items[i]))
  }

  function FormatsCheck(v: Value): Check {
    if v.Undefined? then Absent
    else if !v.Arr? then Reject("Formats must be an array")
    else
      var invalid := InvalidFormats(v.items);
      if |invalid| > 0 then Reject("Invalid formats: " + Join(ElementStrs(invalid), ", "))
      else Accept(v)
  }

  /** `/^\d+[KMG]?$/i`: one or more digits, then at most one unit letter. */
  predicate IsBitrate(s: string) {
    s != [] &&
    (AllDigits(s) ||
     (|s| >= 2 && AllDigits(s[..|s| - 1]) && s[|s| - 1] in "KMGkmg"))
  }

  /** The bitrate test coerces the value to a string first. */
  function BitrateCheck(v: Value): Check {
    if v.Undefined? then Absent
    else if IsBitrate(ToStr(v)) then Accept(v)
    else Reject("Invalid bitrate format")
  }

  /** A flag: any present value is kept as `Boolean(v)`. */
  function FlagCheck(v: Value): Check {
    if v.Undefined? then Absent else Accept(Bool(Truthy(v)))
  }

  /** The rule of each field, by name. */
  function CheckField(name: string, v: Value): Check {
    if name == "quality" then RangeCheck(v, 1, 100, "Quality must be a number between 1 and 100", false)
    else if name == "resize" then RangeCheck(v, 1, 200, "Resize percentage must be between 1 and 200", false)
    else if name == "resizeMode" then MemberCheck(v, ResizeModes, "Resize mode must be \"percent\" or \"absolute\"")
    else if name == "width" then RangeCheck(v, 1, 10000, "Width must be between 1 and 10000", true)
    else if name == "height" then RangeCheck(v, 1, 10000, "Height must be between 1 and 10000", true)
    else if name == "crop" then MemberCheck(v, CropModes, "Crop mode must be \"none\" or \"cover\"")
    else if name == "formats" then FormatsCheck(v)
    else if name == "useImageMagick" then FlagCheck(v)
    else if name == "format" then MemberCheck(v, VideoFormats, "Invalid video format: " + ToStr(v))
    else if name == "bitrate" then BitrateCheck(v)
    else if name == "preset" then MemberCheck(v, VideoPresets, "Invalid preset: " + ToStr(v))
    else if name == "audio" then FlagCheck(v)
    else Absent
  }

  // ---------------------------------------------------------------------
  // Accumulation

  datatype Acc = Acc(errors: seq<string>, sanitized: map<string, Value>)

  /** One `if (options.x !== undefined) { ... }` block: push the message or
      set the sanitised field. */
  function Record(acc: Acc, name: string, c: Check): Acc {
    match c
    case Absent => acc
    case Accept(v) => acc.(sanitized := acc.sanitized[name := v])
    case Reject(m) => acc.(errors := acc.errors + [m])
  }

  /** The fields `fs`, checked one after the other with `outcome`. */
  function RunWith(fs: seq<string>, outcome: string -> Check): Acc {
    if fs == [] then Acc([], map[])
    else
      var last := fs[|fs| - 1];
      Record(RunWith(fs[..|fs| - 1], outcome), last, outcome(last))
  }

  /** The fields `fs`, checked one after the other against the options. */
  function RunChecks(fs: seq<string>, props: map<string, Value>): Acc {
    RunWith(fs, f => Outcome(props, f))
  }

  function OptionsVerdict(options: Value, kind: Kind): OptionsCheck {
    if !(options.Obj? || options.Arr?) then OptionsCheck(false, map[], ["Options must be an object"])
    else
      var props := if options.Obj? then options.props else map[];
      var acc := RunChecks(FieldsFor(kind), props);
      OptionsCheck(|acc.errors| == 0, acc.sanitized, acc.errors)
  }

  /** validateOptions, one field block after another. */
  method ValidateOptions(options: Value, kind: Kind) returns (r: OptionsCheck)
    ensures r == OptionsVerdict(options, kind)
    ensures r.valid <==> r.errors == []
    ensures !(options.Obj? || options.Arr?) ==> r.errors == ["Options must be an object"] && r.sanitized == map[]
  {
    if !(options.Obj? || options.Arr?) {
      return OptionsCheck(false, map[], ["Options must be an object"]);
    }
    var props := if options.Obj? then options.props else map[];
    var acc := CommonBlocks(props);
    if kind == ImageKind {
      acc := ImageBlocks(props, acc);
    } else if kind == VideoKind {
      acc := VideoBlocks(props, acc);
    } else {
      assert FieldsFor(kind) == CommonFields;
    }
    r := OptionsCheck(|acc.errors| == 0, acc.sanitized, acc.errors);
  }

  /** The blocks checked for every kind. */
  method CommonBlocks(props: map<string, Value>) returns (acc: Acc)
    ensures acc == RunChecks(CommonFields, props)
  {
    acc := Acc([], map[]);
    ghost var done: seq<string> := [];
    acc := Record(acc, "quality", Outcome(props, "quality"));
    done := Done(done, "quality", props, acc);
    acc := Record(acc, "resize", Outcome(props, "resize"));
    done := Done(done, "resize", props, acc);
    acc := Record(acc, "resizeMode", Outcome(props, "resizeMode"));
    done := Done(done, "resizeMode", props, acc);
    acc := Record(acc, "width", Outcome(props, "width"));
    done := Done(done, "width", props, acc);
    acc := Record(acc, "height", Outcome(props, "height"));
    done := Done(done, "height", props, acc);
    acc := Record(acc, "crop", Outcome(props, "crop"));
    done := Done(done, "crop", props, acc);
    CommonFieldsInOrder();
  }

  /** The blocks checked for images only. */
  method ImageBlocks(props: map<string, Value>, common: Acc) returns (acc: Acc)
    requires common == RunChecks(CommonFields, props)
    ensures acc == RunChecks(FieldsFor(ImageKind), props)
  {
    ghost var done: seq<string> := CommonFields;
    acc := Record(common, "formats", Outcome(props, "formats"));
    done := Done(done, "formats", props, acc);
    acc := Record(acc, "useImageMagick", Outcome(props, "useImageMagick"));
    done := Done(done, "useImageMagick", props, acc);
    ImageFieldsInOrder();
  }

  /** The blocks checked for videos only. */
  method VideoBlocks(props: map<string, Value>, common: Acc) returns (acc: Acc)
    requires common == RunChecks(CommonFields, props)
    ensures acc == RunChecks(FieldsFor(VideoKind), props)
  {
    ghost var done: seq<string> := CommonFields;
    acc := Record(common, "format", Outcome(props, "format"));
    done := Done(done, "format", props, acc);
    acc := Record(acc, "bitrate", Outcome(props, "bitrate"));
    done := Done(done, "bitrate", props, acc);
    acc := Record(acc, "preset", Outcome(props, "preset"));
    done := Done(done, "preset", props, acc);
    acc := Record(acc, "audio", Outcome(props, "audio"));
    done := Done(done, "audio", props, acc);
    VideoFieldsInOrder();
  }

  /** The field lists, one block appended at a time. */
  lemma CommonFieldsInOrder()
    ensures [] + ["quality"] + ["resize"] + ["resizeMode"] + ["width"] + ["height"] + ["crop"] == CommonFields
  {
  }

  lemma ImageFieldsInOrder()
    ensures CommonFields + ["formats"] + ["useImageMagick"] == FieldsFor(ImageKind)
  {
  }

  lemma VideoFieldsInOrder()
    ensures CommonFields + ["format"] + ["bitrate"] + ["preset"] + ["audio"] == FieldsFor(VideoKind)
  {
  }

  /** Bookkeeping for ValidateOptions: having checked `done` and then `name`,
      the accumulator is RunChecks of `done + [name]`. */
  ghost function Done(done: seq<string>, name: string, props: map<string, Value>, acc: Acc): (r: seq<string>)
    requires acc == Record(RunChecks(done, props), name, Outcome(props, name))
    ensures r == done + [name] && acc == RunChecks(r, props)
  {
    assert (done + [name])[..|done|] == done;
    done + [name]
  }

  // ---------------------------------------------------------------------
  // Properties

  /** The outcome of one field's check on the given options. */
  function Outcome(props: map<string, Value>, f: string): Check {
    CheckField(f, Get(props, f))
  }

  /** A field is kept iff it is one of the checked fields and its check
      passed, and the kept value is the one the check produced. */
  lemma {:induction false} RunWithSanitized(fs: seq<string>, outcome: string -> Check)
    ensures var acc := RunWith(fs, outcome);
      && (forall f :: f in acc.sanitized <==> f in fs && outcome(f).Accept?)
      && (forall f :: f in acc.sanitized ==> acc.sanitized[f] == outcome(f).value)
  {
    if fs != [] {
      var init := fs[..|fs| - 1];
      RunWithSanitized(init, outcome);
      assert fs == init + [fs[|fs| - 1]];
    }
  }

  /** Errors accumulate without stopping: a rejected field always
      contributes its message, there is at most one message per field, and
      there are no messages exactly when no field was rejected. */
  lemma {:induction false} RunWithErrors(fs: seq<string>, outcome: string -> Check)
    ensures var acc := RunWith(fs, outcome);
      && (forall i :: 0 <= i < |fs| && outcome(fs[i]).Reject? ==> outcome(fs[i]).message in acc.errors)
      && |acc.errors| <= |fs|
      && (acc.errors == [] <==> forall i :: 0 <= i < |fs| ==> !outcome(fs[i]).Reject?)
  {
    if fs != [] {
      var init := fs[..|fs| - 1];
      RunWithErrors(init, outcome);
      assert forall i :: 0 <= i < |init| ==> fs[i] == init[i];
    }
  }

  /** The whole verdict: a non-object gives exactly one error and nothing
      sanitised; otherwise a field appears in `sanitized` iff it is checked
      for this kind and present and passed, and the options are valid iff
      no checked field was rejected. */
  lemma OptionsVerdictSpec(options: Value, kind: Kind)
    ensures var r := OptionsVerdict(options, kind);
      && (!(options.Obj? || options.Arr?) ==> !r.valid && |r.errors| == 1 && r.sanitized == map[])
      && ((options.Obj? || options.Arr?) ==>
            var props := if options.Obj? then options.props else map[];
            && (forall f :: f in r.sanitized <==> f in FieldsFor(kind) && Outcome(props, f).Accept?)
            && (r.valid <==> forall i :: 0 <= i < |FieldsFor(kind)| ==> !Outcome(props, FieldsFor(kind)[i]).Reject?)
            && |r.errors| <= |FieldsFor(kind)|)
  {
    if options.Obj? || options.Arr? {
      var props := if options.Obj? then options.props else map[];
      RunWithSanitized(FieldsFor(kind), f => Outcome(props, f));
      RunWithErrors(FieldsFor(kind), f => Outcome(props, f));
      assert forall f :: f in FieldsFor(kind) <==> exists i :: 0 <= i < |FieldsFor(kind)| && FieldsFor(kind)[i] == f;
    }
  }

  /** An integer field is kept iff it is present (and, for width and
      height, not null) and `parseInt` of it lies in the range; the kept
      value is that integer. */
  lemma RangeCheckSpec(v: Value, lo: int, hi: int, message: string, skipNull: bool)
    ensures var c := RangeCheck(v, lo, hi, message, skipNull);
      && (c.Absent? <==> v.Undefined? || (skipNull && v.Null?))
      && (c.Accept? <==> !c.Absent? && ParseIntValue(v).Some? && lo <= ParseIntValue(v).value <= hi)
      && (c.Accept? ==> c.value == Num(ParseIntValue(v).value))
      && (c.Reject? ==> c.message == message)
  {
  }

  /** A number, given as a number or as its text, is checked as the
      integer `parseInt` reads back from its text: itself below `10^21` in
      magnitude, so that it is kept in range and rejected outside; from
      `10^21` on only its signed leading digit, which is what is kept. */
  lemma InRangeNumberKept(n: int, lo: int, hi: int, message: string, skipNull: bool)
    ensures var p := ReadBack(n);
      RangeCheck(Num(n), lo, hi, message, skipNull) == (if lo <= p <= hi then Accept(Num(p)) else Reject(message))
    ensures var p := ReadBack(n);
      RangeCheck(Str(IntToString(n)), lo, hi, message, skipNull) == (if lo <= p <= hi then Accept(Num(p)) else Reject(message))
    ensures -(ExponentFrom as int) < n < ExponentFrom ==>
      RangeCheck(Num(n), lo, hi, message, skipNull) == (if lo <= n <= hi then Accept(Num(n)) else Reject(message))
  {
    ParseIntOfIntToString(n);
    assert ParseIntValue(Num(n)) == Some(ReadBack(n));
    assert ParseIntValue(Str(IntToString(n))) == Some(ReadBack(n));
  }

  /** Quality 0 and 101 are rejected with their message; 1 and 100 are kept. */
  lemma QualityBounds()
    ensures CheckField("quality", Num(0)) == Reject("Quality must be a number between 1 and 100")
    ensures CheckField("quality", Num(101)) == Reject("Quality must be a number between 1 and 100")
    ensures CheckField("quality", Num(1)) == Accept(Num(1))
    ensures CheckField("quality", Num(100)) == Accept(Num(100))
  {
    InRangeNumberKept(0, 1, 100, "Quality must be a number between 1 and 100", false);
    InRangeNumberKept(101, 1, 100, "Quality must be a number between 1 and 100", false);
    InRangeNumberKept(1, 1, 100, "Quality must be a number between 1 and 100", false);
    InRangeNumberKept(100, 1, 100, "Quality must be a number between 1 and 100", false);
  }

  /** A quality of `10^21` or more passes the check: `String` writes it in
      exponent form and `parseInt` reads its leading digit, between 1 and 9,
      which is what is kept. */
  lemma HugeQualityKept(n: int)
    requires n >= ExponentFrom
    ensures 1 <= ReadBack(n) <= 9
    ensures CheckField("quality", Num(n)) == Accept(Num(ReadBack(n)))
  {
    ParseIntOfIntToString(n);
    InRangeNumberKept(n, 1, 100, "Quality must be a number between 1 and 100", false);
  }

  /** An enumerated field is kept iff it is a string in the allowed set. */
  lemma MemberCheckSpec(v: Value, allowed: seq<string>, message: string)
    ensures var c := MemberCheck(v, allowed, message);
      && (c.Accept? <==> v.Str? && v.s in allowed)
      && (c.Accept? ==> c.value == v)
      && (c.Reject? <==> !v.Undefined? && !(v.Str? && v.s in allowed))
  {
  }

  /** A formats array is kept iff every element is one of the six allowed
      format names; otherwise the message lists the offending elements. */
  lemma FormatsCheckSpec(items: seq<Value>)
    ensures FormatsCheck(Arr(items)).Accept? <==> forall i :: 0 <= i < |items| ==> IsAllowedFormat(items[i])
    ensures FormatsCheck(Arr(items)).Reject? ==>
      FormatsCheck(Arr(items)).message == "Invalid formats: " + Join(ElementStrs(InvalidFormats(items)), ", ")
  {
  }

  /** The bitrate pattern: `2M`, `500k` and `800` pass; `2MB`, `M` and the
      empty string do not. */
  lemma BitrateExamples()
    ensures IsBitrate("2M") && IsBitrate("500k") && IsBitrate("800")
    ensures !IsBitrate("2MB") && !IsBitrate("M") && !IsBitrate("")
  {
    assert AllDigits("2M"[..1]);
    assert AllDigits("500k"[..3]);
    assert !AllDigits("2MB"[..2]) by { assert !IsDigit("2MB"[1]); }
    assert !AllDigits("2MB") by { assert !IsDigit("2MB"[1]); }
    assert !AllDigits("M") by { assert !IsDigit("M"[0]); }
  }

  /** Any bitrate string that passes is digits with an optional unit, so it
      is never empty and its digit prefix is all of it but the unit. */
  lemma BitrateShape(s: string)
    requires IsBitrate(s)
    ensures IsDigit(s[0])
    ensures |DigitPrefix(s)| >= |s| - 1
  {
    if AllDigits(s) {
      DigitPrefixOfDigits(s);
    } else {
      DigitPrefixOfDigits(s[..|s| - 1]);
      DigitPrefixExtends(s[..|s| - 1], s);
    }
  }

  lemma DigitPrefixExtends(d: string, s: string)
    requires AllDigits(d) && StartsWith(s, d)
    ensures |DigitPrefix(s)| >= |d|
  {
    if d != [] {
      assert IsDigit(s[0]);
      DigitPrefixExtends(d[1..], s[1..]);
    }
  }
}

=== FILE: svg_processor.dfy ===
/** `backend/app/services/svgProcessor.js` (`optimizeSVGs`): each staged SVG
    is optimised with SVGO into `<stem>.svg` beside it, and the staged input
    is then removed unless it is the output itself. */
module SvgProcessor {
  import opened Js
  import opened Media

  /** The SVGO configuration: float precision and the two preset overrides. */
  datatype SvgoConfig = SvgoConfig(floatPrecision: Value, removeViewBox: Value, cleanupIds: Value)

  /** SVGO's `optimize` on the file at a path: the size of the optimised
      text, or the message it throws. */
  type Optimizer = (string, SvgoConfig) -> Attempt<nat>

  /** The configuration built from the options: precision 2, keep the
      viewBox, clean up IDs, unless the options say otherwise. */
  function ConfigOf(options: map<string, Value>): (c: SvgoConfig)
    ensures c.floatPrecision == OrDefault(Get(options, "precision"), Num(2))
    ensures c.removeViewBox == OrDefault(Get(options, "removeViewBox"), Bool(false))
    ensures c.cleanupIds == OrDefault(Get(options, "cleanupIDs"), Bool(true))
  {
    SvgoConfig(
      OrDefault(Get(options, "precision"), Num(2)),
      OrDefault(Get(options, "removeViewBox"), Bool(false)),
      OrDefault(Get(options, "cleanupIDs"), Bool(true)))
  }

  /** The output name of a file: its client name's stem plus `.svg`. */
  function SvgOutputName(f: UploadedFile): string { Stem(f.originalname) + ".svg" }

  /** One iteration of the loop. `deleteInput` is true in the source; the
      corrected batch pipeline passes false when a rasterising pass still
      has to read the staged file. */
  function OptimizeFile(f: UploadedFile, config: SvgoConfig, optimize: Optimizer, deleteInput: bool, store: Store)
    : (FileResult, Store)
  {
    var p := PathOf(f);
    match Stat(store, p)
    case Failed(m) => (Error(f.originalname, m), store)
    case Done(orig) =>
      match optimize(p, config)
      case Failed(m) => (Error(f.originalname, m), store)
      case Done(size) =>
        var name := SvgOutputName(f);
        var out := OutputPath(f, name);
        var written := store[out := size];
        var entry := ProcessedFile(Str("svg"), name, written[out], Unclamped(orig, written[out]));
        if deleteInput && p != out then
          match Unlink(written, p)
          case Failed(m) => (Error(f.originalname, m), written)
          case Done(st) => (Success(f.originalname, orig, [entry], None), st)
        else (Success(f.originalname, orig, [entry], None), written)
  }

  /** The loop over `files`, in order. */
  function OptimizeLane(files: seq<UploadedFile>, config: SvgoConfig, optimize: Optimizer, deleteInput: bool, store: Store)
    : (seq<FileResult>, Store)
  {
    Lane(files, (f, st) => var (r, st') := OptimizeFile(f, config, optimize, deleteInput, st); ([r], st'), store)
  }

  /** optimizeSVGs: one result per file, each file caught on its own. */
  method OptimizeSvgs(files: seq<UploadedFile>, options: map<string, Value>, optimize: Optimizer, store: Store)
    returns (results: seq<FileResult>, st: Store)
    ensures (results, st) == OptimizeLane(files, ConfigOf(options), optimize, true, store)
  {
    var config := SvgoConfig(
      OrDefault(Get(options, "precision"), Num(2)),
      OrDefault(Get(options, "removeViewBox"), Bool(false)),
      OrDefault(Get(options, "cleanupIDs"), Bool(true)));
    results := [];
    st := store;
    for i := 0 to |files|
      invariant (results, st) == OptimizeLane(files[..i], config, optimize, true, store)
    {
      var f := files[i];
      assert files[..i + 1][..i] == files[..i];
      var p := PathOf(f);
      if p !in st {
        results := results + [Error(f.originalname, StatError(p))];
      } else {
        var orig := st[p];
        var optimized := optimize(p, config);
        if optimized.Failed? {
          results := results + [Error(f.originalname, optimized.message)];
        } else {
          var name := Stem(f.originalname) + ".svg";
          var out := OutputPath(f, name);
          st := st[out := optimized.value];
          var size := st[out];
          var entry := ProcessedFile(Str("svg"), name, size, Unclamped(orig, size));
          if p != out {
            st := map q | q in st && q != p :: st[q];
          }
          results := results + [Success(f.originalname, orig, [entry], None)];
        }
      }
    }
    assert files[..|files|] == files;
  }

  // ---------------------------------------------------------------------
  // Properties

  /** A file's result carries its client name; a success has exactly one
      output, in format `svg`, named after the client name, with unclamped
      savings and no processor. */
  lemma OptimizeFileResult(f: UploadedFile, config: SvgoConfig, optimize: Optimizer, deleteInput: bool, store: Store)
    ensures var r := OptimizeFile(f, config, optimize, deleteInput, store).0;
      && r.name == f.originalname
      && (r.Success? ==> SvgSuccess(r, f))
  {
    var p := PathOf(f);
    var r := OptimizeFile(f, config, optimize, deleteInput, store).0;
    if p in store {
      var o := optimize(p, config);
      if o.Done? {
        var out := OutputPath(f, SvgOutputName(f));
        var written := store[out := o.value];
        assert written[out] == o.value;
        var entry := ProcessedFile(Str("svg"), SvgOutputName(f), o.value, Unclamped(store[p], o.value));
        assert r.Success? ==> r == Success(f.originalname, store[p], [entry], None);
      }
    }
  }

  /** The shape of a successful result of optimizeSVGs. */
  predicate SvgSuccess(r: FileResult, f: UploadedFile) {
    r.Success?
    && |r.processedFiles| == 1
    && r.processedFiles[0].format == Str("svg")
    && r.processedFiles[0].filename == Stem(f.originalname) + ".svg"
    && r.processedFiles[0].savings == Unclamped(r.originalSize, r.processedFiles[0].size)
    && r.processor == None
  }

  /** Exactly one result per file, in input order, each success shaped as
      above. */
  lemma OptimizeLaneResults(files: seq<UploadedFile>, config: SvgoConfig, optimize: Optimizer,
                            deleteInput: bool, store: Store)
    ensures var rs := OptimizeLane(files, config, optimize, deleteInput, store).0;
      && Names(rs) == OriginalNames(files)
      && forall i :: 0 <= i < |rs| && rs[i].Success? ==> SvgSuccess(rs[i], files[i])
  {
    var step: FileStep := (f, st) => var (r, st') := OptimizeFile(f, config, optimize, deleteInput, st); ([r], st');
    forall f, st
      ensures |step(f, st).0| == 1 && step(f, st).0[0].name == f.originalname
      ensures step(f, st).0[0].Success? ==> SvgSuccess(step(f, st).0[0], f)
    {
      OptimizeFileResult(f, config, optimize, deleteInput, st);
    }
    LaneResults(files, step, store, (r: FileResult, f: UploadedFile) => r.Success? ==> SvgSuccess(r, f));
  }

  /** After a successful optimisation the output is present, and the staged
      input is gone exactly when it is not the output; nothing else is
      removed. A failed file leaves the store as it was. */
  lemma OptimizeFileStore(f: UploadedFile, config: SvgoConfig, optimize: Optimizer, store: Store)
    ensures var (r, st) := OptimizeFile(f, config, optimize, true, store);
      var out := OutputPath(f, SvgOutputName(f));
      && (r.Success? ==> st.Keys == (store.Keys + {out}) - (if PathOf(f) == out then {} else {PathOf(f)}))
      && (r.Error? ==> st == store)
  {
    var p := PathOf(f);
    if p in store {
      var o := optimize(p, config);
      if o.Done? {
        var out := OutputPath(f, SvgOutputName(f));
        var written := store[out := o.value];
        assert p in written;
        if p != out {
          var u := Unlink(written, p);
          assert u.Done? && u.value.Keys == written.Keys - {p};
        }
      }
    }
  }

  /** With `deleteInput` off, the loop only adds files: every staged input
      is still there for a later pass. */
  lemma OptimizeLaneKeepsInputs(files: seq<UploadedFile>, config: SvgoConfig, optimize: Optimizer, store: Store)
    ensures store.Keys <= OptimizeLane(files, config, optimize, false, store).1.Keys
  {
    var step: FileStep := (f, st) => var (r, st') := OptimizeFile(f, config, optimize, false, st); ([r], st');
    forall f: UploadedFile, st: Store ensures st.Keys <= step(f, st).1.Keys {
    }
    LaneKeepsFiles(files, step, store);
  }
}
